=== FILE: README.md ===
# A verified model of the promotional-copy agent and its model deployment tools

This project models, in Dafny, the deterministic core of a repository with two parts.
The first part is a set of model-deployment helpers. The second is a promotional-copy
agent.

**Model deployment.** The helpers launch a vLLM server and serve a diffusers
text-to-image pipeline. The model covers:

- the vLLM command line: the `-key value` / `--flag` tokenizer, the sorted
  re-serialisation and the merge in which the command line wins;
- the YAML configuration cache and the getters built on it;
- how the image server resolves the parameters of one request.

**The agent.** A LangGraph workflow takes a request through six nodes: input safety
check, context enhancement, copy writing, image prompting, image generation and
output safety check. The model covers:

- the settings and their fallbacks;
- MCP configuration: `${VAR}` expansion, the enabled-server filter, tool names per
  stage and the transport registry;
- the skill registry and the skill loader;
- the rule-based safety checker;
- multimodal message building;
- the graph with its two routers;
- the output shaping of the context-enhancer, image-prompt and image-generator nodes.

**What is a parameter.** LLM replies, JSON and YAML decoding, file contents, directory
listings, environment variables and HTTP replies are not modelled. Each is either a
plain input value or a function-typed parameter, an "oracle". So every property below
holds whatever those oracles return.

**Modules.** There is one module per source file. Two modules are shared:

- `Common`: Option/Result, the YAML/JSON value tree `Value`, Python truthiness,
  `str()`, `or`, `dict.get`, `strip`, `split`, `join`, `splitlines` and `int()` on
  decimal text;
- `Base64`: the standard alphabet of RFC 4648, section 4, with the round trip
  `Decode(Encode(b)) == Some(b)`.

Code that changes state keeps its form:

- `_load_config`'s cache, the skill registry, the transport registry and the MCP client
  log are classes. Their methods are proved against functions of the old state.
- Loops that append or scan are methods with loop invariants, each proved equal to a
  specification function. These are argument parsing, key serialisation, prompt-block
  building, reply decoding, forbidden-word loading and candidate scanning.

## Model

| member | source | states |
|---|---|---|
| LaunchVllm.KeyOf | model_deployment/launch_vllm.py:26-28 | an option key has all its leading dashes removed and contains no `-` (inner dashes became `_`) |
| LaunchVllm.FirstItem | model_deployment/launch_vllm.py:24-37 | each loop step consumes one or two tokens, exactly the next ones of the input, so the loop ends |
| LaunchVllm.ParseKvArgs | model_deployment/launch_vllm.py:19-38 | the while loop returns exactly the positionals and the option map of the tokenization |
| LaunchVllm.FlattenTokenize | model_deployment/launch_vllm.py:22-37 | the tokenization consumes every argument once, in order |
| LaunchVllm.OptionItemsAreOptions | model_deployment/launch_vllm.py:26 | a token is read as an option iff it starts with `-` and is longer than one character |
| LaunchVllm.TakenValuesNotDashed | model_deployment/launch_vllm.py:29-31 | a value taken for a key never starts with `-`, so a negative number is never a value |
| LaunchVllm.FlagsPrecedeDashes | model_deployment/launch_vllm.py:32-34 | a key becomes a flag (True) only when no token follows or the next one starts with `-` |
| LaunchVllm.PositionalsAreNotOptions | model_deployment/launch_vllm.py:35-37 | every positional, including a lone `-`, is a non-option token |
| LaunchVllm.ParseWithoutOptions | model_deployment/launch_vllm.py:35-37 | without option tokens all arguments are positionals, in their order, and the map is empty |
| LaunchVllm.KeysOfKvOf | model_deployment/launch_vllm.py:27-34 | a key is in the map iff some option token produced it |
| LaunchVllm.LastValueWins | model_deployment/launch_vllm.py:29-34 | a repeated key keeps the value of its last occurrence |
| LaunchVllm.SortedKeysOrdered | model_deployment/launch_vllm.py:44 | the keys are emitted in strictly increasing order, each once |
| LaunchVllm.KvToArgs | model_deployment/launch_vllm.py:41-49 | the loop emits, per sorted key, `--` plus the key with `_` turned into `-`, then the value unless it is True |
| LaunchVllm.KvToArgsLength | model_deployment/launch_vllm.py:41-49 | the output length is the key count plus the number of non-True values |
| LaunchVllm.KeyOfDashedKey | model_deployment/launch_vllm.py:27-28 | reading back a serialised key gives the key (no dash, no leading underscore) |
| LaunchVllm.KvToArgsPositionals | model_deployment/launch_vllm.py:41-49 | parsing positionals followed by the serialised map gives those positionals back |
| LaunchVllm.KvToArgsOptions | model_deployment/launch_vllm.py:41-49 | parsing the serialised map gives the map back: the serialiser and the parser are inverse |
| LaunchVllm.MergeVllmArgs | model_deployment/launch_vllm.py:52-58 | the merge is the config positionals followed by the serialised union of both option maps |
| LaunchVllm.MergeMeaning | model_deployment/launch_vllm.py:52-58 | the merged list keeps the config positionals and drops the command line's; its keys are the union; the command line wins on shared keys |
| DeployConfig.FileDoc | model_deployment/config.py:18-22 | a missing file or an empty document reads as `{}` |
| DeployConfig.ConfigCache.constructor | model_deployment/config.py:11 | the cache starts empty with no disk reads |
| DeployConfig.ConfigCache.LoadCached | model_deployment/config.py:14-24 | the result is the file's document, read from disk only on the first call for that name, and the name is then cached; a cached name leaves cache and reads unchanged and returns the cached document |
| DeployConfig.ConfigCache.LoadConfig | model_deployment/config.py:27-29 | returns the cached document of the name |
| DeployConfig.ReadsAtMostOnce | model_deployment/config.py:14-24 | the disk has been read exactly as many times as there are cached names, whatever the sequence of loads |
| DeployConfig.PairOf | model_deployment/config.py:40 | an element of the iterable given to `dict()` is a pair only when it is a two-item list with a string key or a two-character string; another length raises ValueError, a scalar TypeError |
| DeployConfig.PairsToDict | model_deployment/config.py:40 | `dict(list)` succeeds iff every element is a pair; its keys are exactly the pairs' keys, and the last pair's value is kept for its key |
| DeployConfig.LastPairWins | model_deployment/config.py:40 | a key's value is the value of its last pair |
| DeployConfig.DictOf | model_deployment/config.py:40 | `dict(v)`: a mapping is copied, `""` gives `{}`, a non-empty string raises ValueError, a list is read as pairs, None and numbers raise TypeError |
| DeployConfig.Section | model_deployment/config.py:40 | a missing section is `{}`; a present one is whatever `dict()` makes of it |
| DeployConfig.VllmConfig | model_deployment/config.py:35-42 | `{}` unless `backend == "vllm"`; it fails iff the backend is vllm and `dict()` of the section raises; otherwise the section always has a `model_id` |
| DeployConfig.VllmConfigContents | model_deployment/config.py:37-42 | the vllm config is the section plus `model_id`; the top-level `model_id` is used only when the section lacks one |
| DeployConfig.ConfigCache.GetVllmConfig | model_deployment/config.py:35-42 | the method returns the vllm config of the cached document |
| DeployConfig.OptionArgsAt | model_deployment/config.py:54-64 | each option becomes its flag followed by its value |
| DeployConfig.BuildVllmArgs | model_deployment/config.py:45-65 | the `extend` sequence builds exactly the specified argument list |
| DeployConfig.VllmArgsShape | model_deployment/config.py:47-53 | no config or an empty `model_id` gives `[]`; otherwise `model_id` comes first, followed by flag/value pairs |
| DeployConfig.OptionForMeaning | model_deployment/config.py:54-64 | an option is emitted iff it is wanted: truthy, and tensor-parallel-size only when above 1 |
| DeployConfig.VllmOptionsOrder | model_deployment/config.py:54-65 | options come in the fixed order host, port, tensor-parallel-size, gpu-memory-utilization, max-model-len; exactly the wanted ones appear; each value is `str()` of the setting |
| DeployConfig.ConfigCache.GetVllmArgs | model_deployment/config.py:45-65 | the method returns the argument list of the cached document |
| DeployConfig.ServerParams | model_deployment/config.py:77-88 | the server parameters are exactly `host` and `port` |
| DeployConfig.Chosen | model_deployment/config.py:84-87 | an override that is present and not None wins; otherwise the section's value or the default |
| DeployConfig.ApplyServerOverrides | model_deployment/config.py:80-88 | the overwrite loop gives the specified parameters |
| DeployConfig.OtherOverridesIgnored | model_deployment/config.py:84-87 | overrides of keys other than host and port change nothing |
| DeployConfig.ConfigCache.GetDiffusersServerParams | model_deployment/config.py:77-88 | error iff the diffusers section is malformed; otherwise the parameters of the cached document |
| DeployConfig.InferenceDefaultsOf | model_deployment/config.py:104-116 | each absent key takes its default: 1024×1024, 50 steps, cfg 4.0, the built-in negative prompt |
| DeployConfig.ConfigCache.GetDiffusersInferenceDefaults | model_deployment/config.py:104-116 | error iff the section is malformed; otherwise the defaults of the cached document |
| DiffusersServe.ResolvedSize | model_deployment/diffusers_serve.py:65 | a missing or empty size becomes `"{default_width}x{default_height}"` |
| DiffusersServe.SizeOf | model_deployment/diffusers_serve.py:71-76 | width and height come from the size only when it contains `x` and splits into exactly two parts; a non-integer part is an error |
| DiffusersServe.SizeOfIntegers | model_deployment/diffusers_serve.py:71-76 | `"AxB"` written from two integers parses back to them |
| DiffusersServe.DefaultSizeRoundTrip | model_deployment/diffusers_serve.py:65-76 | the default size string parses back to the configured width and height |
| DiffusersServe.Resolve | model_deployment/diffusers_serve.py:63-76 | an `n` that `int()` rejects (text that is not an integer, None, a list, NaN, an infinity) fails with status 500, and so does a `true_cfg_scale` (or configured default) that `float()` rejects; a resolved call keeps the prompt, `int(n)` and the accepted scale |
| DiffusersServe.ResolveRejectsNonNumericScale | model_deployment/diffusers_serve.py:68 | a scale such as `"abc"`, a non-empty list or a non-empty dict fails with status 500, because `float()` runs outside the `try` |
| DiffusersServe.ResolveTruncatesFloatCount | model_deployment/diffusers_serve.py:64 | a float `n` such as `2.7` is truncated to `2`, not refused |
| DiffusersServe.ResolveFallbacks | model_deployment/diffusers_serve.py:66-68 | missing or zero steps and an empty negative prompt fall back to the configured defaults |
| DiffusersServe.ResolveDefaultDimensions | model_deployment/diffusers_serve.py:65-76 | without a size the call uses the configured width and height |
| DiffusersServe.NonIntegerSizeFails | model_deployment/diffusers_serve.py:99-101 | a size that splits in two with a non-integer part fails with status 500 rather than falling back |
| DiffusersServe.EncodeAllDecodes | model_deployment/diffusers_serve.py:92-98 | every returned string decodes back to its image |
| DiffusersServe.EncodeImages | model_deployment/diffusers_serve.py:92-98 | the loop encodes the first `n` images, in order |
| DiffusersServe.Generations | model_deployment/diffusers_serve.py:59-68 | a missing or empty prompt is rejected with status 400; with a prompt, an unreadable config, an `n` that `int()` rejects or a scale that `float()` rejects gives status 500 |
| DiffusersServe.GenerationsResult | model_deployment/diffusers_serve.py:63-98 | at most `n` images are returned, each decoding to the pipeline's image at its position |
| DiffusersServe.ImagesGenerations | model_deployment/diffusers_serve.py:57-101 | a missing prompt is rejected before the config is touched; otherwise the config is loaded and the response is that of `Generations`, so a non-numeric `true_cfg_scale` or `n` gives status 500 |
| DiffusersServe.ConfiguredDefaults | model_deployment/diffusers_serve.py:63 | the defaults fail iff the diffusers section is malformed |
| DiffusersServe.OverridesOf | model_deployment/diffusers_serve.py:117-121 | the overrides hold `host` iff it was given, and `port` iff it was given |
| DiffusersServe.BuildOverrides | model_deployment/diffusers_serve.py:117-121 | the method builds exactly those overrides |
| DiffusersServe.ServedAddress | model_deployment/diffusers_serve.py:117-123 | a given host or port is served; otherwise the configured one, defaulting to `0.0.0.0:8002` |
| Settings.ParsePath | promotional_copy_generation/config.py:61 | `Path(s)` has a root exactly when `s` starts with `/`, and no empty, `.` or slash-holding part |
| Settings.ParseOfText | promotional_copy_generation/config.py:61 | `Path(str(p)) == p` for every path that parsing can produce, including the empty relative path `.` and the roots `/` and `//` |
| Settings.JoinPath | promotional_copy_generation/config.py:46-55 | `a / b` is `b` when `b` is absolute; otherwise `a`'s root with `a`'s parts followed by `b`'s |
| Settings.JoinMatchesText | promotional_copy_generation/config.py:46-55 | the path join agrees with `posixpath.join` on the texts: join then parse equals parse then join, so repeated and trailing slashes and `.` are normalised |
| Settings.ConfigDirAbsoluteOrRelative | promotional_copy_generation/config.py:45-47 | an absolute `config_dir` is used as it is, whatever the working directory; a relative one is placed under it |
| Settings.AbsoluteConfigDirIgnoresCwd | promotional_copy_generation/config.py:45-55 | an absolute `config_dir` puts the servers file `mcp_servers.yaml` inside that directory, whatever the working directory |
| Settings.EtcAppParses | promotional_copy_generation/config.py:45-47 | the text `/etc/app` is an absolute path with the parts `etc` and `app` |
| Settings.ConfigFilePaths | promotional_copy_generation/config.py:49-55 | the two config files are the config dir's path with their fixed names as one more part, and they differ |
| Settings.ExtraSkillsDirs | promotional_copy_generation/config.py:57-61 | unset or empty gives `[]`; every entry is a normalised path |
| Settings.ExtraSkillsDirsMembers | promotional_copy_generation/config.py:57-61 | a path is listed iff some comma piece strips to a non-blank text that parses to it |
| Settings.NonBlankStrippedMembers | promotional_copy_generation/config.py:61 | a directory is listed iff it is the non-empty stripped form of some comma piece |
| Settings.ExtraSkillsDirsOfJoin | promotional_copy_generation/config.py:59-61 | a comma-joined list of clean names reads back as their paths, in order |
| Settings.ResolvedFallbacks | promotional_copy_generation/config.py:64-100 | each VLM and image-gen URL, model and key is its own value when given, else the `llm_main_*` value |
| Settings.DefaultsResolveToMain | promotional_copy_generation/config.py:64-105 | with default settings everything resolves to the main model and image generation is off |
| Settings.ImageGenEnabled | promotional_copy_generation/config.py:102-105 | enabled iff the image-gen base URL or model is a non-empty string |
| Settings.DisabledImageGenUsesMain | promotional_copy_generation/config.py:90-105 | with image generation off, its URL and model are the main ones |
| Settings.ImageGenSize | promotional_copy_generation/config.py:107-114 | `1024x1024` when the deployment config is not importable or has no agent section; otherwise its `default_size` |
| McpConfig.WordEnd | promotional_copy_generation/mcp/config.py:21 | `\w+` matches the longest run of characters in the word class, which is a parameter so that Python's Unicode `\w` can be supplied |
| McpConfig.BracedEnd | promotional_copy_generation/mcp/config.py:21 | `${...}` matches up to the first `}` and holds at least one character |
| McpConfig.ExpandTextEmptyEnv | promotional_copy_generation/mcp/config.py:17-21 | with an empty environment expansion is the identity |
| McpConfig.ExpandBraced | promotional_copy_generation/mcp/config.py:17-21 | a defined `${NAME}` is replaced by its value and the rest is expanded separately, without rescanning the replacement |
| McpConfig.ExpandBracedUndefined | promotional_copy_generation/mcp/config.py:17-21 | an undefined `${NAME}` is kept verbatim, braces included, and the rest is expanded separately |
| McpConfig.ExpandBare | promotional_copy_generation/mcp/config.py:17-21 | for any word class that agrees with `\w` on ASCII, a defined `$word` is replaced by its value, without rescanning the replacement |
| McpConfig.ExpandBareUndefined | promotional_copy_generation/mcp/config.py:17-21 | an undefined `$word` run is kept verbatim, the whole run and not just an ASCII prefix |
| McpConfig.UnicodeRunIsOneName | promotional_copy_generation/mcp/config.py:17-21 | when the word class holds CJK letters, `$HOME中文` names `HOME中文`, so defining only `HOME` leaves the text unchanged |
| McpConfig.AsciiRunEndsAtSlash | promotional_copy_generation/mcp/config.py:17-21 | a run stops at `/`: `$HOME/bin` with `HOME=/r` becomes `/r/bin` |
| McpConfig.ExpandTextEmptyEnvFree | promotional_copy_generation/mcp/config.py:17-21 | text without `$` is unchanged in any environment |
| McpConfig.WordEndOfRun | promotional_copy_generation/mcp/config.py:21 | a run of word-class characters followed by a non-word character is exactly what `\w+` matches, for any word class |
| McpConfig.ExpandValue | promotional_copy_generation/mcp/config.py:13-26 | for any word class, strings are expanded; dicts keep their keys and expand their values; lists keep length and order; other values are unchanged |
| McpConfig.ExpandValueEmptyEnv | promotional_copy_generation/mcp/config.py:13-26 | with an empty environment the whole document is unchanged |
| McpConfig.LoadMcpConfig | promotional_copy_generation/mcp/config.py:29-35 | a missing file gives `{"servers": {}}`; an empty one gives `{}`; otherwise the keys are kept |
| McpConfig.ServerConfigs | promotional_copy_generation/mcp/config.py:38-46 | exactly the servers whose `enabled` is absent or truthy are kept, with their configs unchanged |
| McpConfig.EnabledDefault | promotional_copy_generation/mcp/config.py:45 | a server without `enabled` is kept; one with `enabled: false` is dropped |
| McpConfig.NoFileNoServers | promotional_copy_generation/mcp/config.py:31-33 | without a servers file there are no servers |
| McpRegistry.StageContexts | promotional_copy_generation/mcp/registry.py:14-18 | a missing stage-contexts file gives `{}` |
| McpRegistry.SubMap | promotional_copy_generation/mcp/registry.py:29-30 | a missing key gives `{}` |
| McpRegistry.ExplicitToolsWin | promotional_copy_generation/mcp/registry.py:33-35 | an explicit `mcp_tools` wins, even an empty list; a non-list gives `[]` |
| McpRegistry.FallbackTools | promotional_copy_generation/mcp/registry.py:38-44 | otherwise the stage's `stage_tools` entry of the servers file is used, defaulting to `[]`; with no file, `[]` |
| McpRegistry.NoFilesNoTools | promotional_copy_generation/mcp/registry.py:44 | with neither file the result is `[]` |
| McpRegistry.AllAvailableToolNames | promotional_copy_generation/mcp/registry.py:47-56 | the `update` loop computes the specified union |
| McpRegistry.ContributedAdd | promotional_copy_generation/mcp/registry.py:51-54 | one more server adds exactly its filter names |
| McpRegistry.FilterNames | promotional_copy_generation/mcp/registry.py:53-54 | `names.update(filter_list)` of a list succeeds iff every member is hashable (no list or dict), and then adds exactly the list's members; otherwise TypeError |
| McpRegistry.AvailableNamesMeaning | promotional_copy_generation/mcp/registry.py:47-56 | when every truthy filter is a list of hashable values, a name is available iff some enabled server lists it in a non-empty `tools_filter` |
| McpRegistry.UnhashableFilterFails | promotional_copy_generation/mcp/registry.py:47-56 | a `tools_filter` list holding a list or a dict makes the whole lookup raise TypeError |
| McpRegistry.RegisterStageTools | promotional_copy_generation/mcp/registry.py:59-69 | always raises |
| McpTransports.BuiltinCall | promotional_copy_generation/mcp/transports.py:16-41 | stdio defaults command to `npx`, args to `[]`, a missing or None env to `{}`; http and sse pass their own label, `url` defaulting to `""`, and `headers` |
| McpTransports.Run | promotional_copy_generation/mcp/transports.py:16-56 | a built-in handler adds exactly its one call and raises nothing; a custom handler's effect (servers added in order, exception raised) is whatever its code does |
| McpTransports.Dispatch | promotional_copy_generation/mcp/transports.py:50-55 | a list or dict transport raises TypeError (unhashable); otherwise the handler is found iff the transport (default `stdio`) is registered, and an unknown one raises ValueError |
| McpTransports.DefaultTransportIsStdio | promotional_copy_generation/mcp/transports.py:52 | a config without `transport` goes to the stdio handler, a built-in |
| McpTransports.DispatchAfterRegister | promotional_copy_generation/mcp/transports.py:11-13 | after registering `t` its handler is found; other transports are unaffected |
| McpTransports.Client.constructor | promotional_copy_generation/mcp/transports.py:50-56 | a new client has no servers |
| McpTransports.Client.AddServer | promotional_copy_generation/mcp/transports.py:17-23 | `add_server` appends one call to the client's log |
| McpTransports.TransportRegistry.constructor | promotional_copy_generation/mcp/transports.py:45-47 | stdio, http and sse are registered at import |
| McpTransports.TransportRegistry.RegisterTransport | promotional_copy_generation/mcp/transports.py:11-13 | registration sets or replaces the handler of that type |
| McpTransports.TransportRegistry.AddServerToClient | promotional_copy_generation/mcp/transports.py:50-56 | an unknown or unhashable transport raises and leaves the client untouched; otherwise the handler's servers are added in order and its exception, if any, propagates; a built-in handler adds exactly one server and succeeds |
| SkillsRegistry.StageNamed | promotional_copy_generation/skills/registry.py:6-10 | a stage name resolves only to the stage of that name |
| SkillsRegistry.StageNamedOfName | promotional_copy_generation/skills/registry.py:6-10 | exactly the three STAGES names resolve |
| SkillsRegistry.MakeSkill | promotional_copy_generation/skills/registry.py:13-25 | construction succeeds iff the stage is one of STAGES, keeping every field; otherwise it raises ValueError |
| SkillsRegistry.Appended | promotional_copy_generation/skills/registry.py:37-38 | the stage list only grows at the end, gains the skill, and stays free of duplicates |
| SkillsRegistry.Register | promotional_copy_generation/skills/registry.py:32-38 | a list or mapping id raises TypeError, before anything is stored; any other id is mapped to the skill, the skill's stage list is appended to, other stages are unchanged, and a valid registry stays valid |
| SkillsRegistry.SkillsForStage | promotional_copy_generation/skills/registry.py:41-43 | an unknown stage gives `[]`; the result holds only that stage's skills, without duplicates |
| SkillsRegistry.SkillById | promotional_copy_generation/skills/registry.py:46-48 | a list or mapping id raises TypeError; any other id is found iff it is registered, and the skill found is in its stage list |
| SkillsRegistry.Cleared | promotional_copy_generation/skills/registry.py:51-55 | clearing empties the id map and every stage list but keeps the stage keys |
| SkillsRegistry.EmptyIsValid | promotional_copy_generation/skills/registry.py:29 | the initial registry has every stage with an empty list |
| SkillsRegistry.RegisterThenLookup | promotional_copy_generation/skills/registry.py:32-48 | registering a skill with a hashable id succeeds, and afterwards the skill is found by id and is listed for its stage |
| SkillsRegistry.LastIdWins | promotional_copy_generation/skills/registry.py:34 | a later skill with the same hashable id replaces the earlier one in the id map, but not in the stage list |
| SkillsRegistry.RegisterIdempotent | promotional_copy_generation/skills/registry.py:32-38 | registering the same skill (with a hashable id) twice is registering it once |
| SkillsRegistry.StageListExists | promotional_copy_generation/skills/registry.py:35-36 | the stage index always has the skill's stage, so its new-key branch is unreachable |
| SkillsRegistry.SkillRegistry.constructor | promotional_copy_generation/skills/registry.py:28-29 | the registry starts empty |
| SkillsRegistry.SkillRegistry.RegisterSkill | promotional_copy_generation/skills/registry.py:32-38 | in place: a list or mapping id gives TypeError and leaves the registry unchanged; otherwise the new state is the registration of the skill |
| SkillsRegistry.SkillRegistry.GetSkillsForStage | promotional_copy_generation/skills/registry.py:41-43 | returns that stage's list |
| SkillsRegistry.SkillRegistry.GetSkillById | promotional_copy_generation/skills/registry.py:46-48 | returns the lookup: TypeError for a list or mapping id, else the skill of that id or None |
| SkillsRegistry.SkillRegistry.ClearRegistry | promotional_copy_generation/skills/registry.py:51-55 | in place, the new state is the cleared one |
| SkillsLoader.FrontmatterMatch | promotional_copy_generation/skills/loader.py:8-10 | a match starts with `---` and is well formed, and only whitespace follows the opening delimiter |
| SkillsLoader.ParseFrontmatter | promotional_copy_generation/skills/loader.py:13-25 | content without a frontmatter block is returned unchanged with empty metadata; otherwise the stripped body after the block |
| SkillsLoader.FrontmatterOfBlock | promotional_copy_generation/skills/loader.py:8-25 | `---\n meta \n---\n body` splits into exactly that meta and body |
| SkillsLoader.Stem | promotional_copy_generation/skills/loader.py:36 | the stem is a prefix of the file name without `/`; a shorter stem ends just before the last dot, which is neither the first nor the last character; the whole name is kept only when no such dot exists |
| SkillsLoader.StemDropsLastSuffix | promotional_copy_generation/skills/loader.py:36 | `a.md` gives `a` and `a.tar.gz` gives `a.tar`: only the last suffix goes |
| SkillsLoader.StemKeepsEdgeDot | promotional_copy_generation/skills/loader.py:36 | `.hidden` and `a.` are their own stems |
| SkillsLoader.SkillFromMeta | promotional_copy_generation/skills/loader.py:36-47 | building the skill fails iff the stage (default `copy_write`) is not one of STAGES |
| SkillsLoader.MetaDefaults | promotional_copy_generation/skills/loader.py:36-46 | the defaults are id = stem, name = id, stage `copy_write`, description `""`; content is the body when non-empty, else the whole text |
| SkillsLoader.MetaGivenFields | promotional_copy_generation/skills/loader.py:36-39 | given fields are used as they are |
| SkillsLoader.LoadSkillFromFile | promotional_copy_generation/skills/loader.py:28-47 | a missing path or a non-file gives None |
| SkillsLoader.LoadPlainFile | promotional_copy_generation/skills/loader.py:28-47 | a file without frontmatter gives the default skill with the whole text |
| SkillsLoader.LoadAll | promotional_copy_generation/skills/loader.py:50-57 | at most one skill per file |
| SkillsLoader.LoadAllOk | promotional_copy_generation/skills/loader.py:50-57 | loading succeeds iff every file loads |
| SkillsLoader.LoadAllFrom | promotional_copy_generation/skills/loader.py:50-57 | every loaded skill comes from one of the listed files |
| SkillsLoader.LoadSkillsFromDir | promotional_copy_generation/skills/loader.py:50-57 | the loop computes the specified list |
| SkillsLoader.MissingEntriesSkipped | promotional_copy_generation/skills/loader.py:63-65 | non-existent directories are skipped |
| SkillsLoader.RegisterAll | promotional_copy_generation/skills/loader.py:73-74 | registering in order, up to the first list or mapping id, keeps a valid registry valid |
| SkillsLoader.RegisterAllStopsAt | promotional_copy_generation/skills/loader.py:73-74 | a list or mapping id at position `k`, with hashable ids before it, leaves the registry as registering the first `k` skills does: nothing from `k` on is registered |
| SkillsLoader.RegisterAllRegisters | promotional_copy_generation/skills/loader.py:73-74 | a skill whose id and every earlier id are hashable ends up listed for its stage, with its id registered |
| SkillsLoader.RegisterSkills | promotional_copy_generation/skills/loader.py:73-74 | in place, the new state is the registration of the skills up to the first list or mapping id; the result is TypeError iff some id is a list or mapping |
| SkillsLoader.RegisterAllKeeps | promotional_copy_generation/skills/loader.py:73-74 | registering more skills only adds ids and only grows stage lists |
| SkillsLoader.RegisterAllLastWins | promotional_copy_generation/skills/loader.py:73-74 | of several skills with one id, the last loaded is kept, provided it and the ids before it are hashable |
| SkillsLoader.LoadSkillsFromDirs | promotional_copy_generation/skills/loader.py:60-75 | a loading error is returned with the registry unchanged; once loading succeeds, the registry is the registration of the loaded skills up to the first list or mapping id, and the result is the loaded list, or TypeError if some id is a list or mapping |
| SkillsLoader.LoadedAreRegistered | promotional_copy_generation/skills/loader.py:60-75 | when every id is hashable (the only case in which the skills are returned), every returned skill is registered: found by id and listed for its stage |
| SafetyChecker.WordsComplete | promotional_copy_generation/safety/checker.py:15-26 | every kept line's stripped form is a forbidden word |
| SafetyChecker.WordsSound | promotional_copy_generation/safety/checker.py:15-26 | every forbidden word is the stripped form of a kept line |
| SafetyChecker.WordsAreClean | promotional_copy_generation/safety/checker.py:22-25 | a forbidden word is non-empty, stripped and does not start with `#` |
| SafetyChecker.LoadForbiddenWords | promotional_copy_generation/safety/checker.py:13-26 | the loop computes the specified set; unset or missing file gives the empty set |
| SafetyChecker.CheckTextForbidden | promotional_copy_generation/safety/checker.py:29-36 | fails iff the text is non-empty and contains a forbidden word; the message names a word that occurs |
| SafetyChecker.Candidates | promotional_copy_generation/safety/checker.py:67 | each regex candidate is a braced object mentioning `"passed"` |
| SafetyChecker.SkipPlainText | promotional_copy_generation/safety/checker.py:67 | brace-free text yields no candidate: scanning resumes after it |
| SafetyChecker.PassedObjectFirst | promotional_copy_generation/safety/checker.py:67 | a brace-free object mentioning `"passed"` after brace-free text is the first candidate, and the others are found after it |
| SafetyChecker.FirstVerdict | promotional_copy_generation/safety/checker.py:68-79 | without a decodable candidate holding `passed`, the verdict is a pass |
| SafetyChecker.FirstVerdictAt | promotional_copy_generation/safety/checker.py:67-73 | when every earlier candidate fails to decode or lacks `passed`, the first one that has it decides: its `passed`, and its `reason` or `""` |
| SafetyChecker.CheckTextLlm | promotional_copy_generation/safety/checker.py:39-79 | passes when the text is empty, the check is disabled, or the call fails |
| SafetyChecker.LlmVerdictOfReply | promotional_copy_generation/safety/checker.py:39-79 | a reply whose first `"passed"` object decodes to `m` gives `m["passed"]` and `m["reason"]` (or `""`) |
| SafetyChecker.LlmSeesPrefix | promotional_copy_generation/safety/checker.py:55 | the LLM only sees the first 2000 characters |
| SafetyChecker.NoVerdictIsPass | promotional_copy_generation/safety/checker.py:76-79 | a reply with no candidate object passes |
| SafetyChecker.CheckText | promotional_copy_generation/safety/checker.py:82-91 | the LLM is asked iff the rule check passes and the text is not blank; passing carries an empty message |
| SafetyChecker.LlmDecides | promotional_copy_generation/safety/checker.py:82-91 | for a text the rule lets through, a reply whose first `"passed"` object decodes to `m` makes `_check_text` pass iff `m["passed"]` is true-like; a failure carries `m`'s reason |
| SafetyChecker.CheckInput | promotional_copy_generation/safety/checker.py:94-111 | the requirements and, when non-empty, the description are checked; images never matter |
| SafetyChecker.CheckPrompts | promotional_copy_generation/safety/checker.py:123-130 | passes iff every prompt passes; otherwise the message of the first failing one |
| SafetyChecker.CheckOutput | promotional_copy_generation/safety/checker.py:114-131 | the copy, then each image prompt in order; the first failure is returned |
| SafetyChecker.NothingConfiguredPasses | promotional_copy_generation/safety/checker.py:82-91 | with no words and no LLM every text passes |
| SafetyChecker.ForbiddenWordFails | promotional_copy_generation/safety/checker.py:84-86 | a text containing a forbidden word fails whatever the LLM says |
| Multimodal.MediaType | promotional_copy_generation/agent/multimodal.py:9-19 | PNG signature gives png, `FF D8` jpeg, GIF87a/89a gif, RIFF…WEBP webp, in that priority; anything else jpeg |
| Multimodal.PngSignature | promotional_copy_generation/agent/multimodal.py:11-12 | the 8-byte PNG signature gives `image/png` |
| Multimodal.JpegSignature | promotional_copy_generation/agent/multimodal.py:13-14 | `FF D8` gives `image/jpeg` |
| Multimodal.GifSignature | promotional_copy_generation/agent/multimodal.py:15-16 | GIF87a and GIF89a give `image/gif` |
| Multimodal.WebpSignature | promotional_copy_generation/agent/multimodal.py:17-18 | RIFF at 0..4 and WEBP at 8..12 give `image/webp` |
| Multimodal.ShortInputIsJpeg | promotional_copy_generation/agent/multimodal.py:19 | empty or one-byte input defaults to `image/jpeg` |
| Multimodal.DataUrl | promotional_copy_generation/agent/multimodal.py:30-34 | the URL is a `data:` URL |
| Multimodal.DataUrlRoundTrip | promotional_copy_generation/agent/multimodal.py:30-34 | the URL is `data:` + media type + `;base64,` + the encoding, which decodes back to the bytes |
| Multimodal.BuildMultimodalContent | promotional_copy_generation/agent/multimodal.py:22-36 | the text part first, then one image part per image in order; None or empty gives the text part alone |
| AgentGraph.RouteAfterInputSafety | promotional_copy_generation/agent/graph.py:16-20 | `__reject__` iff `input_safety_passed` is present and false-like; a missing flag continues |
| AgentGraph.RouteAfterCopy | promotional_copy_generation/agent/graph.py:23-27 | `image_prompt` iff `need_image_generation` is true-like, else `output_safety` |
| AgentGraph.EdgesGoForward | promotional_copy_generation/agent/graph.py:41-56 | every edge leads to a later node |
| AgentGraph.Apply | promotional_copy_generation/agent/graph.py:34-39 | a node's update adds its keys to the state |
| AgentGraph.Trace | promotional_copy_generation/agent/graph.py:41-56 | a run starts at the node it is started from |
| AgentGraph.TraceForward | promotional_copy_generation/agent/graph.py:41-56 | a run visits nodes in strictly increasing position, so it ends |
| AgentGraph.RunShapes | promotional_copy_generation/agent/graph.py:41-56 | a run is the input check alone when rejected, else through copy writing to the output check, with image prompting and generation in between when images are wanted |
| AgentGraph.AcceptedRuns | promotional_copy_generation/agent/graph.py:47-56 | an accepted run visits context enhancement, then copy writing, and ends with the output check; image generation runs iff image prompting does and is followed by the output check |
| AgentGraph.VisitsOnce | promotional_copy_generation/agent/graph.py:41-56 | no node runs twice and a run has at most six steps |
| ContextEnhancer.MatchAt | promotional_copy_generation/agent/nodes/context_enhancer.py:34 | a regex match starts at `{` and ends at `}` |
| ContextEnhancer.Objects | promotional_copy_generation/agent/nodes/context_enhancer.py:34 | every candidate is a braced object |
| ContextEnhancer.SkipPlain | promotional_copy_generation/agent/nodes/context_enhancer.py:34 | text without braces yields no candidates |
| ContextEnhancer.FlatObjectFirst | promotional_copy_generation/agent/nodes/context_enhancer.py:34 | a flat object after brace-free text is the first candidate |
| ContextEnhancer.FirstDecodable | promotional_copy_generation/agent/nodes/context_enhancer.py:35-47 | the index of the first candidate that decodes, every earlier one undecodable |
| ContextEnhancer.ClampedFloat | promotional_copy_generation/agent/nodes/context_enhancer.py:43-44 | `max(1, min(4, int(f)))` lies in [1,4]; nan raises ValueError, infinities raise OverflowError; otherwise it is the shared float truncation clamped, and a float of 1e16 or more clamps by its sign |
| ContextEnhancer.ClampedFloatOfDecimal | promotional_copy_generation/agent/nodes/context_enhancer.py:43-44 | a decimal float is truncated toward zero and then clamped |
| ContextEnhancer.NumericCount | promotional_copy_generation/agent/nodes/context_enhancer.py:41-44 | a numeric count (int, bool, float) is clamped into [1,4]; anything else is ignored |
| ContextEnhancer.FromObject | promotional_copy_generation/agent/nodes/context_enhancer.py:37-44 | `enhanced` (stripped) or the stripped reply; `need_images` truthiness; a missing or non-numeric count gives 1 |
| ContextEnhancer.NoObjectDefaults | promotional_copy_generation/agent/nodes/context_enhancer.py:30-32 | with no decodable candidate the defaults hold: the stripped reply, no images, count 1 |
| ContextEnhancer.FirstObjectDecides | promotional_copy_generation/agent/nodes/context_enhancer.py:34-47 | the first decodable candidate decides, even without any of the keys |
| ContextEnhancer.ParsedResponse | promotional_copy_generation/agent/nodes/context_enhancer.py:28-48 | a parsed reply asks for between one and four images |
| ContextEnhancer.ParseResponse | promotional_copy_generation/agent/nodes/context_enhancer.py:28-48 | the loop with its break and continue returns the specified result, its count in [1,4] |
| ContextEnhancer.RequestFor | promotional_copy_generation/agent/nodes/context_enhancer.py:58-81 | the vision path is taken iff `has_input_images` and a non-empty image list; only then are images sent and the note appended |
| ContextEnhancer.ContextEnhance | promotional_copy_generation/agent/nodes/context_enhancer.py:85-89 | the update sets exactly the three keys |
| ContextEnhancer.ContextUpdate | promotional_copy_generation/agent/nodes/context_enhancer.py:83-89 | `image_count` is 0 iff images are not needed, else the parsed count in [1,4]; an empty text falls back to the raw requirements |
| ImagePromptNode.ImageCount | promotional_copy_generation/agent/nodes/image_prompt.py:48-49 | the count is in [1,4]; missing or zero gives 1 |
| ImagePromptNode.Prompt | promotional_copy_generation/agent/nodes/image_prompt.py:58-59 | the reference-image note is appended iff the vision path is taken |
| ImagePromptNode.TruthyStringsAppend | promotional_copy_generation/agent/nodes/image_prompt.py:71 | the filter keeps order |
| ImagePromptNode.TruthyStringsMembers | promotional_copy_generation/agent/nodes/image_prompt.py:71 | an entry is kept iff it is truthy, as its `str()` |
| ImagePromptNode.Prompts | promotional_copy_generation/agent/nodes/image_prompt.py:66-73 | a JSON list is tried only when the reply has both brackets; otherwise the stripped reply alone |
| ImagePromptNode.StringListPrompts | promotional_copy_generation/agent/nodes/image_prompt.py:67-71 | a list of non-empty strings gives those strings in order |
| ImagePromptNode.ImagePrompts | promotional_copy_generation/agent/nodes/image_prompt.py:27-75 | the prompt list has at most `image_count` entries |
| ImagePromptNode.PlainReplyOnePrompt | promotional_copy_generation/agent/nodes/image_prompt.py:66-73 | a reply that is not a JSON list gives the single stripped reply |
| ImageGenerator.RStripSlash | promotional_copy_generation/agent/nodes/image_generator.py:19 | trailing slashes are removed, nothing else |
| ImageGenerator.EndpointShape | promotional_copy_generation/agent/nodes/image_generator.py:19-25 | a base containing `/v1` gets `/images/generations`, any other gets `/v1/images/generations` |
| ImageGenerator.EndpointIsImagesApi | promotional_copy_generation/agent/nodes/image_generator.py:19-25 | the endpoint always ends with `/images/generations` and contains `/v1` |
| ImageGenerator.EndpointIgnoresTrailingSlash | promotional_copy_generation/agent/nodes/image_generator.py:19 | a trailing slash does not change the endpoint |
| ImageGenerator.AfterFirstComma | promotional_copy_generation/agent/nodes/image_generator.py:58 | the text after the first comma, or all of it |
| ImageGenerator.ItemImage | promotional_copy_generation/agent/nodes/image_generator.py:55-62 | a non-dict entry raises AttributeError |
| ImageGenerator.DataUrlItem | promotional_copy_generation/agent/nodes/image_generator.py:55-60 | a `data:` URL entry gives its image back |
| ImageGenerator.B64JsonItem | promotional_copy_generation/agent/nodes/image_generator.py:55-60 | a bare `b64_json` entry gives its image; an empty one is skipped |
| ImageGenerator.DecodedImages | promotional_copy_generation/agent/nodes/image_generator.py:52-63 | the output is no longer than `data` |
| ImageGenerator.DecodeItems | promotional_copy_generation/agent/nodes/image_generator.py:52-63 | the decoding loop computes the specified images |
| ImageGenerator.ReplyImages | promotional_copy_generation/agent/nodes/image_generator.py:53-63 | a reply without `data` gives no images; a `data` list gives its decoded images |
| ImageGenerator.Body | promotional_copy_generation/agent/nodes/image_generator.py:29-34 | the body has exactly model, prompt, n and size |
| ImageGenerator.CallImageGenApi | promotional_copy_generation/agent/nodes/image_generator.py:13-49 | the body's size is `settings.image_gen_size`, whose exception propagates; any request or HTTP failure gives `[]` |
| ImageGenerator.DefaultRequestSize | promotional_copy_generation/config.py:107-114 | without the deployment configuration module the request asks for `1024x1024` |
| ImageGenerator.DataUrlsDecode | promotional_copy_generation/agent/nodes/image_generator.py:52-63 | a reply of data URLs gives its images back, in order |
| ImageGenerator.PromptPart | promotional_copy_generation/agent/nodes/image_generator.py:70 | a part is the numbered heading followed by the stripped prompt |
| ImageGenerator.PromptParts | promotional_copy_generation/agent/nodes/image_generator.py:68-70 | one part per prompt, numbered from 1 |
| ImageGenerator.BuildPromptsBlock | promotional_copy_generation/agent/nodes/image_generator.py:66-71 | the loop's block is the parts joined by blank lines |
| ImageGenerator.BlockGrows | promotional_copy_generation/agent/nodes/image_generator.py:66-71 | each prompt adds a blank line and its numbered part |
| ImageGenerator.Uncommented | promotional_copy_generation/agent/nodes/image_generator.py:91 | a template line is kept iff its stripped form does not start with `#` |
| ImageGenerator.UncommentedLine | promotional_copy_generation/agent/nodes/image_generator.py:91 | one line is kept as it is, or dropped when it is a comment |
| ImageGenerator.UncommentedAppend | promotional_copy_generation/agent/nodes/image_generator.py:91 | filtering distributes over concatenation, so kept lines keep their order and multiplicity |
| ImageGenerator.GenCount | promotional_copy_generation/agent/nodes/image_generator.py:86 | the count is in [1,4]; missing or zero gives the prompt count clamped |
| ImageGenerator.Texts | promotional_copy_generation/agent/nodes/image_generator.py:70 | prompts are strings, or AttributeError |
| ImageGenerator.PlannedCall | promotional_copy_generation/agent/nodes/image_generator.py:74-96 | disabled generation or no prompts gives no call; otherwise `n` is in [1,4] |
| ImageGenerator.NoCallWithoutPrompts | promotional_copy_generation/agent/nodes/image_generator.py:79-84 | then the node returns `[]` without calling the API |
| ImageGenerator.CallCountsPrompts | promotional_copy_generation/agent/nodes/image_generator.py:82-96 | for any state whose prompts are all strings, the API is asked for `n` images and sent the first `n` prompts, `n` being `image_count` clamped into [1,4], or the prompt count capped at 4 when there is no count |
| Base64.Encode | promotional_copy_generation/agent/multimodal.py:30 | the encoding has four characters per started group of three bytes |
| Base64.DecodeEncode | promotional_copy_generation/agent/multimodal.py:30 | decoding an encoding gives the bytes back |
| Common.Clamp | promotional_copy_generation/agent/nodes/image_prompt.py:49 | `max(lo, min(hi, x))` lies in [lo, hi] and is `x` when `x` already does |
| Common.Strip | promotional_copy_generation/safety/checker.py:23 | the result has no leading or trailing whitespace and is empty iff the text is all whitespace |
| Common.SplitJoin | promotional_copy_generation/config.py:61 | splitting a join of separator-free pieces gives the pieces |
| Common.ParseIntOfIntToString | model_deployment/diffusers_serve.py:75-76 | `int(str(i)) == i` |
| Common.ToInt | model_deployment/diffusers_serve.py:64-67 | `int(v)`: an int is itself, a bool is 0 or 1, None, lists and dicts raise TypeError |
| Common.TruncFloat | model_deployment/diffusers_serve.py:64-67 | `int(f)`: NaN raises ValueError, infinities raise OverflowError, a huge float is not converted; a positive result comes from a non-negative float and a negative one from a negative float |
| Common.TruncFloatOfDecimal | model_deployment/diffusers_serve.py:64-67 | a float printed positionally truncates toward zero to its whole part, keeping the sign |
| Common.TruncFloatOfTiny | model_deployment/diffusers_serve.py:64-67 | a float printed with an `e-` exponent truncates to 0 |
| Common.ToFloat | model_deployment/diffusers_serve.py:68 | `float(v)`: ints, bools and floats are accepted; None, lists and dicts raise TypeError; a string is accepted iff its stripped text is a float literal (sign, `inf`/`infinity`/`nan` in any case, or digits with an optional point and exponent, underscores only between digits), else ValueError |
| Common.FloatTextOfDecimal | model_deployment/diffusers_serve.py:68 | an integer, or an integer with a fractional part, optionally negative, is a float literal |
| Common.FloatTextOfInfOrNan | model_deployment/diffusers_serve.py:68 | `inf`, `infinity` and `nan` in any case, with an optional sign, are float literals |
| Common.FloatTextRefusesWord | model_deployment/diffusers_serve.py:68 | a word starting with a lowercase letter other than `i` or `n` is not a float literal |
| Common.ReprQuote | model_deployment/diffusers_serve.py:99-101 | `repr()` uses `"` exactly when the text holds `'` and no `"` |
| Common.Repr | model_deployment/diffusers_serve.py:99-101 | the repr opens and closes with that quote |
| Common.UnescapeEscapeText | model_deployment/diffusers_serve.py:99-101 | the escaped body reads back to the text |
| Common.LiteralLength | model_deployment/diffusers_serve.py:99-101 | a reader of a literal's body stops at a quote character or at the end of the text |
| Common.EscapedEndsAtQuote | model_deployment/diffusers_serve.py:99-101 | whatever follows, the escaped body is read up to exactly the quote after it: no quote inside it ends the literal |
| Common.ReprEndsAtClosingQuote | model_deployment/diffusers_serve.py:99-101 | a `repr()` is self-delimiting: its body ends at its own closing quote |

## Left out

- I/O is not modelled: file reads, YAML/JSON parsing, environment variables, the HTTP client, `subprocess.run`, uvicorn and the FastAPI routes. Each becomes an input value or an oracle parameter.
- `main` of `model_deployment/launch_vllm.py` (argv handling and the subprocess) is left out; only the functions it composes are modelled.
- The diffusers pipeline (`_load_pipeline`, the torch inference) is an oracle `Pipeline`. `health`, `get_diffusers_pipeline_params` and `get_agent_image_config` are not modelled beyond the `agent` lookup used by the image size.
- LLM calls are oracles from the request (vision flag, text, images) to a reply. Client construction in `_get_llm` is reduced to the vision flag. An exception raised by a model call is not modelled, except in the safety checker, which catches it.
- Prompt-template `str.format` is an oracle (`Formatter`). `load_stage_context` is a parameter holding the raw template.
- `build_human_message` (a LangChain message object) is not modelled; `build_multimodal_content` is.
- The `add_messages` reducer of the agent state is not modelled. Node updates merge by key replacement.
- Floats are their repr text. Comparison and arithmetic on them are not modelled; `int()` of a float is, from Python's shortest repr.
- Common.TruncFloat: a float of 1e16 or more (repr with `e+`) is reported as an error. Python converts its exact binary value, which the repr does not give.
- Python dict insertion order is not modelled: dicts are maps. The iteration order of the forbidden-word set is a free choice in `CheckTextForbidden`.
- Directory listing order (`rglob`) is a parameter.
- Top-level YAML documents that are not mappings are not modelled.
- DeployConfig.VllmArgsOf: a truthy `model_id` that is not a string is rendered with `str()`. The source puts the raw value first in the list, and `subprocess.run` would then reject it.
- DeployConfig.PairOf: a pair whose key is not a string (mapping keys are strings here), and a two-key mapping used as a pair (its key order is insertion order), are reported as errors; Python accepts both.
- In Python, `1 == True` and `1.0 == 1`. `Value` equality does not identify these, so lookups such as `transport` and `VStr("data") in items` compare by constructor.
- Common.Str: `str()` of a list or dict renders a fixed placeholder, not Python's repr.
- Settings.ParsePath: only POSIX paths are modelled; Windows drives and separators are not. `Path.cwd()` is a parameter.
- McpConfig.ExpandText: Python's Unicode `\w` table is not written out; the word class is a parameter, and the lemmas about bare names ask only that it agree with `\w` on ASCII.
- Common.ParseInt: `int()` on text does not accept underscores or non-ASCII digits.
- Common.ToFloat: `float()` on text does not accept non-ASCII digits, and the binary value of an accepted float is not computed; the pipeline receives the accepted value itself.
- Common.Repr: characters outside ASCII are kept as they are; Python also escapes the non-printable ones among them.
- McpRegistry.FilterNames: a set is a set of `Value`s, so `1`, `True` and `1.0` stay distinct where a Python set merges them.
- Base64.Decode: strict decoding with non-alphabet characters discarded. This approximates CPython's non-validating `b64decode` and may differ on malformed padding.
- ImageGenerator.GenCount: a float `image_count` is reported as TypeError. The source compares the float and clamps it, so floats at or below 1 or at or above 4 would succeed there.
- ImageGenerator.PlannedCall: a string `image_prompts` is reported as TypeError. The source iterates over its characters.
- LaunchVllm.MergeMeaning: stated only for option names that do not start with `_`. Such a key serialises to `---name`, and reading that back drops the underscore.
- The MCP client and provider wrappers, `stage_loader`, the copy-writer node and the two safety adapter nodes are thin glue around unseen libraries and are not modelled.

=== FILE: agent_graph.dfy ===
/** The agent's workflow graph: six nodes, two routing functions and the edges between
    them, run from the input safety check to the end. What each node computes is a
    parameter; the graph itself decides only the order in which nodes run. */
module AgentGraph {
  import opened Common

  /** The agent state: the keys a run has set so far. */
  type State = Doc

  datatype Node = InputSafety | ContextEnhance | CopyWrite | ImagePrompt | ImageGen | OutputSafety

  /** Where control goes after a node: another node, or the end of the run. */
  datatype Target = To(node: Node) | End

  /** `_route_after_input_safety(state)`: reject only when `input_safety_passed` is set
      and false-like; a missing flag continues. */
  function RouteAfterInputSafety(state: State): (r: string)
    ensures r == "__reject__" <==> "input_safety_passed" in state && !Truthy(state["input_safety_passed"])
    ensures r != "__reject__" ==> r == "continue"
  {
    if !Truthy(Get(state, "input_safety_passed", VBool(true))) then "__reject__" else "continue"
  }

  /** `_route_after_copy(state)`: image prompts when `need_image_generation` is true-like,
      otherwise straight to the output check. */
  function RouteAfterCopy(state: State): (r: string)
    ensures r == "image_prompt" <==> Truthy(Get(state, "need_image_generation", VNone))
    ensures r != "image_prompt" ==> r == "output_safety"
  {
    if Truthy(Get(state, "need_image_generation", VNone)) then "image_prompt" else "output_safety"
  }

  /** The edges of `create_graph`, the two conditional ones resolved through their
      routing functions and path maps. */
  function Next(n: Node, state: State): Target {
    match n
    case InputSafety => if RouteAfterInputSafety(state) == "__reject__" then End else To(ContextEnhance)
    case ContextEnhance => To(CopyWrite)
    case CopyWrite => if RouteAfterCopy(state) == "image_prompt" then To(ImagePrompt) else To(OutputSafety)
    case ImagePrompt => To(ImageGen)
    case ImageGen => To(OutputSafety)
    case OutputSafety => End
  }

  /** The node the run starts at (`START -> input_safety`). */
  const FIRST: Node := InputSafety

  /** A node's position in the workflow; every edge leads to a later position. */
  function Rank(n: Node): nat {
    match n
    case InputSafety => 0
    case ContextEnhance => 1
    case CopyWrite => 2
    case ImagePrompt => 3
    case ImageGen => 4
    case OutputSafety => 5
  }

  lemma EdgesGoForward(n: Node, state: State)
    ensures Next(n, state).To? ==> Rank(n) < Rank(Next(n, state).node)
  {
  }

  /** What a node returns, given the state it runs on: the keys it updates. */
  type NodeFn = (Node, State) -> State

  /** A node's update applied to the state: returned keys replace the old ones. */
  function Apply(run: NodeFn, n: Node, state: State): (s: State)
    ensures s.Keys == state.Keys + run(n, state).Keys
  {
    state + run(n, state)
  }

  /** A run from node `n`: the nodes visited, in order. */
  function Trace(run: NodeFn, n: Node, state: State): (t: seq<Node>)
    ensures |t| >= 1 && t[0] == n
    decreases 5 - Rank(n)
  {
    var after := Apply(run, n, state);
    match Next(n, after)
    case End => [n]
    case To(m) =>
      EdgesGoForward(n, after);
      [n] + Trace(run, m, after)
  }

  /** A run visits nodes in strictly increasing position, none before the one it starts
      at. */
  lemma {:induction false} TraceForward(run: NodeFn, n: Node, state: State)
    ensures forall i :: 0 <= i < |Trace(run, n, state)| ==> Rank(n) <= Rank(Trace(run, n, state)[i])
    ensures forall i, j :: 0 <= i < j < |Trace(run, n, state)| ==>
      Rank(Trace(run, n, state)[i]) < Rank(Trace(run, n, state)[j])
    decreases 5 - Rank(n)
  {
    var after := Apply(run, n, state);
    if Next(n, after).To? {
      var m := Next(n, after).node;
      EdgesGoForward(n, after);
      TraceForward(run, m, after);
      var t := Trace(run, n, state);
      assert t == [n] + Trace(run, m, after);
      assert forall i :: 1 <= i < |t| ==> t[i] == Trace(run, m, after)[i - 1];
    }
  }

  /** The whole run of the compiled graph on an input state. */
  function Run(run: NodeFn, input: State): seq<Node> {
    Trace(run, FIRST, input)
  }

  /** The state after the input safety check. */
  function AfterInputCheck(run: NodeFn, input: State): State {
    Apply(run, InputSafety, input)
  }

  /** The state the copy router sees: after the input check, context enhancement and copy
      writing. */
  function AfterCopy(run: NodeFn, input: State): State {
    var s1 := AfterInputCheck(run, input);
    var s2 := Apply(run, ContextEnhance, s1);
    Apply(run, CopyWrite, s2)
  }

  predicate Rejected(run: NodeFn, input: State) {
    RouteAfterInputSafety(AfterInputCheck(run, input)) == "__reject__"
  }

  /** A run takes one of three paths: rejected right after the input check; through
      context enhancement and copy writing to the output check; or, when images are
      wanted, through image prompts and image generation as well. */
  lemma RunShapes(run: NodeFn, input: State)
    ensures Rejected(run, input) ==> Run(run, input) == [InputSafety]
    ensures !Rejected(run, input) && RouteAfterCopy(AfterCopy(run, input)) == "output_safety" ==>
      Run(run, input) == [InputSafety, ContextEnhance, CopyWrite, OutputSafety]
    ensures !Rejected(run, input) && RouteAfterCopy(AfterCopy(run, input)) == "image_prompt" ==>
      Run(run, input) == [InputSafety, ContextEnhance, CopyWrite, ImagePrompt, ImageGen, OutputSafety]
  {
    if Rejected(run, input) {
      assert Next(InputSafety, AfterInputCheck(run, input)) == End;
    } else {
      var s2 := HeadOfAccepted(run, input);
      var tail := TailAfterCopy(run, s2);
      assert Run(run, input) == [InputSafety, ContextEnhance, CopyWrite] + tail;
    }
  }

  /** An accepted run goes on to context enhancement and then copy writing, which sees
      the state `s2` returns. */
  lemma HeadOfAccepted(run: NodeFn, input: State) returns (s2: State)
    requires !Rejected(run, input)
    ensures Run(run, input) == [InputSafety, ContextEnhance] + Trace(run, CopyWrite, s2)
    ensures Apply(run, CopyWrite, s2) == AfterCopy(run, input)
  {
    var s1 := AfterInputCheck(run, input);
    assert Next(InputSafety, s1) == To(ContextEnhance);
    TraceStep(run, InputSafety, input, ContextEnhance);
    s2 := Apply(run, ContextEnhance, s1);
    TraceStep(run, ContextEnhance, s1, CopyWrite);
  }

  /** One step of a run. */
  lemma TraceStep(run: NodeFn, n: Node, state: State, m: Node)
    requires Next(n, Apply(run, n, state)) == To(m)
    ensures Trace(run, n, state) == [n] + Trace(run, m, Apply(run, n, state))
  {
  }

  /** From copy writing on: the output check alone, or image prompts and image generation
      before it, as the copy router decides. */
  lemma TailAfterCopy(run: NodeFn, s2: State) returns (tail: seq<Node>)
    ensures Trace(run, CopyWrite, s2) == [CopyWrite] + tail
    ensures RouteAfterCopy(Apply(run, CopyWrite, s2)) == "image_prompt" ==>
      tail == [ImagePrompt, ImageGen, OutputSafety]
    ensures RouteAfterCopy(Apply(run, CopyWrite, s2)) != "image_prompt" ==> tail == [OutputSafety]
  {
    var s3 := Apply(run, CopyWrite, s2);
    if RouteAfterCopy(s3) == "image_prompt" {
      assert Next(CopyWrite, s3) == To(ImagePrompt);
      var s4 := Apply(run, ImagePrompt, s3);
      var s5 := Apply(run, ImageGen, s4);
      assert Trace(run, OutputSafety, s5) == [OutputSafety];
      assert Trace(run, ImageGen, s4) == [ImageGen, OutputSafety];
      tail := [ImagePrompt, ImageGen, OutputSafety];
    } else {
      assert Next(CopyWrite, s3) == To(OutputSafety);
      assert Trace(run, OutputSafety, s3) == [OutputSafety];
      tail := [OutputSafety];
    }
  }

  /** Every accepted run visits context enhancement, then copy writing, and ends with the
      output check; image generation runs exactly when image prompting does, and is
      followed by the output check. */
  lemma AcceptedRuns(run: NodeFn, input: State)
    requires !Rejected(run, input)
    ensures var t := Run(run, input);
      |t| >= 4 && t[0] == InputSafety && t[1] == ContextEnhance && t[2] == CopyWrite
      && t[|t| - 1] == OutputSafety
      && (ImageGen in t <==> ImagePrompt in t)
      && forall i :: 0 <= i < |t| - 1 && t[i] == ImageGen ==> t[i + 1] == OutputSafety
  {
    RunShapes(run, input);
  }

  /** No node runs twice. */
  lemma VisitsOnce(run: NodeFn, input: State)
    ensures forall i, j :: 0 <= i < j < |Run(run, input)| ==> Run(run, input)[i] != Run(run, input)[j]
    ensures |Run(run, input)| <= 6
  {
    RunShapes(run, input);
  }
}

=== FILE: base64.dfy ===
/** Base64 as in section 4 of RFC 4648: the standard alphabet with `=` padding. `Encode`
    is Python's `base64.b64encode(...).decode("ascii")`; `Decode` is `base64.b64decode`
    in its default, non-validating mode, which first discards characters outside the
    alphabet. */
module Base64 {
  import opened Common

  type byte = x: int | 0 <= x < 256

  /** The character for a 6-bit value (Table 1 of RFC 4648). */
  function CharOf(i: nat): (c: char)
    requires i < 64
  {
    if i < 26 then ('A' as int + i) as char
    else if i < 52 then ('a' as int + (i - 26)) as char
    else if i < 62 then ('0' as int + (i - 52)) as char
    else if i == 62 then '+'
    else '/'
  }

  /** The 6-bit value of an alphabet character, or None for any other character. */
  function IndexOf(c: char): (r: Option<nat>)
    ensures r.Some? ==> r.value < 64
  {
    if 'A' <= c <= 'Z' then Some(c as int - 'A' as int)
    else if 'a' <= c <= 'z' then Some(c as int - 'a' as int + 26)
    else if '0' <= c <= '9' then Some(c as int - '0' as int + 52)
    else if c == '+' then Some(62)
    else if c == '/' then Some(63)
    else None
  }

  lemma IndexOfCharOf(i: nat)
    requires i < 64
    ensures IndexOf(CharOf(i)) == Some(i)
  {
  }

  /** Three bytes as four characters. */
  function EncodeGroup(b0: byte, b1: byte, b2: byte): string {
    [CharOf(b0 / 4), CharOf((b0 % 4) * 16 + b1 / 16), CharOf((b1 % 16) * 4 + b2 / 64), CharOf(b2 % 64)]
  }

  function Encode(bs: seq<byte>): (s: string)
    ensures |s| == 4 * ((|bs| + 2) / 3)
  {
    if |bs| == 0 then ""
    else if |bs| == 1 then [CharOf(bs[0] / 4), CharOf((bs[0] % 4) * 16), '=', '=']
    else if |bs| == 2 then
      [CharOf(bs[0] / 4), CharOf((bs[0] % 4) * 16 + bs[1] / 16), CharOf((bs[1] % 16) * 4), '=']
    else EncodeGroup(bs[0], bs[1], bs[2]) + Encode(bs[3..])
  }

  /** Characters `b64decode` keeps before decoding: the alphabet and the pad character. */
  predicate IsKept(c: char) {
    IndexOf(c).Some? || c == '='
  }

  function KeepAlphabet(s: string): (r: string)
    ensures forall k :: 0 <= k < |r| ==> IsKept(r[k])
  {
    if |s| == 0 then "" else (if IsKept(s[0]) then [s[0]] else "") + KeepAlphabet(s[1..])
  }

  /** Decoding of the kept characters: groups of four, `=` only at the end of the last group. */
  function DecodeKept(s: string): Option<seq<byte>>
  {
    if |s| == 0 then Some([])
    else if |s| < 4 then None
    else
      var i0, i1, i2, i3 := IndexOf(s[0]), IndexOf(s[1]), IndexOf(s[2]), IndexOf(s[3]);
      if i0.None? || i1.None? then None
      else
        var c0, c1 := i0.value, i1.value;
        if |s| == 4 && s[2] == '=' && s[3] == '=' then Some([c0 * 4 + c1 / 16])
        else if i2.None? then None
        else
          var c2 := i2.value;
          if |s| == 4 && s[3] == '=' then Some([c0 * 4 + c1 / 16, (c1 % 16) * 16 + c2 / 4])
          else if i3.None? then None
          else
            var rest := DecodeKept(s[4..]);
            if rest.None? then None
            else Some(DecodeGroup(c0, c1, c2, i3.value) + rest.value)
  }

  /** Four 6-bit values as three bytes. */
  function DecodeGroup(c0: nat, c1: nat, c2: nat, c3: nat): seq<byte>
    requires c0 < 64 && c1 < 64 && c2 < 64 && c3 < 64
  {
    [c0 * 4 + c1 / 16, (c1 % 16) * 16 + c2 / 4, (c2 % 4) * 64 + c3]
  }

  /** `base64.b64decode(s)`: non-ASCII text raises; other characters outside the alphabet
      are dropped; a bad length or misplaced padding raises (None). */
  function Decode(s: string): Option<seq<byte>>
  {
    if exists k | 0 <= k < |s| :: s[k] > '\U{7f}' then None else DecodeKept(KeepAlphabet(s))
  }

  lemma KeepAlphabetOfKept(s: string)
    requires forall k :: 0 <= k < |s| ==> IsKept(s[k])
    ensures KeepAlphabet(s) == s
  {
    if |s| > 0 {
      KeepAlphabetOfKept(s[1..]);
    }
  }

  lemma EncodeIsKept(bs: seq<byte>)
    ensures forall k :: 0 <= k < |Encode(bs)| ==> IsKept(Encode(bs)[k]) && Encode(bs)[k] <= '\U{7f}'
  {
    if |bs| >= 3 {
      EncodeIsKept(bs[3..]);
      var g := EncodeGroup(bs[0], bs[1], bs[2]);
      forall k | 0 <= k < 4 ensures IsKept(g[k]) {
        IndexOfCharOf(if k == 0 then bs[0] / 4 else if k == 1 then (bs[0] % 4) * 16 + bs[1] / 16
          else if k == 2 then (bs[1] % 16) * 4 + bs[2] / 64 else bs[2] % 64);
      }
    } else if |bs| == 2 {
      IndexOfCharOf(bs[0] / 4);
      IndexOfCharOf((bs[0] % 4) * 16 + bs[1] / 16);
      IndexOfCharOf((bs[1] % 16) * 4);
    } else if |bs| == 1 {
      IndexOfCharOf(bs[0] / 4);
      IndexOfCharOf((bs[0] % 4) * 16);
    }
  }

  /** The bit arithmetic of one group: the four 6-bit values give the three bytes back. */
  lemma GroupArithmetic(b0: byte, b1: byte, b2: byte)
    ensures var c1 := (b0 % 4) * 16 + b1 / 16; var c2 := (b1 % 16) * 4 + b2 / 64;
      (b0 / 4) * 4 + c1 / 16 == b0 && (c1 % 16) * 16 + c2 / 4 == b1 && (c2 % 4) * 64 + b2 % 64 == b2
      && b0 / 4 < 64 && c1 < 64 && c2 < 64
  {
  }

  lemma DecodeKeptOneByte(b0: byte)
    ensures DecodeKept(Encode([b0])) == Some([b0])
  {
    IndexOfCharOf(b0 / 4); IndexOfCharOf((b0 % 4) * 16);
    GroupArithmetic(b0, 0, 0);
  }

  lemma DecodeKeptTwoBytes(b0: byte, b1: byte)
    ensures DecodeKept(Encode([b0, b1])) == Some([b0, b1])
  {
    var c0, c1, c2 := b0 / 4, (b0 % 4) * 16 + b1 / 16, (b1 % 16) * 4;
    IndexOfCharOf(c0); IndexOfCharOf(c1); IndexOfCharOf(c2);
    var s := Encode([b0, b1]);
    assert s == [CharOf(c0), CharOf(c1), CharOf(c2), '='];
    assert s[2] != '=';
    GroupArithmetic(b0, b1, 0);
  }

  lemma DecodeKeptGroup(b0: byte, b1: byte, b2: byte, tail: string)
    ensures DecodeKept(EncodeGroup(b0, b1, b2) + tail) ==
      if DecodeKept(tail).None? then None else Some([b0, b1, b2] + DecodeKept(tail).value)
  {
    var c0, c1, c2, c3 := GroupChars(b0, b1, b2);
    DecodeKeptChars(c0, c1, c2, c3, tail);
  }

  /** The four 6-bit values of a group, which decode back to its bytes. */
  lemma GroupChars(b0: byte, b1: byte, b2: byte) returns (c0: nat, c1: nat, c2: nat, c3: nat)
    ensures c0 < 64 && c1 < 64 && c2 < 64 && c3 < 64
    ensures EncodeGroup(b0, b1, b2) == [CharOf(c0), CharOf(c1), CharOf(c2), CharOf(c3)]
    ensures DecodeGroup(c0, c1, c2, c3) == [b0, b1, b2]
  {
    GroupArithmetic(b0, b1, b2);
    c0, c1, c2, c3 := b0 / 4, (b0 % 4) * 16 + b1 / 16, (b1 % 16) * 4 + b2 / 64, b2 % 64;
  }

  /** A group of four alphabet characters decodes to its three bytes, then the rest. */
  lemma DecodeKeptChars(c0: nat, c1: nat, c2: nat, c3: nat, tail: string)
    requires c0 < 64 && c1 < 64 && c2 < 64 && c3 < 64
    ensures DecodeKept([CharOf(c0), CharOf(c1), CharOf(c2), CharOf(c3)] + tail) ==
      if DecodeKept(tail).None? then None else Some(DecodeGroup(c0, c1, c2, c3) + DecodeKept(tail).value)
  {
    IndexOfCharOf(c0); IndexOfCharOf(c1); IndexOfCharOf(c2); IndexOfCharOf(c3);
    var s := [CharOf(c0), CharOf(c1), CharOf(c2), CharOf(c3)] + tail;
    assert s[0] == CharOf(c0) && s[1] == CharOf(c1) && s[2] == CharOf(c2) && s[3] == CharOf(c3);
    assert s[4..] == tail;
    assert s[2] != '=' && s[3] != '=';
  }

  lemma {:induction false} DecodeKeptEncode(bs: seq<byte>)
    ensures DecodeKept(Encode(bs)) == Some(bs)
  {
    if |bs| >= 3 {
      DecodeKeptEncode(bs[3..]);
      DecodeKeptGroup(bs[0], bs[1], bs[2], Encode(bs[3..]));
      assert [bs[0], bs[1], bs[2]] + bs[3..] == bs;
    } else if |bs| == 2 {
      DecodeKeptTwoBytes(bs[0], bs[1]);
      assert bs == [bs[0], bs[1]];
    } else if |bs| == 1 {
      DecodeKeptOneByte(bs[0]);
      assert bs == [bs[0]];
    }
  }

  /** Decoding what was encoded gives the bytes back. */
  lemma DecodeEncode(bs: seq<byte>)
    ensures Decode(Encode(bs)) == Some(bs)
  {
    EncodeIsKept(bs);
    KeepAlphabetOfKept(Encode(bs));
    DecodeKeptEncode(bs);
  }
}

=== FILE: common.dfy ===
/** Shared vocabulary of the model: optional values and results, the values a YAML or
    JSON parser hands to Python code, Python truthiness and `str()`, and the handful of
    Python `str` methods the project relies on (strip, split, join, splitlines, int). */
module Common {

  datatype Option<T> = None | Some(value: T) {
    function GetOr(default: T): T {
      if Some? then value else default
    }
  }

  /** A Python call that either returns a value or raises; `error` names the exception. */
  datatype Result<T> = Ok(value: T) | Err(error: string)

  /** A value produced by `yaml.safe_load` or `json.loads`. Floats are kept as the text
      Python's `str()` would print for them; nothing computes with them. */
  datatype Value =
    | VNone
    | VBool(b: bool)
    | VInt(i: int)
    | VFloat(text: string)
    | VStr(s: string)
    | VList(items: seq<Value>)
    | VDict(entries: map<string, Value>)

  /** A mapping document: a YAML file whose top level is a mapping, or a JSON object. */
  type Doc = map<string, Value>

  /** A file system seen by path: a regular file with its text, or a directory. */
  datatype Entry = File(text: string) | Directory

  type FileSystem = map<string, Entry>

  /** Python's `bool(v)`. */
  predicate Truthy(v: Value) {
    match v
    case VNone => false
    case VBool(b) => b
    case VInt(i) => i != 0
    case VFloat(t) => t != "0.0" && t != "-0.0"
    case VStr(s) => s != ""
    case VList(items) => items != []
    case VDict(m) => m != map[]
  }

  /** Whether `v` can be a dict key or a set member: lists and mappings cannot, and
      hashing one raises TypeError. */
  predicate Hashable(v: Value) {
    !v.VList? && !v.VDict?
  }

  /** `d.get(key, default)` on a Python dict. */
  function Get(d: Doc, key: string, default: Value): (r: Value)
    ensures key in d ==> r == d[key]
    ensures key !in d ==> r == default
  {
    if key in d then d[key] else default
  }

  /** Python's `a or b`. */
  function Or(a: Value, b: Value): (r: Value)
    ensures Truthy(a) ==> r == a
    ensures !Truthy(a) ==> r == b
  {
    if Truthy(a) then a else b
  }

  /** `a or b` on an optional string (`str | None`): the fallback replaces None and "". */
  function OrStr(a: Option<string>, b: string): (r: string)
    ensures a.Some? && a.value != "" ==> r == a.value
    ensures a.None? || a.value == "" ==> r == b
  {
    if a.Some? && a.value != "" then a.value else b
  }

  /** Python's `str(v)` for scalars. Lists and mappings are not rendered (see README). */
  function Str(v: Value): string {
    match v
    case VNone => "None"
    case VBool(b) => if b then "True" else "False"
    case VInt(i) => IntToString(i)
    case VFloat(t) => t
    case VStr(s) => s
    case VList(_) => "<list>"
    case VDict(_) => "<dict>"
  }

  // ---------------------------------------------------------------------------
  // Decimal rendering and parsing

  function DigitChar(d: nat): (c: char)
    requires d < 10
    ensures '0' <= c <= '9'
  {
    ('0' as int + d) as char
  }

  function NatToString(n: nat): (s: string)
    ensures |s| >= 1
    ensures forall k :: 0 <= k < |s| ==> '0' <= s[k] <= '9'
  {
    if n < 10 then [DigitChar(n)] else NatToString(n / 10) + [DigitChar(n % 10)]
  }

  function IntToString(i: int): string {
    if i < 0 then "-" + NatToString(-i) else NatToString(i)
  }

  predicate IsDigit(c: char) {
    '0' <= c <= '9'
  }

  function DigitsValue(s: string): (n: int)
    requires forall k :: 0 <= k < |s| ==> IsDigit(s[k])
    ensures n >= 0
  {
    if |s| == 0 then 0
    else
      assert IsDigit(s[|s| - 1]);
      DigitsValue(s[..|s| - 1]) * 10 + (s[|s| - 1] as int - '0' as int)
  }

  lemma {:induction false} DigitsValueOfNatToString(n: nat)
    ensures DigitsValue(NatToString(n)) == n
  {
    if n >= 10 {
      var s := NatToString(n / 10) + [DigitChar(n % 10)];
      assert s[..|s| - 1] == NatToString(n / 10);
      DigitsValueOfNatToString(n / 10);
    }
  }

  /** Python's `int(s)` on a string: surrounding whitespace, an optional sign and at least
      one ASCII digit; anything else raises ValueError. */
  function ParseInt(s: string): (r: Result<int>)
    ensures r.Ok? ==> Strip(s) != ""
  {
    var t := Strip(s);
    var neg := |t| > 0 && t[0] == '-';
    var signed := |t| > 0 && (t[0] == '-' || t[0] == '+');
    var digits := if signed then t[1..] else t;
    if |digits| > 0 && forall k :: 0 <= k < |digits| ==> IsDigit(digits[k]) then
      var v := DigitsValue(digits);
      Ok(if neg then -v else v)
    else
      Err("ValueError")
  }

  /** The position of the first `c` in `t`, or `|t|`. */
  function IndexOfChar(t: string, c: char): (i: nat)
    ensures i <= |t| && c !in t[..i]
    ensures i < |t| ==> t[i] == c
  {
    if |t| == 0 then 0 else if t[0] == c then 0 else 1 + IndexOfChar(t[1..], c)
  }

  predicate AllDigits(t: string) {
    forall k :: 0 <= k < |t| ==> IsDigit(t[k])
  }

  /** A float's repr starts with `-` exactly when it is negative (or `-0.0`). */
  predicate FloatIsNegative(text: string) {
    |text| > 0 && text[0] == '-'
  }

  /** The repr of a float after its sign. */
  function FloatMagnitude(text: string): string {
    if FloatIsNegative(text) then text[1..] else text
  }

  /** Python's repr switches to an `e+` exponent at a magnitude of 1e16. */
  predicate HasPositiveExponent(text: string) {
    var body := FloatMagnitude(text);
    var e := IndexOfChar(body, 'e');
    e + 1 < |body| && body[e + 1] == '+'
  }

  /** `int(f)` for a float printed by Python's repr as `text`: truncation toward zero,
      OverflowError on an infinity and ValueError on NaN. The whole part of the shortest
      repr is the whole part of the float itself. An `e-` exponent means a magnitude
      below 1e-4, which truncates to 0; an `e+` exponent means 1e16 or more, whose exact
      binary value the repr does not give (see README). */
  function TruncFloat(text: string): (r: Result<int>)
    ensures text == "nan" ==> r == Err("ValueError")
    ensures text == "inf" || text == "-inf" ==> r == Err("OverflowError")
    ensures HasPositiveExponent(text) ==> r.Err?
    ensures r.Ok? && r.value > 0 ==> !FloatIsNegative(text)
    ensures r.Ok? && r.value < 0 ==> FloatIsNegative(text)
  {
    if text == "nan" then Err("ValueError")
    else if text == "inf" || text == "-inf" then Err("OverflowError")
    else
      var body := FloatMagnitude(text);
      var e := IndexOfChar(body, 'e');
      if e < |body| then
        if e + 1 < |body| && body[e + 1] == '+' then Err("exact value of a float of 1e16 or more")
        else Ok(0)
      else
        var whole := body[..IndexOfChar(body, '.')];
        if whole != "" && AllDigits(whole) then
          var n := DigitsValue(whole);
          Ok(if FloatIsNegative(text) then -n else n)
        else Err("ValueError")
  }

  /** A float printed in positional notation truncates to its whole part, with its sign. */
  lemma TruncFloatOfDecimal(n: nat, fraction: string, neg: bool)
    requires AllDigits(fraction)
    ensures var text := (if neg then "-" else "") + NatToString(n) + "." + fraction;
      TruncFloat(text) == Ok(if neg then -(n as int) else n) && !HasPositiveExponent(text)
  {
    var digits := NatToString(n);
    var body := digits + "." + fraction;
    var text := (if neg then "-" else "") + body;
    assert text == (if neg then "-" else "") + NatToString(n) + "." + fraction;
    DecimalBody(n, fraction);
    if neg {
      assert text[1..] == body;
    } else {
      assert text == body;
    }
    assert FloatMagnitude(text) == body;
    assert FloatIsNegative(text) == neg;
    TruncPositional(text, body, digits);
  }

  lemma TruncPositional(text: string, body: string, whole: string)
    requires text != "nan" && text != "inf" && text != "-inf"
    requires FloatMagnitude(text) == body && IndexOfChar(body, 'e') == |body|
    requires body[..IndexOfChar(body, '.')] == whole && whole != "" && AllDigits(whole)
    ensures TruncFloat(text) == Ok(if FloatIsNegative(text) then -DigitsValue(whole) else DigitsValue(whole))
    ensures !HasPositiveExponent(text)
  {
  }

  /** The unsigned positional repr: no exponent, and the whole part before the point. */
  lemma DecimalBody(n: nat, fraction: string)
    requires AllDigits(fraction)
    ensures var body := NatToString(n) + "." + fraction;
      !FloatIsNegative(body) && body != "nan" && body != "inf" && body != "-inf"
      && "-" + body != "nan" && "-" + body != "inf" && "-" + body != "-inf"
      && IndexOfChar(body, 'e') == |body|
      && body[..IndexOfChar(body, '.')] == NatToString(n)
      && NatToString(n) != "" && AllDigits(NatToString(n)) && DigitsValue(NatToString(n)) == n
  {
    var digits := NatToString(n);
    var body := digits + "." + fraction;
    PointedChars(digits, fraction, body);
    assert ("-" + body)[1] == digits[0];
    DigitsValueOfNatToString(n);
  }

  /** Where the point, the exponent and the underscores are in `whole.fraction`. */
  lemma PointedChars(whole: string, fraction: string, u: string)
    requires |whole| >= 1 && AllDigits(whole) && AllDigits(fraction)
    requires u == whole + "." + fraction
    ensures 'e' !in u && 'E' !in u && '_' !in u && IsDigit(u[0]) && !IsSpace(u[|u| - 1])
    ensures IndexOfChar(u, '.') == |whole| && IndexOfChar(u, 'e') == |u| && ExponentAt(u) == |u|
    ensures u[..|whole|] == whole && u[|whole| + 1..] == fraction
  {
    PointedPieces(whole, fraction, u);
    IndexOfCharAt(u, '.', |whole|);
  }

  lemma PointedPieces(whole: string, fraction: string, u: string)
    requires |whole| >= 1 && AllDigits(whole) && AllDigits(fraction)
    requires u == whole + "." + fraction
    ensures forall k :: 0 <= k < |whole| ==> IsDigit(u[k])
    ensures u[|whole|] == '.' && forall k :: |whole| < k < |u| ==> IsDigit(u[k])
    ensures u[..|whole|] == whole && u[|whole| + 1..] == fraction
  {
    assert forall k :: 0 <= k < |whole| ==> u[k] == whole[k];
    assert forall k :: |whole| < k < |u| ==> u[k] == fraction[k - |whole| - 1];
    assert u[..|whole|] == whole;
  }

  /** A float printed with an `e-` exponent truncates to 0. */
  lemma TruncFloatOfTiny(mantissa: string, exponent: string, neg: bool)
    requires forall k :: 0 <= k < |mantissa| ==> IsDigit(mantissa[k]) || mantissa[k] == '.'
    ensures var text := (if neg then "-" else "") + mantissa + "e-" + exponent;
      TruncFloat(text) == Ok(0)
  {
    var body := mantissa + "e-" + exponent;
    var text := (if neg then "-" else "") + body;
    assert text == (if neg then "-" else "") + mantissa + "e-" + exponent;
    TinyBody(mantissa, exponent);
    if neg {
      assert text[1..] == body;
    } else {
      assert text == body;
    }
  }

  lemma TinyBody(mantissa: string, exponent: string)
    requires forall k :: 0 <= k < |mantissa| ==> IsDigit(mantissa[k]) || mantissa[k] == '.'
    ensures var body := mantissa + "e-" + exponent;
      !FloatIsNegative(body) && body != "nan" && body != "inf" && body != "-inf"
      && "-" + body != "nan" && "-" + body != "inf" && "-" + body != "-inf"
      && IndexOfChar(body, 'e') == |mantissa| && body[|mantissa| + 1] == '-'
  {
    var body := mantissa + "e-" + exponent;
    assert body[|mantissa|] == 'e' && body[|mantissa| + 1] == '-';
    assert forall k :: 0 <= k < |mantissa| ==> body[k] == mantissa[k];
    IndexOfCharAt(body, 'e', |mantissa|);
    assert "-inf"[1] == 'i';
    assert body != "-inf" by {
      if |body| == 4 { assert body[0] != '-'; }
    }
    assert ("-" + body)[1..] == body;
  }

  lemma IndexOfCharAt(t: string, c: char, i: nat)
    requires i < |t| && t[i] == c && forall k :: 0 <= k < i ==> t[k] != c
    ensures IndexOfChar(t, c) == i
  {
    var j := IndexOfChar(t, c);
    assert j <= i ==> t[j] == c;
  }

  /** Python's `int(v)` on a parsed value. */
  function ToInt(v: Value): (r: Result<int>)
    ensures v.VInt? ==> r == Ok(v.i)
    ensures v.VBool? ==> r == Ok(if v.b then 1 else 0)
    ensures v.VNone? || v.VList? || v.VDict? ==> r == Err("TypeError")
  {
    match v
    case VInt(i) => Ok(i)
    case VBool(b) => Ok(if b then 1 else 0)
    case VStr(s) => ParseInt(s)
    case VNone => Err("TypeError")
    case VFloat(t) => TruncFloat(t)
    case VList(_) => Err("TypeError")
    case VDict(_) => Err("TypeError")
  }

  // ---------------------------------------------------------------------------
  // float()

  /** An underscore in numeric text is accepted only between two digits. */
  predicate UnderscoresBetweenDigits(t: string) {
    forall k :: 0 <= k < |t| && t[k] == '_' ==> 0 < k < |t| - 1 && IsDigit(t[k - 1]) && IsDigit(t[k + 1])
  }

  function WithoutUnderscores(t: string): (r: string)
    ensures '_' !in r && |r| <= |t|
    ensures '_' !in t ==> r == t
  {
    if t == "" then "" else (if t[0] == '_' then "" else [t[0]]) + WithoutUnderscores(t[1..])
  }

  /** ASCII letters in lower case; every other character unchanged. */
  function LowerAscii(t: string): (r: string)
    ensures |r| == |t|
    ensures forall k :: 0 <= k < |t| ==> r[k] == if 'A' <= t[k] <= 'Z' then (t[k] as int + 32) as char else t[k]
  {
    if t == "" then "" else [if 'A' <= t[0] <= 'Z' then (t[0] as int + 32) as char else t[0]] + LowerAscii(t[1..])
  }

  /** The text after an optional leading `+` or `-`. */
  function Unsigned(t: string): (r: string)
    ensures r == t || (|t| > 0 && (t[0] == '+' || t[0] == '-') && r == t[1..])
  {
    if |t| > 0 && (t[0] == '+' || t[0] == '-') then t[1..] else t
  }

  /** The position of the first `e` or `E`, or `|t|`. */
  function ExponentAt(t: string): (i: nat)
    ensures i <= |t| && 'e' !in t[..i] && 'E' !in t[..i]
    ensures i < |t| ==> t[i] == 'e' || t[i] == 'E'
  {
    var e, big := IndexOfChar(t, 'e'), IndexOfChar(t, 'E');
    if e <= big then e else big
  }

  /** An infinity or a NaN, in any letter case. */
  predicate InfOrNan(u: string) {
    var l := LowerAscii(u);
    l == "inf" || l == "infinity" || l == "nan"
  }

  /** A decimal literal: digits around at most one point, at least one digit in all,
      then optionally `e` or `E`, an optional sign and at least one digit. */
  predicate DecimalLiteral(u: string) {
    var e := ExponentAt(u);
    var mantissa := u[..e];
    var point := IndexOfChar(mantissa, '.');
    var whole := mantissa[..point];
    var fraction := if point < |mantissa| then mantissa[point + 1..] else "";
    AllDigits(whole) && AllDigits(fraction) && (whole != "" || fraction != "")
    && (e < |u| ==> var x := Unsigned(u[e + 1..]); x != "" && AllDigits(x))
  }

  /** Stripped text that `float()` accepts: with underscores only between digits, an
      optionally signed decimal literal, infinity or NaN. */
  predicate NumericText(t: string) {
    UnderscoresBetweenDigits(t) &&
    var u := Unsigned(WithoutUnderscores(t));
    InfOrNan(u) || DecimalLiteral(u)
  }

  /** The texts `float()` accepts: numeric text once surrounding whitespace is stripped. */
  predicate FloatText(s: string) {
    NumericText(Strip(s))
  }

  /** Python's `float(v)` on a parsed value, as far as whether it raises: numbers and
      booleans convert, None, lists and mappings raise TypeError, and a string converts
      exactly when it is numeric text, raising ValueError otherwise. */
  function ToFloat(v: Value): (r: Result<()>)
    ensures v.VInt? || v.VBool? || v.VFloat? ==> r.Ok?
    ensures v.VNone? || v.VList? || v.VDict? ==> r == Err("TypeError")
    ensures v.VStr? ==> (r.Ok? <==> FloatText(v.s)) && (r.Err? ==> r.error == "ValueError")
  {
    match v
    case VStr(s) => if FloatText(s) then Ok(()) else Err("ValueError")
    case VNone => Err("TypeError")
    case VList(_) => Err("TypeError")
    case VDict(_) => Err("TypeError")
    case _ => Ok(())
  }

  /** Text that starts with a letter, other than the `i` of `inf` or the `n` of `nan`,
      is refused, whatever follows. */
  lemma FloatTextRefusesWord(t: string)
    requires |t| > 0 && 'a' <= t[0] <= 'z' && t[0] != 'i' && t[0] != 'n' && !IsSpace(t[|t| - 1])
    ensures !FloatText(t)
  {
    StripOfStripped(t);
    var w := WithoutUnderscores(t);
    assert w[0] == t[0];
    assert Unsigned(w) == w;
    assert LowerAscii(w)[0] == t[0];
    NotDecimalLiteral(w);
  }

  /** A decimal literal starts with a digit, a point or (without digits) nothing else. */
  lemma NotDecimalLiteral(w: string)
    requires |w| > 0 && !IsDigit(w[0]) && w[0] != '.'
    ensures !DecimalLiteral(w)
  {
    var e := ExponentAt(w);
    var mantissa := w[..e];
    var point := IndexOfChar(mantissa, '.');
    if e > 0 {
      assert mantissa[0] == w[0];
      assert point > 0;
      assert mantissa[..point][0] == w[0];
    } else {
      assert point == 0;
    }
  }

  /** An infinity or a NaN, in any letter case and with or without a sign, is accepted. */
  lemma FloatTextOfInfOrNan(sign: string, w: string)
    requires sign == "" || sign == "+" || sign == "-"
    requires InfOrNan(w)
    ensures FloatText(sign + w)
  {
    InfOrNanEnds(w);
    SignedIsFloatText(sign, w);
  }

  lemma InfOrNanEnds(w: string)
    requires InfOrNan(w)
    ensures |w| > 0 && '_' !in w && w[0] != '+' && w[0] != '-' && !IsSpace(w[0]) && !IsSpace(w[|w| - 1])
  {
    var l := LowerAscii(w);
    assert l[0] == 'i' || l[0] == 'n';
    assert l[|l| - 1] == 'f' || l[|l| - 1] == 'y' || l[|l| - 1] == 'n';
    assert '_' !in l;
    assert forall k :: 0 <= k < |w| && w[k] == '_' ==> l[k] == '_';
  }

  /** The repr of an integer or of a float in positional notation is numeric text. */
  lemma FloatTextOfDecimal(n: nat, fraction: string, neg: bool)
    requires AllDigits(fraction)
    ensures FloatText((if neg then "-" else "") + NatToString(n))
    ensures FloatText((if neg then "-" else "") + NatToString(n) + "." + fraction)
  {
    var digits := NatToString(n);
    var sign := if neg then "-" else "";
    DecimalLiteralOf(digits, "", false, digits);
    SignedIsFloatText(sign, digits);
    DecimalLiteralOf(digits, fraction, true, digits + "." + fraction);
    SignedIsFloatText(sign, digits + "." + fraction);
    ConcatAssoc(sign, digits, ".", fraction);
  }

  lemma ConcatAssoc(a: string, b: string, c: string, d: string)
    ensures a + (b + c + d) == a + b + c + d
  {
  }

  /** Digits, optionally followed by a point and more digits, form a decimal literal. */
  lemma DecimalLiteralOf(whole: string, fraction: string, point: bool, u: string)
    requires |whole| >= 1 && AllDigits(whole) && AllDigits(fraction)
    requires u == if point then whole + "." + fraction else whole
    ensures DecimalLiteral(u)
    ensures |u| > 0 && '_' !in u && IsDigit(u[0]) && u[0] != '+' && u[0] != '-' && !IsSpace(u[0]) && !IsSpace(u[|u| - 1])
  {
    if point {
      PointedChars(whole, fraction, u);
      assert u[..|u|] == u;
    } else {
      DigitsOnly(u);
    }
  }

  lemma DigitsOnly(u: string)
    requires |u| >= 1 && AllDigits(u)
    ensures DecimalLiteral(u) && '_' !in u && !IsSpace(u[|u| - 1])
  {
    assert 'e' !in u && 'E' !in u && '.' !in u;
    assert ExponentAt(u) == |u| && IndexOfChar(u, '.') == |u|;
    assert u[..|u|] == u;
  }

  /** Such a literal, an infinity or a NaN, with or without a sign, is numeric text. */
  lemma SignedIsFloatText(sign: string, u: string)
    requires sign == "" || sign == "+" || sign == "-"
    requires InfOrNan(u) || DecimalLiteral(u)
    requires |u| > 0 && '_' !in u && u[0] != '+' && u[0] != '-' && !IsSpace(u[0]) && !IsSpace(u[|u| - 1])
    ensures FloatText(sign + u)
  {
    var t := sign + u;
    assert '_' !in t;
    assert t[|t| - 1] == u[|u| - 1];
    assert !IsSpace(t[0]);
    StripOfStripped(t);
    UnsignedLiteral(sign, u, t);
  }

  lemma UnsignedLiteral(sign: string, u: string, t: string)
    requires sign == "" || sign == "+" || sign == "-"
    requires |u| > 0 && u[0] != '+' && u[0] != '-'
    requires t == sign + u && '_' !in t && (InfOrNan(u) || DecimalLiteral(u))
    ensures NumericText(t)
  {
    var w := WithoutUnderscores(t);
    assert w == t;
    if sign == "" {
      assert t == u;
      assert Unsigned(u) == u;
    } else {
      assert t[0] == sign[0] && t[1..] == u;
      assert Unsigned(t) == u;
    }
    assert UnderscoresBetweenDigits(t);
  }

  lemma {:induction false} ParseIntOfNatToString(n: nat)
    ensures ParseInt(NatToString(n)) == Ok(n)
  {
    var s := NatToString(n);
    DigitsValueOfNatToString(n);
    ParseIntOfDigits(s, n);
  }

  /** A run of digits with no sign parses to its value. */
  lemma ParseIntOfDigits(s: string, n: nat)
    requires |s| >= 1 && (forall k :: 0 <= k < |s| ==> IsDigit(s[k])) && DigitsValue(s) == n
    ensures ParseInt(s) == Ok(n)
  {
    NoSpaceInDigits(s);
    assert IsDigit(s[0]);
    ParseIntUnsigned(s, n);
  }

  lemma ParseIntUnsigned(s: string, n: nat)
    requires |s| >= 1 && (forall k :: 0 <= k < |s| ==> IsDigit(s[k])) && DigitsValue(s) == n
    requires Strip(s) == s && s[0] != '-' && s[0] != '+'
    ensures ParseInt(s) == Ok(n)
  {
  }

  /** `int(str(i)) == i`. */
  lemma ParseIntOfIntToString(i: int)
    ensures ParseInt(IntToString(i)) == Ok(i)
  {
    if i < 0 {
      ParseIntOfNegative(-i);
    } else {
      assert IntToString(i) == NatToString(i);
      ParseIntOfNatToString(i);
    }
  }

  lemma ParseIntOfNegative(n: nat)
    requires n > 0
    ensures ParseInt(IntToString(-(n as int))) == Ok(-(n as int))
  {
    var s := NatToString(n);
    DigitsValueOfNatToString(n);
    var t := IntToString(-(n as int));
    assert t == "-" + s;
    NegativeText(n, s, t);
  }

  lemma NegativeText(n: nat, s: string, t: string)
    requires |s| >= 1 && (forall k :: 0 <= k < |s| ==> IsDigit(s[k])) && DigitsValue(s) == n
    requires t == "-" + s
    ensures ParseInt(t) == Ok(-(n as int))
  {
    assert IsDigit(t[|t| - 1]);
    StripOfStripped(t);
    ParseIntMinus(t, s, n);
  }

  lemma ParseIntMinus(t: string, s: string, n: nat)
    requires |s| >= 1 && (forall k :: 0 <= k < |s| ==> IsDigit(s[k])) && DigitsValue(s) == n
    requires Strip(t) == t && |t| > 0 && t[0] == '-' && t[1..] == s
    ensures ParseInt(t) == Ok(-(n as int))
  {
  }

  lemma NoSpaceInDigits(s: string)
    requires |s| >= 1 && forall k :: 0 <= k < |s| ==> IsDigit(s[k])
    ensures Strip(s) == s
  {
    assert !IsSpace(s[0]) && !IsSpace(s[|s| - 1]);
  }

  // ---------------------------------------------------------------------------
  // Prefixes, substrings, whitespace

  predicate StartsWith(s: string, p: string) {
    |p| <= |s| && s[..|p|] == p
  }

  predicate EndsWith(s: string, p: string) {
    |p| <= |s| && s[|s| - |p|..] == p
  }

  predicate OccursAt(t: string, w: string, i: int) {
    0 <= i && i + |w| <= |t| && t[i..i + |w|] == w
  }

  /** Python's `w in t` on strings. */
  predicate Contains(t: string, w: string) {
    exists i | 0 <= i <= |t| - |w| :: OccursAt(t, w, i)
  }

  /** The characters for which Python's `str.isspace()` holds (also `\s` in `re`). */
  predicate IsSpace(c: char) {
    c == ' ' || ('\t' <= c <= '\r') || ('\U{1c}' <= c <= '\U{1f}') || c == '\U{85}'
    || c == '\U{a0}' || c == '\U{1680}' || ('\U{2000}' <= c <= '\U{200a}') || c == '\U{2028}'
    || c == '\U{2029}' || c == '\U{202f}' || c == '\U{205f}' || c == '\U{3000}'
  }

  function LStrip(s: string): (r: string)
    ensures |r| <= |s| && r == s[|s| - |r|..]
    ensures |r| > 0 ==> !IsSpace(r[0])
    ensures forall k :: 0 <= k < |s| - |r| ==> IsSpace(s[k])
  {
    if |s| > 0 && IsSpace(s[0]) then LStrip(s[1..]) else s
  }

  function RStrip(s: string): (r: string)
    ensures |r| <= |s| && r == s[..|r|]
    ensures |r| > 0 ==> !IsSpace(r[|r| - 1])
    ensures forall k :: |r| <= k < |s| ==> IsSpace(s[k])
  {
    if |s| > 0 && IsSpace(s[|s| - 1]) then RStrip(s[..|s| - 1]) else s
  }

  /** Python's `s.strip()`: the longest infix that neither starts nor ends with whitespace. */
  function Strip(s: string): (r: string)
    ensures |r| <= |s|
    ensures |r| > 0 ==> !IsSpace(r[0]) && !IsSpace(r[|r| - 1])
    ensures r == "" <==> forall k :: 0 <= k < |s| ==> IsSpace(s[k])
  {
    var l := LStrip(s);
    var r := RStrip(l);
    assert r == "" ==> forall k :: 0 <= k < |s| ==> IsSpace(s[k]) by {
      if r == "" {
        assert l == "";
      }
    }
    r
  }

  /** A string that starts and ends with a non-space character is its own strip. */
  lemma StripOfStripped(s: string)
    requires |s| > 0 ==> !IsSpace(s[0]) && !IsSpace(s[|s| - 1])
    ensures Strip(s) == s
  {
  }

  /** `s.replace(a, b)` for single characters. */
  function ReplaceChar(s: string, a: char, b: char): (r: string)
    ensures |r| == |s|
    ensures forall k :: 0 <= k < |s| ==> r[k] == if s[k] == a then b else s[k]
  {
    if |s| == 0 then [] else [if s[0] == a then b else s[0]] + ReplaceChar(s[1..], a, b)
  }

  // ---------------------------------------------------------------------------
  // Splitting and joining

  /** Python's `s.split(sep)` for a one-character separator: always at least one piece. */
  function Split(s: string, sep: char): (r: seq<string>)
    ensures |r| >= 1
    ensures forall k :: 0 <= k < |r| ==> sep !in r[k]
  {
    if |s| == 0 then [""]
    else
      var rest := Split(s[1..], sep);
      if s[0] == sep then [""] + rest else [[s[0]] + rest[0]] + rest[1..]
  }

  /** `sep.join(parts)`. */
  function Join(parts: seq<string>, sep: string): string {
    if |parts| == 0 then ""
    else if |parts| == 1 then parts[0]
    else parts[0] + sep + Join(parts[1..], sep)
  }

  lemma {:induction false} SplitOfSeparatorFree(a: string, b: string, sep: char)
    requires sep !in a
    ensures Split(a + b, sep) == [a + Split(b, sep)[0]] + Split(b, sep)[1..]
  {
    if |a| > 0 {
      assert (a + b)[1..] == a[1..] + b;
      SplitOfSeparatorFree(a[1..], b, sep);
      assert [a[0]] + (a[1..] + Split(b, sep)[0]) == a + Split(b, sep)[0];
    } else {
      assert a + b == b;
      assert a + Split(b, sep)[0] == Split(b, sep)[0];
    }
  }

  /** Splitting what was joined with a separator no piece contains gives the pieces back. */
  lemma {:induction false} SplitJoin(parts: seq<string>, sep: char)
    requires |parts| >= 1
    requires forall k :: 0 <= k < |parts| ==> sep !in parts[k]
    ensures Split(Join(parts, [sep]), sep) == parts
  {
    if |parts| == 1 {
      SplitOfSeparatorFree(parts[0], "", sep);
      assert parts[0] + "" == parts[0];
    } else {
      var tail := Join(parts[1..], [sep]);
      SplitJoin(parts[1..], sep);
      assert Split([sep] + tail, sep) == [""] + parts[1..];
      assert parts[0] + [sep] + tail == parts[0] + ([sep] + tail);
      SplitOfSeparatorFree(parts[0], [sep] + tail, sep);
      var rest := Split([sep] + tail, sep);
      assert rest[0] == "" && rest[1..] == parts[1..];
      assert parts[0] + rest[0] == parts[0];
      assert [parts[0]] + parts[1..] == parts;
    }
  }

  /** The line-boundary characters of Python's `str.splitlines()` (`\r\n` counts once). */
  predicate IsLineBreak(c: char) {
    c == '\n' || c == '\r' || c == '\U{b}' || c == '\U{c}' || ('\U{1c}' <= c <= '\U{1e}')
    || c == '\U{85}' || c == '\U{2028}' || c == '\U{2029}'
  }

  /** Python's `s.splitlines()`: no trailing empty line, `""` gives no lines. */
  function SplitLines(s: string): (r: seq<string>)
    ensures forall k :: 0 <= k < |r| ==> forall j :: 0 <= j < |r[k]| ==> !IsLineBreak(r[k][j])
    decreases |s|
  {
    if |s| == 0 then []
    else
      var n := FirstBreak(s, 0);
      if n == |s| then [s]
      else
        var next := if s[n] == '\r' && n + 1 < |s| && s[n + 1] == '\n' then n + 2 else n + 1;
        [s[..n]] + SplitLines(s[next..])
  }

  /** Index of the first line break at or after `i`, or `|s|`. */
  function FirstBreak(s: string, i: nat): (n: nat)
    requires i <= |s|
    ensures i <= n <= |s|
    ensures n < |s| ==> IsLineBreak(s[n])
    ensures forall j :: i <= j < n ==> !IsLineBreak(s[j])
    decreases |s| - i
  {
    if i == |s| || IsLineBreak(s[i]) then i else FirstBreak(s, i + 1)
  }

  /** Python's `s[:n]` for a non-negative bound. */
  function Take<T>(s: seq<T>, n: nat): (r: seq<T>)
    ensures |r| == if n < |s| then n else |s|
    ensures r == s[..|r|]
  {
    if n < |s| then s[..n] else s
  }

  /** Python's `s[:n]` for any integer bound: a negative bound counts from the end. */
  function SliceTo<T>(s: seq<T>, n: int): (r: seq<T>)
    ensures |r| <= |s| && r == s[..|r|]
    ensures n >= 0 ==> |r| == if n < |s| then n else |s|
    ensures n < 0 ==> |r| == if |s| + n > 0 then |s| + n else 0
  {
    if n >= 0 then Take(s, n) else if |s| + n > 0 then s[..|s| + n] else []
  }

  /** Python's `max(lo, min(hi, x))`. */
  function Clamp(x: int, lo: int, hi: int): (r: int)
    requires lo <= hi
    ensures lo <= r <= hi
    ensures lo <= x <= hi ==> r == x
    ensures x < lo ==> r == lo
    ensures x > hi ==> r == hi
  {
    if x < lo then lo else if x > hi then hi else x
  }

  // ---------------------------------------------------------------------------
  // repr() of a string

  /** The quote `repr()` puts around a string: double quotes when the text holds a
      single quote and no double quote, single quotes otherwise. */
  function ReprQuote(s: string): (q: char)
    ensures q == '"' <==> '\'' in s && '"' !in s
    ensures q == '\'' || q == '"'
  {
    if '\'' in s && '"' !in s then '"' else '\''
  }

  /** ASCII control characters, which `repr()` prints as `\xhh`. */
  predicate IsAsciiControl(c: char) {
    c < ' ' || c == '\U{7f}'
  }

  function HexDigit(d: nat): (c: char)
    requires d < 16
  {
    if d < 10 then ('0' as int + d) as char else ('a' as int + d - 10) as char
  }

  function HexValue(c: char): (d: nat)
    ensures d < 16
  {
    if '0' <= c <= '9' then c as int - '0' as int
    else if 'a' <= c <= 'f' then c as int - 'a' as int + 10
    else 0
  }

  /** How `repr()` writes one character inside quotes `q`. */
  function EscapeChar(c: char, q: char): (e: string)
    ensures |e| >= 1 && (e[0] == '\\' <==> c == '\\' || c == q || IsAsciiControl(c))
  {
    if c == '\\' || c == q then ['\\', c]
    else if c == '\t' then "\\t"
    else if c == '\n' then "\\n"
    else if c == '\r' then "\\r"
    else if IsAsciiControl(c) then ['\\', 'x', HexDigit(c as int / 16), HexDigit(c as int % 16)]
    else [c]
  }

  function EscapeText(s: string, q: char): string {
    if s == "" then "" else EscapeChar(s[0], q) + EscapeText(s[1..], q)
  }

  /** Python's `repr()` of a string whose characters are all ASCII or printable. */
  function Repr(s: string): (r: string)
    ensures |r| >= 2 && r[0] == r[|r| - 1] == ReprQuote(s)
  {
    var q := ReprQuote(s);
    [q] + EscapeText(s, q) + [q]
  }

  /** How Python reads the text between the quotes of a string literal back. */
  function Unescape(t: string): string {
    if t == "" then ""
    else if t[0] != '\\' || |t| == 1 then [t[0]] + Unescape(t[1..])
    else if t[1] == 'x' && |t| >= 4 then [(HexValue(t[2]) * 16 + HexValue(t[3])) as char] + Unescape(t[4..])
    else
      var c := if t[1] == 't' then '\t' else if t[1] == 'n' then '\n' else if t[1] == 'r' then '\r' else t[1];
      [c] + Unescape(t[2..])
  }

  /** Reading the literal back gives the original string: quoting loses nothing. */
  lemma {:induction false} UnescapeEscapeText(s: string, q: char)
    requires q == '\'' || q == '"'
    ensures Unescape(EscapeText(s, q)) == s
  {
    if s != "" {
      UnescapeEscapeText(s[1..], q);
      UnescapeEscapeChar(s[0], q, EscapeText(s[1..], q));
    }
  }

  lemma UnescapeEscapeChar(c: char, q: char, rest: string)
    requires q == '\'' || q == '"'
    ensures Unescape(EscapeChar(c, q) + rest) == [c] + Unescape(rest)
  {
    var t := EscapeChar(c, q) + rest;
    if c == '\\' || c == q {
      assert t[2..] == rest;
    } else if c == '\t' || c == '\n' || c == '\r' {
      assert t[2..] == rest;
    } else if IsAsciiControl(c) {
      assert t[4..] == rest;
      assert HexValue(HexDigit(c as int / 16)) == c as int / 16;
      assert HexValue(HexDigit(c as int % 16)) == c as int % 16;
    } else {
      assert t[1..] == rest;
    }
  }

  /** How a reader finds the end of a literal's body: the length of `t` up to the first
      quote `q` that is not the second character of a backslash pair. */
  function LiteralLength(t: string, q: char): (n: nat)
    ensures n <= |t|
    ensures n < |t| ==> t[n] == q
    decreases |t|
  {
    if t == "" || t[0] == q then 0
    else if t[0] == '\\' && |t| >= 2 then 2 + LiteralLength(t[2..], q)
    else 1 + LiteralLength(t[1..], q)
  }

  /** An escaped character is read past as a whole. */
  lemma LiteralLengthEscapeChar(c: char, q: char, tail: string)
    requires q == '\'' || q == '"'
    ensures LiteralLength(EscapeChar(c, q) + tail, q) == |EscapeChar(c, q)| + LiteralLength(tail, q)
  {
    var t := EscapeChar(c, q) + tail;
    if c == '\\' || c == q || c == '\t' || c == '\n' || c == '\r' {
      assert t[2..] == tail;
    } else if IsAsciiControl(c) {
      assert t[2..] == [HexDigit(c as int / 16), HexDigit(c as int % 16)] + tail;
      LiteralLengthHex(c as int / 16, c as int % 16, q, tail);
    } else {
      assert t[1..] == tail;
    }
  }

  /** The two hex digits of a `\xhh` escape are neither quotes nor backslashes. */
  lemma LiteralLengthHex(d1: nat, d2: nat, q: char, tail: string)
    requires d1 < 16 && d2 < 16 && (q == '\'' || q == '"')
    ensures LiteralLength([HexDigit(d1), HexDigit(d2)] + tail, q) == 2 + LiteralLength(tail, q)
  {
    var h := [HexDigit(d1), HexDigit(d2)] + tail;
    assert h[1..] == [HexDigit(d2)] + tail;
    assert h[1..][1..] == tail;
  }

  /** Whatever follows, the body of an escaped text ends exactly at the quote after it. */
  lemma {:induction false} EscapedEndsAtQuote(s: string, q: char, rest: string)
    requires q == '\'' || q == '"'
    ensures LiteralLength(EscapeText(s, q) + [q] + rest, q) == |EscapeText(s, q)|
    decreases s
  {
    if s == "" {
      assert EscapeText(s, q) + [q] + rest == [q] + rest;
    } else {
      var tail := EscapeText(s[1..], q) + [q] + rest;
      assert EscapeText(s, q) + [q] + rest == EscapeChar(s[0], q) + tail;
      LiteralLengthEscapeChar(s[0], q, tail);
      EscapedEndsAtQuote(s[1..], q, rest);
    }
  }

  /** A `repr()` is self-delimiting: read after its opening quote, with any text behind it,
      its body ends at its own closing quote and not at a quote inside. */
  lemma ReprEndsAtClosingQuote(s: string, rest: string)
    ensures LiteralLength(Repr(s)[1..] + rest, Repr(s)[0]) == |Repr(s)| - 2
  {
    var q := ReprQuote(s);
    assert Repr(s)[1..] + rest == EscapeText(s, q) + [q] + rest;
    EscapedEndsAtQuote(s, q, rest);
  }
}

=== FILE: context_enhancer.dfy ===
/** The context-enhancement node: one model call that restates the user's requirements
    and decides whether images are needed and how many. The reply is scanned for brace
    objects (one level of nesting), and the first that decodes as JSON supplies the
    fields it has. */
module ContextEnhancer {
  import opened Common
  import SafetyChecker

  type JsonDecoder = SafetyChecker.JsonDecoder

  // ---------------------------------------------------------------------------
  // Candidates: re.finditer(r"\{[^{}]*(?:\{[^{}]*\}[^{}]*)*\}", content)

  /** The end of an object whose opening brace lies just before `p`: a run of plain
      characters, then either the closing brace or one inner `{...}` and more of the same.
      The character classes exclude braces, so the match never backtracks usefully. */
  function CloseFrom(s: string, p: nat): (e: Option<nat>)
    requires p <= |s|
    ensures e.Some? ==> p < e.value <= |s| && s[e.value - 1] == '}'
    decreases |s| - p
  {
    var q := SafetyChecker.NextBrace(s, p);
    if q == |s| then None
    else if s[q] == '}' then Some(q + 1)
    else
      var r := SafetyChecker.NextBrace(s, q + 1);
      if r == |s| || s[r] == '{' then None else CloseFrom(s, r + 1)
  }

  /** The end of a match that starts at `i`, if one does. */
  function MatchAt(s: string, i: nat): (e: Option<nat>)
    requires i <= |s|
    ensures e.Some? ==> i < e.value <= |s| && s[i] == '{' && s[e.value - 1] == '}'
  {
    if i < |s| && s[i] == '{' then CloseFrom(s, i + 1) else None
  }

  /** The matches from position `i` on, left to right and not overlapping. */
  function Objects(s: string, i: nat): (r: seq<string>)
    requires i <= |s|
    ensures forall k :: 0 <= k < |r| ==> |r[k]| >= 2 && r[k][0] == '{' && r[k][|r[k]| - 1] == '}'
    decreases |s| - i
  {
    if i == |s| then []
    else
      match MatchAt(s, i)
      case Some(e) => [s[i..e]] + Objects(s, e)
      case None => Objects(s, i + 1)
  }

  predicate Plain(t: string) {
    SafetyChecker.Plain(t)
  }

  /** Text without braces before position `j` is skipped. */
  lemma {:induction false} SkipPlain(s: string, i: nat, j: nat)
    requires i <= j <= |s| && Plain(s[i..j])
    ensures Objects(s, i) == Objects(s, j)
    decreases j - i
  {
    if i < j {
      assert s[i] == s[i..j][0];
      SkipPlain(s, i + 1, j);
    }
  }

  /** A brace-free object in brace-free prose is the first candidate. */
  lemma FlatObjectFirst(before: string, body: string, after: string)
    requires Plain(before) && Plain(body)
    ensures var s := before + "{" + body + "}" + after;
      |Objects(s, 0)| >= 1 && Objects(s, 0)[0] == "{" + body + "}"
  {
    var s := before + "{" + body + "}" + after;
    var i := |before|;
    assert s[0..i] == before;
    SkipPlain(s, 0, i);
    assert s[i] == '{';
    assert Plain(s[i + 1..i + 1 + |body|]) by {
      assert s[i + 1..i + 1 + |body|] == body;
    }
    SafetyChecker.NextBraceAfterPlain(s, i + 1, i + 1 + |body|);
    assert s[i + 1 + |body|] == '}';
    assert MatchAt(s, i) == Some(i + 2 + |body|);
    assert s[i..i + 2 + |body|] == "{" + body + "}";
  }

  // ---------------------------------------------------------------------------
  // The reply's fields

  /** What `_parse_response` returns: the enhanced text, whether images are needed, and
      how many. */
  datatype Parsed = Parsed(enhanced: string, needImages: bool, imageCount: int)

  /** The index of the first candidate that decodes, or the number of candidates. */
  function FirstDecodable(candidates: seq<string>, json: JsonDecoder): (k: nat)
    ensures k <= |candidates|
    ensures forall j :: 0 <= j < k ==> json(candidates[j]).None?
    ensures k < |candidates| ==> json(candidates[k]).Some?
  {
    if |candidates| == 0 then 0
    else if json(candidates[0]).Some? then 0
    else 1 + FirstDecodable(candidates[1..], json)
  }

  /** `max(1, min(4, int(f)))` for a float printed as `text` by Python: `int` truncates
      toward zero, raises OverflowError on an infinity and ValueError on NaN. A float
      printed with an `e+` exponent is at least 1e16 in magnitude, so it clamps to 4 (or
      to 1 when negative) without its exact value. */
  function ClampedFloat(text: string): (r: Result<int>)
    ensures r.Ok? ==> 1 <= r.value <= 4
    ensures text == "nan" ==> r == Err("ValueError")
    ensures text == "inf" || text == "-inf" ==> r == Err("OverflowError")
    ensures !HasPositiveExponent(text) ==>
      (TruncFloat(text).Err? ==> r == Err(TruncFloat(text).error))
      && (TruncFloat(text).Ok? ==> r == Ok(Clamp(TruncFloat(text).value, 1, 4)))
  {
    if HasPositiveExponent(text) then Ok(if FloatIsNegative(text) then 1 else 4)
    else
      var t := TruncFloat(text);
      if t.Err? then Err(t.error) else Ok(Clamp(t.value, 1, 4))
  }

  /** A float with a fractional part is counted by its whole part, truncated toward
      zero. */
  lemma ClampedFloatOfDecimal(n: nat, fraction: string, neg: bool)
    requires AllDigits(fraction)
    ensures ClampedFloat((if neg then "-" else "") + NatToString(n) + "." + fraction)
      == Ok(Clamp(if neg then -(n as int) else n, 1, 4))
  {
    TruncFloatOfDecimal(n, fraction, neg);
  }

  /** `max(1, min(4, int(n)))` for a numeric `image_count` (`bool` counts as `int`), None
      for a value that is not numeric and is ignored. */
  function NumericCount(n: Value): (r: Option<Result<int>>)
    ensures r.Some? <==> n.VInt? || n.VBool? || n.VFloat?
    ensures r.Some? && r.value.Ok? ==> 1 <= r.value.value <= 4
    ensures n.VInt? ==> r == Some(Ok(Clamp(n.i, 1, 4)))
    ensures n.VBool? ==> r == Some(Ok(1))
  {
    match n
    case VInt(i) => Some(Ok(Clamp(i, 1, 4)))
    case VBool(b) => Some(Ok(1))
    case VFloat(t) => Some(ClampedFloat(t))
    case _ => None
  }

  /** The fields the first decoded object supplies, over the defaults. */
  function FromObject(content: string, data: Doc): (r: Result<Parsed>)
    ensures r.Ok? ==> 1 <= r.value.imageCount <= 4
    ensures r.Ok? ==>
      r.value.enhanced == (if "enhanced" in data then Strip(Str(data["enhanced"])) else Strip(content))
      && r.value.needImages == ("need_images" in data && Truthy(data["need_images"]))
    ensures "image_count" !in data || NumericCount(data["image_count"]).None? ==>
      r.Ok? && r.value.imageCount == 1
    ensures "image_count" in data && data["image_count"].VInt? ==>
      r.Ok? && r.value.imageCount == Clamp(data["image_count"].i, 1, 4)
  {
    var enhanced := if "enhanced" in data then Strip(Str(data["enhanced"])) else Strip(content);
    var need := "need_images" in data && Truthy(data["need_images"]);
    var count := if "image_count" in data then NumericCount(data["image_count"]) else None;
    match count
    case None => Ok(Parsed(enhanced, need, 1))
    case Some(Ok(c)) => Ok(Parsed(enhanced, need, c))
    case Some(Err(e)) => Err(e)
  }

  /** `_parse_response(content)`: the stripped reply, no images and one image unless a
      decoded candidate says otherwise. */
  function ParsedResponse(content: string, json: JsonDecoder): (r: Result<Parsed>)
    ensures r.Ok? ==> 1 <= r.value.imageCount <= 4
  {
    var candidates := Objects(content, 0);
    var k := FirstDecodable(candidates, json);
    if k == |candidates| then Ok(Parsed(Strip(content), false, 1))
    else FromObject(content, json(candidates[k]).value)
  }

  /** Without a decodable candidate the defaults stand. */
  lemma NoObjectDefaults(content: string, json: JsonDecoder)
    requires forall c :: c in Objects(content, 0) ==> json(c).None?
    ensures ParsedResponse(content, json) == Ok(Parsed(Strip(content), false, 1))
  {
  }

  /** The first candidate that decodes decides the result, even when it holds none of
      the three keys: later candidates are never consulted. */
  lemma FirstObjectDecides(content: string, json: JsonDecoder, k: nat)
    requires k < |Objects(content, 0)| && json(Objects(content, 0)[k]).Some?
    requires forall j :: 0 <= j < k ==> json(Objects(content, 0)[j]).None?
    ensures ParsedResponse(content, json) == FromObject(content, json(Objects(content, 0)[k]).value)
    ensures var data := json(Objects(content, 0)[k]).value;
      "enhanced" !in data && "need_images" !in data && "image_count" !in data ==>
        ParsedResponse(content, json) == Ok(Parsed(Strip(content), false, 1))
  {
    var candidates := Objects(content, 0);
    assert FirstDecodable(candidates, json) == k;
  }

  /** `_parse_response(content)`: the candidates are tried in order, undecodable ones
      skipped, and the loop stops at the first object that decodes. */
  method ParseResponse(content: string, json: JsonDecoder) returns (r: Result<Parsed>)
    ensures r == ParsedResponse(content, json)
    ensures r.Ok? ==> 1 <= r.value.imageCount <= 4
  {
    var enhanced := Strip(content);
    var need := false;
    var count := 1;
    var candidates := Objects(content, 0);
    var i := 0;
    while i < |candidates|
      invariant 0 <= i <= FirstDecodable(candidates, json)
      invariant enhanced == Strip(content) && !need && count == 1
    {
      var data := json(candidates[i]);
      if data.None? {
        i := i + 1;
        continue;
      }
      var d := data.value;
      if "enhanced" in d {
        enhanced := Strip(Str(d["enhanced"]));
      }
      if "need_images" in d {
        need := Truthy(d["need_images"]);
      }
      if "image_count" in d {
        var n := NumericCount(d["image_count"]);
        if n.Some? {
          if n.value.Err? {
            return Err(n.value.error);
          }
          count := n.value.value;
        }
      }
      assert i == FirstDecodable(candidates, json);
      return Ok(Parsed(enhanced, need, count));
    }
    r := Ok(Parsed(enhanced, need, count));
  }

  // ---------------------------------------------------------------------------
  // The node

  /** The model request: whether the vision model is used, the input text the prompt
      template receives, and the images attached to the message. */
  datatype Request = Request(vision: bool, input: string, images: Option<Value>)

  const VISION_NOTE: string :=
    "\n\n[The user has uploaded images. Analyze them and incorporate visual context into the enhanced requirements.]"

  /** The reply of the chosen model to the stage's prompt template filled with the input
      text (template loading and formatting are part of this parameter). */
  type Llm = Request -> string

  /** `state.get(key) or ""`. */
  function Field(state: Doc, key: string): Value {
    Or(Get(state, key, VNone), VStr(""))
  }

  /** `has_input_images` set and a non-empty image list. */
  predicate Vision(state: Doc) {
    Truthy(Get(state, "has_input_images", VBool(false)))
    && Truthy(Or(Get(state, "input_images", VNone), VList([])))
  }

  /** The request `context_enhancer` sends. */
  function RequestFor(state: Doc): (q: Request)
    ensures q.vision <==> Vision(state)
    ensures q.images.Some? <==> q.vision
    ensures q.vision ==> EndsWith(q.input, VISION_NOTE)
  {
    var text := Strip("Requirements: " + Str(Field(state, "raw_requirements"))
      + "\n\nDetailed description: " + Str(Field(state, "raw_description")));
    if Vision(state) then
      assert (text + VISION_NOTE)[|text|..] == VISION_NOTE;
      Request(true, text + VISION_NOTE, Some(Get(state, "input_images", VNone)))
    else Request(false, text, None)
  }

  /** `context_enhancer(state)`: the state update, or the exception `_parse_response`
      raised. */
  function ContextEnhance(state: Doc, llm: Llm, json: JsonDecoder): (r: Result<Doc>)
    ensures r.Ok? ==> r.value.Keys == {"enhanced_context", "need_image_generation", "image_count"}
  {
    var parsed := ParsedResponse(llm(RequestFor(state)), json);
    if parsed.Err? then Err(parsed.error)
    else
      var p := parsed.value;
      Ok(map[
        "enhanced_context" := if p.enhanced != "" then VStr(p.enhanced) else Field(state, "raw_requirements"),
        "need_image_generation" := VBool(p.needImages),
        "image_count" := VInt(if p.needImages then p.imageCount else 0)])
  }

  /** The update reports a count of 0 exactly when no images are needed, and otherwise
      the parsed count, between 1 and 4; an empty enhanced text falls back to the raw
      requirements. */
  lemma ContextUpdate(state: Doc, llm: Llm, json: JsonDecoder)
    requires ContextEnhance(state, llm, json).Ok?
    ensures var u := ContextEnhance(state, llm, json).value;
      var p := ParsedResponse(llm(RequestFor(state)), json).value;
      u["need_image_generation"] == VBool(p.needImages)
      && (u["image_count"] == VInt(0) <==> !p.needImages)
      && (p.needImages ==> u["image_count"] == VInt(p.imageCount) && 1 <= p.imageCount <= 4)
      && (p.enhanced == "" ==> u["enhanced_context"] == Field(state, "raw_requirements"))
      && (p.enhanced != "" ==> u["enhanced_context"] == VStr(p.enhanced))
  {
    var p := ParsedResponse(llm(RequestFor(state)), json).value;
    var u := ContextEnhance(state, llm, json).value;
    assert u == map[
      "enhanced_context" := if p.enhanced != "" then VStr(p.enhanced) else Field(state, "raw_requirements"),
      "need_image_generation" := VBool(p.needImages),
      "image_count" := VInt(if p.needImages then p.imageCount else 0)];
  }
}

=== FILE: deploy_config.dfy ===
/** The model-deployment configuration: the per-name cache of YAML documents from the
    `config/model_deployment` directory, the vLLM section and the `vllm serve` argument
    list built from it, and the diffusers server, inference and override settings. */
module DeployConfig {
  import opened Common

  /** The configuration directory as the loader sees it: for each name whose `<name>.yaml`
      exists, what `yaml.safe_load` returned for it (None for an empty document). */
  type Directory = map<string, Option<Doc>>

  /** What `_load_config` obtains from disk: `{}` for a missing file, and
      `yaml.safe_load(text) or {}` otherwise. */
  function FileDoc(dir: Directory, name: string): (cfg: Doc)
    ensures name !in dir ==> cfg == map[]
    ensures name in dir && dir[name].Some? ==> cfg == dir[name].value
  {
    if name !in dir then map[]
    else if dir[name].None? then map[]
    else dir[name].value
  }

  /** The module-level `_config_cache` together with the directory it reads. */
  class ConfigCache {
    const dir: Directory
    var cache: map<string, Doc>
    /** The names whose file has been looked up on disk, in order. */
    ghost var diskReads: seq<string>

    ghost predicate Valid()
      reads this
    {
      (forall n :: n in cache ==> cache[n] == FileDoc(dir, n))
      && (forall n :: n in cache <==> n in diskReads)
      && (forall i, j :: 0 <= i < j < |diskReads| ==> diskReads[i] != diskReads[j])
    }

    /** The effect of loading `name` once more: the cache holds its document, and the disk
        was consulted only if the name was not cached. */
    twostate predicate Loaded(name: string)
      reads this
    {
      cache == old(cache)[name := FileDoc(dir, name)]
      && diskReads == old(diskReads) + (if name in old(cache) then [] else [name])
    }

    constructor (dir: Directory)
      ensures this.dir == dir && cache == map[] && diskReads == []
      ensures Valid()
    {
      this.dir := dir;
      cache := map[];
      diskReads := [];
    }

    /** `_load_config(name)`: the cached document when there is one; otherwise the file is
        read once and its document (or `{}` for a missing file) is cached. */
    method LoadCached(name: string) returns (cfg: Doc)
      requires Valid()
      modifies this
      ensures Valid() && Loaded(name)
      ensures cfg == FileDoc(dir, name)
      ensures old(name in cache) ==> cache == old(cache) && diskReads == old(diskReads) && cfg == old(cache[name])
    {
      if name in cache {
        cfg := cache[name];
        return;
      }
      diskReads := diskReads + [name];
      if name !in dir {
        cache := cache[name := map[]];
        cfg := map[];
        return;
      }
      var loaded := dir[name];
      cfg := if loaded.Some? then loaded.value else map[];
      cache := cache[name := cfg];
    }

    /** `load_config(name)`: a copy of the cached document; being a value, the copy shares
        nothing with the cache. */
    method LoadConfig(name: string) returns (cfg: Doc)
      requires Valid()
      modifies this
      ensures Valid() && Loaded(name)
      ensures cfg == FileDoc(dir, name)
    {
      cfg := LoadCached(name);
    }

    /** `get_vllm_config(name)`. */
    method GetVllmConfig(name: string) returns (r: Result<Doc>)
      requires Valid()
      modifies this
      ensures Valid() && Loaded(name)
      ensures r == VllmConfig(FileDoc(dir, name))
    {
      var cfg := LoadCached(name);
      r := VllmConfig(cfg);
    }

    /** `get_vllm_args(name)`. */
    method GetVllmArgs(name: string) returns (r: Result<seq<string>>)
      requires Valid()
      modifies this
      ensures Valid() && Loaded(name)
      ensures r == VllmArgsOf(FileDoc(dir, name))
    {
      var vllm := GetVllmConfig(name);
      if vllm.Err? {
        return Err(vllm.error);
      }
      r := BuildVllmArgs(vllm.value);
    }

    /** `get_diffusers_server_params(overrides)`. */
    method GetDiffusersServerParams(overrides: Option<Doc>) returns (r: Result<Doc>)
      requires Valid()
      modifies this
      ensures Valid() && Loaded("image_gen")
      ensures r.Err? <==> DiffusersConfig(FileDoc(dir, "image_gen")).Err?
      ensures r.Ok? ==> r.value == ServerParams(DiffusersConfig(FileDoc(dir, "image_gen")).value, overrides)
    {
      var cfg := LoadCached("image_gen");
      var diff := DiffusersConfig(cfg);
      if diff.Err? {
        return Err(diff.error);
      }
      var params := ApplyServerOverrides(diff.value, overrides);
      r := Ok(params);
    }

    /** `get_diffusers_inference_defaults()`. */
    method GetDiffusersInferenceDefaults() returns (r: Result<InferenceDefaults>)
      requires Valid()
      modifies this
      ensures Valid() && Loaded("image_gen")
      ensures r.Err? <==> DiffusersConfig(FileDoc(dir, "image_gen")).Err?
      ensures r.Ok? ==> r.value == InferenceDefaultsOf(DiffusersConfig(FileDoc(dir, "image_gen")).value)
    {
      var cfg := LoadCached("image_gen");
      var diff := DiffusersConfig(cfg);
      if diff.Err? {
        return Err(diff.error);
      }
      r := Ok(InferenceDefaultsOf(diff.value));
    }
  }

  /** The disk is read exactly once per cached name: the reads are as many as the names
      in the cache, whatever the sequence of loads. */
  lemma ReadsAtMostOnce(c: ConfigCache)
    requires c.Valid()
    ensures |c.diskReads| == |c.cache.Keys|
  {
    DistinctCount(c.diskReads);
    assert c.cache.Keys == set n | n in c.diskReads;
  }

  /** A sequence without repeats has as many distinct elements as positions. */
  lemma {:induction false} DistinctCount(s: seq<string>)
    requires forall i, j :: 0 <= i < j < |s| ==> s[i] != s[j]
    ensures |set n | n in s| == |s|
  {
    if |s| > 0 {
      var init := s[..|s| - 1];
      DistinctCount(init);
      assert (set n | n in s) == (set n | n in init) + {s[|s| - 1]} by {
        assert s == init + [s[|s| - 1]];
      }
      assert s[|s| - 1] !in init;
    }
  }

  // ---------------------------------------------------------------------------
  // vLLM

  /** One element of the iterable given to `dict()`: it must itself be a key and a value.
      A two-item list gives them in order and a two-character string its two characters;
      any other length raises ValueError, and a scalar TypeError. */
  function PairOf(x: Value): (r: Result<(string, Value)>)
    ensures x.VList? && |x.items| == 2 && x.items[0].VStr? ==> r == Ok((x.items[0].s, x.items[1]))
    ensures x.VStr? && |x.s| == 2 ==> r == Ok(([x.s[0]], VStr([x.s[1]])))
    ensures (x.VList? && |x.items| != 2) || (x.VStr? && |x.s| != 2) || (x.VDict? && |x.entries| != 2) ==> r == Err("ValueError")
    ensures x.VNone? || x.VBool? || x.VInt? || x.VFloat? ==> r == Err("TypeError")
  {
    match x
    case VList(xs) =>
      if |xs| != 2 then Err("ValueError")
      else if xs[0].VStr? then Ok((xs[0].s, xs[1]))
      else if xs[0].VList? || xs[0].VDict? then Err("TypeError")
      else Err("non-string key not modelled")
    case VStr(s) => if |s| != 2 then Err("ValueError") else Ok(([s[0]], VStr([s[1]])))
    case VDict(m) => if |m| != 2 then Err("ValueError") else Err("key order of a two-key mapping not modelled")
    case _ => Err("TypeError")
  }

  /** `dict(items)` for a list: the elements are read left to right, a later key replaces
      an earlier one, and the first element that is not a pair raises. */
  function PairsToDict(items: seq<Value>): (r: Result<Doc>)
    ensures r.Ok? <==> AllPairs(items)
    ensures r.Ok? ==> forall k :: k in r.value <==> HasPairKey(items, k)
    ensures r.Ok? && |items| > 0 ==>
      var last := PairOf(items[|items| - 1]).value;
      last.0 in r.value && r.value[last.0] == last.1
  {
    if |items| == 0 then Ok(map[])
    else
      var init := PairsToDict(items[..|items| - 1]);
      var last := PairOf(items[|items| - 1]);
      AllPairsOfSnoc(items);
      if init.Err? then init
      else if last.Err? then Err(last.error)
      else
        PairKeysOfSnoc(items);
        Ok(init.value[last.value.0 := last.value.1])
  }

  /** Every element of `items` is a pair. */
  ghost predicate AllPairs(items: seq<Value>) {
    forall j :: 0 <= j < |items| ==> PairOf(items[j]).Ok?
  }

  /** Every element of `items` is a pair exactly when every element before the last one
      is and the last one is too. */
  lemma AllPairsOfSnoc(items: seq<Value>)
    requires |items| > 0
    ensures AllPairs(items) <==> AllPairs(items[..|items| - 1]) && PairOf(items[|items| - 1]).Ok?
  {
    assert forall j :: 0 <= j < |items| - 1 ==> items[..|items| - 1][j] == items[j];
  }

  /** Some element of `items` is a pair with key `k`. */
  ghost predicate HasPairKey(items: seq<Value>, k: string) {
    exists j :: 0 <= j < |items| && PairOf(items[j]).Ok? && PairOf(items[j]).value.0 == k
  }

  /** The keys of `items` are those of all but its last element, plus the last element's key. */
  lemma PairKeysOfSnoc(items: seq<Value>)
    requires |items| > 0 && PairOf(items[|items| - 1]).Ok?
    ensures forall k :: HasPairKey(items, k) <==>
      HasPairKey(items[..|items| - 1], k) || k == PairOf(items[|items| - 1]).value.0
  {
    var n := |items|;
    forall k
      ensures HasPairKey(items, k) <==> HasPairKey(items[..n - 1], k) || k == PairOf(items[n - 1]).value.0
    {
      if HasPairKey(items, k) {
        var j :| 0 <= j < n && PairOf(items[j]).Ok? && PairOf(items[j]).value.0 == k;
        if j < n - 1 {
          assert items[..n - 1][j] == items[j];
        }
      }
      if HasPairKey(items[..n - 1], k) {
        var j :| 0 <= j < n - 1 && PairOf(items[..n - 1][j]).Ok? && PairOf(items[..n - 1][j]).value.0 == k;
        assert items[..n - 1][j] == items[j];
      }
      if k == PairOf(items[n - 1]).value.0 {
        assert PairOf(items[n - 1]).Ok?;
      }
    }
  }

  /** Python's `dict(v)` on a parsed value: a mapping is copied, an empty string gives `{}`,
      a list is read as pairs, and anything else raises. */
  function DictOf(v: Value): (r: Result<Doc>)
    ensures v.VDict? ==> r == Ok(v.entries)
    ensures v == VStr("") ==> r == Ok(map[])
    ensures v.VStr? && v.s != "" ==> r == Err("ValueError")
    ensures v.VList? ==> r == PairsToDict(v.items)
    ensures v.VNone? || v.VBool? || v.VInt? || v.VFloat? ==> r == Err("TypeError")
  {
    match v
    case VDict(m) => Ok(m)
    case VStr(s) =>
      // Every character is a one-character string, which is not a pair.
      if s == "" then Ok(map[]) else Err("ValueError")
    case VList(items) => PairsToDict(items)
    case _ => Err("TypeError")
  }

  /** A later pair for the same key wins: the value of a key is the one in its last pair. */
  lemma {:induction false} LastPairWins(items: seq<Value>, j: nat)
    requires PairsToDict(items).Ok? && j < |items|
    requires forall i :: j < i < |items| ==> PairOf(items[i]).value.0 != PairOf(items[j]).value.0
    ensures PairsToDict(items).value[PairOf(items[j]).value.0] == PairOf(items[j]).value.1
    decreases |items|
  {
    if j < |items| - 1 {
      NoLaterPairKeyInInit(items, items[..|items| - 1], j);
      LastPairWins(items[..|items| - 1], j);
      InitEntryKept(items, PairOf(items[j]).value.0);
    }
  }

  /** The hypothesis of LastPairWins carries over to all but the last element. */
  lemma NoLaterPairKeyInInit(items: seq<Value>, init: seq<Value>, j: nat)
    requires PairsToDict(items).Ok? && j < |items| - 1 && init == items[..|items| - 1]
    requires forall i :: j < i < |items| ==> PairOf(items[i]).value.0 != PairOf(items[j]).value.0
    ensures PairsToDict(init).Ok? && init[j] == items[j]
    ensures forall i :: j < i < |init| ==> PairOf(init[i]).value.0 != PairOf(init[j]).value.0
  {
    AllPairsOfSnoc(items);
    assert forall i :: 0 <= i < |init| ==> init[i] == items[i];
  }

  /** A key that the last pair does not assign keeps its value from the earlier pairs. */
  lemma InitEntryKept(items: seq<Value>, k: string)
    requires |items| > 0 && PairsToDict(items).Ok?
    requires PairsToDict(items[..|items| - 1]).Ok? && k in PairsToDict(items[..|items| - 1]).value
    requires k != PairOf(items[|items| - 1]).value.0
    ensures k in PairsToDict(items).value && PairsToDict(items).value[k] == PairsToDict(items[..|items| - 1]).value[k]
  {
  }

  /** `dict(cfg.get(key, {}))`. */
  function Section(cfg: Doc, key: string): (r: Result<Doc>)
    ensures key !in cfg ==> r == Ok(map[])
    ensures key in cfg ==> r == DictOf(cfg[key])
  {
    DictOf(Get(cfg, key, VDict(map[])))
  }

  /** `get_vllm_config` on a loaded document: `{}` unless the backend is `vllm`; otherwise
      the `vllm` section, with the top-level `model_id` (or `""`) filled in only when the
      section has none. */
  function VllmConfig(cfg: Doc): (r: Result<Doc>)
    ensures Get(cfg, "backend", VNone) != VStr("vllm") ==> r == Ok(map[])
    ensures r.Err? <==> Get(cfg, "backend", VNone) == VStr("vllm") && Section(cfg, "vllm").Err?
    ensures r.Ok? && Get(cfg, "backend", VNone) == VStr("vllm") ==> "model_id" in r.value
  {
    if Get(cfg, "backend", VNone) != VStr("vllm") then Ok(map[])
    else
      var section := Section(cfg, "vllm");
      if section.Err? then section
      else if "model_id" in section.value then section
      else Ok(section.value["model_id" := Get(cfg, "model_id", VStr(""))])
  }

  /** What `get_vllm_config` keeps from the section and what it adds. */
  lemma VllmConfigContents(cfg: Doc)
    requires Get(cfg, "backend", VNone) == VStr("vllm")
    requires Section(cfg, "vllm").Ok?
    ensures VllmConfig(cfg).Ok?
    ensures var section := Section(cfg, "vllm").value; var vllm := VllmConfig(cfg).value;
      vllm.Keys == section.Keys + {"model_id"}
      && (forall k :: k in section ==> vllm[k] == section[k])
      && ("model_id" !in section ==> vllm["model_id"] == Get(cfg, "model_id", VStr("")))
  {
  }

  /** The section keys that become `vllm serve` options, in the order they are emitted. */
  datatype VllmKey = Host | Port | TensorParallelSize | GpuMemoryUtilization | MaxModelLen

  const VLLM_KEYS: seq<VllmKey> := [Host, Port, TensorParallelSize, GpuMemoryUtilization, MaxModelLen]

  function Rank(k: VllmKey): nat {
    match k
    case Host => 0
    case Port => 1
    case TensorParallelSize => 2
    case GpuMemoryUtilization => 3
    case MaxModelLen => 4
  }

  /** The key in the YAML section. */
  function KeyName(k: VllmKey): string {
    match k
    case Host => "host"
    case Port => "port"
    case TensorParallelSize => "tensor_parallel_size"
    case GpuMemoryUtilization => "gpu_memory_utilization"
    case MaxModelLen => "max_model_len"
  }

  /** The command-line flag. */
  function Flag(k: VllmKey): string {
    match k
    case Host => "--host"
    case Port => "--port"
    case TensorParallelSize => "--tensor-parallel-size"
    case GpuMemoryUtilization => "--gpu-memory-utilization"
    case MaxModelLen => "--max-model-len"
  }

  /** One `--option value` pair of the `vllm serve` command line. */
  datatype CliOption = CliOption(key: VllmKey, value: string)

  /** `if v := vllm.get(key): args.extend([flag, str(v)])`. */
  function TruthyOption(vllm: Doc, k: VllmKey): seq<CliOption> {
    var v := Get(vllm, KeyName(k), VNone);
    if Truthy(v) then [CliOption(k, Str(v))] else []
  }

  /** `tp > 1` with `tp = vllm.get("tensor_parallel_size", 1)`: integers compare, booleans
      are at most 1, and other types raise TypeError. */
  function TensorParallelOption(vllm: Doc): Result<seq<CliOption>> {
    match Get(vllm, "tensor_parallel_size", VInt(1))
    case VInt(i) => Ok(if i > 1 then [CliOption(TensorParallelSize, IntToString(i))] else [])
    case VBool(_) => Ok([])
    case VFloat(_) => Err("float comparison is not modelled")
    case _ => Err("TypeError")
  }

  /** The options after the model id, in emission order. */
  function VllmOptions(vllm: Doc): Result<seq<CliOption>> {
    var tp := TensorParallelOption(vllm);
    if tp.Err? then Err(tp.error)
    else
      Ok(TruthyOption(vllm, Host) + TruthyOption(vllm, Port) + tp.value
         + TruthyOption(vllm, GpuMemoryUtilization) + TruthyOption(vllm, MaxModelLen))
  }

  /** Each option as its flag followed by its value. */
  function OptionArgs(opts: seq<CliOption>): (args: seq<string>)
    ensures |args| == 2 * |opts|
  {
    if |opts| == 0 then []
    else [Flag(opts[0].key), opts[0].value] + OptionArgs(opts[1..])
  }

  /** The `i`-th option sits at positions `2i` (flag) and `2i + 1` (value). */
  lemma {:induction false} OptionArgsAt(opts: seq<CliOption>, i: nat)
    requires i < |opts|
    ensures OptionArgs(opts)[2 * i] == Flag(opts[i].key)
    ensures OptionArgs(opts)[2 * i + 1] == opts[i].value
  {
    if i > 0 {
      OptionArgsAt(opts[1..], i - 1);
    }
  }

  /** Whether the option for `k` is emitted: its value is truthy, and for the tensor
      parallel size an integer above 1. */
  predicate Wanted(vllm: Doc, k: VllmKey) {
    if k == TensorParallelSize then
      var tp := Get(vllm, KeyName(k), VInt(1));
      tp.VInt? && tp.i > 1
    else Truthy(Get(vllm, KeyName(k), VNone))
  }

  /** The argument list `get_vllm_args` returns for a vLLM section. */
  function VllmArgs(vllm: Doc): Result<seq<string>> {
    var modelId := Get(vllm, "model_id", VStr(""));
    if vllm == map[] || !Truthy(modelId) then Ok([])
    else
      var opts := VllmOptions(vllm);
      if opts.Err? then Err(opts.error) else Ok([Str(modelId)] + OptionArgs(opts.value))
  }

  /** `get_vllm_args` on a loaded document. */
  function VllmArgsOf(cfg: Doc): Result<seq<string>> {
    var vllm := VllmConfig(cfg);
    if vllm.Err? then Err(vllm.error) else VllmArgs(vllm.value)
  }

  /** `get_vllm_args` after the section lookup: `args` starts as `[model_id]` and grows by
      one `extend` per wanted option. */
  method BuildVllmArgs(vllm: Doc) returns (r: Result<seq<string>>)
    ensures r == VllmArgs(vllm)
  {
    if vllm == map[] {
      return Ok([]);
    }
    var modelId := Get(vllm, "model_id", VStr(""));
    if !Truthy(modelId) {
      return Ok([]);
    }
    var args := [Str(modelId)];
    ghost var opts: seq<CliOption> := [];
    ghost var before := args;
    var host := Get(vllm, KeyName(Host), VNone);
    if Truthy(host) {
      args := args + [Flag(Host), Str(host)];
    }
    opts := ExtendOptions(before, args, Str(modelId), opts, TruthyOption(vllm, Host));
    before := args;
    var port := Get(vllm, KeyName(Port), VNone);
    if Truthy(port) {
      args := args + [Flag(Port), Str(port)];
    }
    opts := ExtendOptions(before, args, Str(modelId), opts, TruthyOption(vllm, Port));
    before := args;
    var tp := TensorParallelOption(vllm);
    if tp.Err? {
      return Err(tp.error);
    }
    if tp.value != [] {
      args := args + [Flag(TensorParallelSize), tp.value[0].value];
    }
    opts := ExtendOptions(before, args, Str(modelId), opts, tp.value);
    before := args;
    var gpu := Get(vllm, KeyName(GpuMemoryUtilization), VNone);
    if Truthy(gpu) {
      args := args + [Flag(GpuMemoryUtilization), Str(gpu)];
    }
    opts := ExtendOptions(before, args, Str(modelId), opts, TruthyOption(vllm, GpuMemoryUtilization));
    before := args;
    var maxLen := Get(vllm, KeyName(MaxModelLen), VNone);
    if Truthy(maxLen) {
      args := args + [Flag(MaxModelLen), Str(maxLen)];
    }
    opts := ExtendOptions(before, args, Str(modelId), opts, TruthyOption(vllm, MaxModelLen));
    assert opts == [] + TruthyOption(vllm, Host) + TruthyOption(vllm, Port) + tp.value
      + TruthyOption(vllm, GpuMemoryUtilization) + TruthyOption(vllm, MaxModelLen);
    VllmOptionsOk(vllm, tp.value);
    r := Ok(args);
  }

  lemma VllmOptionsOk(vllm: Doc, tp: seq<CliOption>)
    requires TensorParallelOption(vllm) == Ok(tp)
    ensures VllmOptions(vllm) == Ok([] + TruthyOption(vllm, Host) + TruthyOption(vllm, Port) + tp
      + TruthyOption(vllm, GpuMemoryUtilization) + TruthyOption(vllm, MaxModelLen))
  {
    assert [] + TruthyOption(vllm, Host) == TruthyOption(vllm, Host);
  }

  /** One `extend` of `BuildVllmArgs`: the options emitted so far, followed by `more`. */
  ghost function ExtendOptions(before: seq<string>, after: seq<string>, modelId: string,
                               opts: seq<CliOption>, more: seq<CliOption>): (r: seq<CliOption>)
    requires before == [modelId] + OptionArgs(opts)
    requires |more| <= 1 && after == before + (if more == [] then [] else [Flag(more[0].key), more[0].value])
    ensures r == opts + more && after == [modelId] + OptionArgs(r)
  {
    OptionArgsAppend(opts, more);
    opts + more
  }

  lemma {:induction false} OptionArgsAppend(a: seq<CliOption>, b: seq<CliOption>)
    ensures OptionArgs(a + b) == OptionArgs(a) + OptionArgs(b)
  {
    if |a| > 0 {
      assert (a + b)[1..] == a[1..] + b;
      OptionArgsAppend(a[1..], b);
    } else {
      assert a + b == b;
    }
  }

  /** `[]` without a section or without a model id; otherwise the model id comes first
      and every option is followed by its value. */
  lemma VllmArgsShape(vllm: Doc)
    ensures vllm == map[] || !Truthy(Get(vllm, "model_id", VStr(""))) ==> VllmArgs(vllm) == Ok([])
    ensures VllmArgs(vllm).Ok? && VllmArgs(vllm).value != [] ==>
      VllmArgs(vllm).value[0] == Str(vllm["model_id"]) && |VllmArgs(vllm).value| % 2 == 1
  {
  }

  /** The option emitted for one key, if any. */
  function OptionFor(vllm: Doc, k: VllmKey): seq<CliOption> {
    if k == TensorParallelSize then
      var tp := TensorParallelOption(vllm);
      if tp.Ok? then tp.value else []
    else TruthyOption(vllm, k)
  }

  /** The options emitted for `keys`, in the order of `keys`. */
  function Gather(vllm: Doc, keys: seq<VllmKey>): seq<CliOption> {
    if |keys| == 0 then [] else OptionFor(vllm, keys[0]) + Gather(vllm, keys[1..])
  }

  /** At most one option per key, present exactly when wanted, with `str()` of the value. */
  lemma OptionForMeaning(vllm: Doc, k: VllmKey)
    ensures |OptionFor(vllm, k)| <= 1
    ensures OptionFor(vllm, k) != [] <==> Wanted(vllm, k)
    ensures forall i :: 0 <= i < |OptionFor(vllm, k)| ==>
      OptionFor(vllm, k)[i].key == k && OptionFor(vllm, k)[i].value == Str(Get(vllm, KeyName(k), VNone))
  {
  }

  lemma {:induction false} GatherMeaning(vllm: Doc, keys: seq<VllmKey>)
    ensures forall i :: 0 <= i < |Gather(vllm, keys)| ==>
      Gather(vllm, keys)[i].key in keys
      && Gather(vllm, keys)[i].value == Str(Get(vllm, KeyName(Gather(vllm, keys)[i].key), VNone))
  {
    if |keys| > 0 {
      GatherMeaning(vllm, keys[1..]);
      OptionForMeaning(vllm, keys[0]);
      var g := Gather(vllm, keys);
      var f := OptionFor(vllm, keys[0]);
      var rest := Gather(vllm, keys[1..]);
      assert g == f + rest;
      MeaningAppend(vllm, keys, f, rest);
    }
  }

  /** The options of the first key followed by those of the others keep the meaning of both. */
  lemma MeaningAppend(vllm: Doc, keys: seq<VllmKey>, f: seq<CliOption>, rest: seq<CliOption>)
    requires |keys| > 0
    requires forall i :: 0 <= i < |f| ==> f[i].key == keys[0] && f[i].value == Str(Get(vllm, KeyName(f[i].key), VNone))
    requires forall i :: 0 <= i < |rest| ==>
      rest[i].key in keys[1..] && rest[i].value == Str(Get(vllm, KeyName(rest[i].key), VNone))
    ensures forall i :: 0 <= i < |f + rest| ==>
      (f + rest)[i].key in keys && (f + rest)[i].value == Str(Get(vllm, KeyName((f + rest)[i].key), VNone))
  {
    forall i | 0 <= i < |f + rest|
      ensures (f + rest)[i].key in keys && (f + rest)[i].value == Str(Get(vllm, KeyName((f + rest)[i].key), VNone))
    {
      if i >= |f| {
        assert (f + rest)[i] == rest[i - |f|];
        assert rest[i - |f|].key in keys[1..];
      }
    }
  }

  lemma {:induction false} GatherHasWanted(vllm: Doc, keys: seq<VllmKey>, k: VllmKey)
    requires k in keys && Wanted(vllm, k)
    ensures exists i :: 0 <= i < |Gather(vllm, keys)| && Gather(vllm, keys)[i].key == k
  {
    OptionForMeaning(vllm, keys[0]);
    var f := OptionFor(vllm, keys[0]);
    if k == keys[0] {
      assert Gather(vllm, keys)[0].key == k;
    } else {
      assert keys == [keys[0]] + keys[1..];
      GatherHasWanted(vllm, keys[1..], k);
      var rest := Gather(vllm, keys[1..]);
      var j :| 0 <= j < |rest| && rest[j].key == k;
      assert Gather(vllm, keys)[|f| + j] == rest[j];
    }
  }

  lemma GatherOnlyWanted(vllm: Doc, keys: seq<VllmKey>, i: int)
    requires 0 <= i < |Gather(vllm, keys)|
    ensures Wanted(vllm, Gather(vllm, keys)[i].key)
  {
    if |keys| > 0 {
      OptionForMeaning(vllm, keys[0]);
      var f := OptionFor(vllm, keys[0]);
      if i >= |f| {
        GatherOnlyWanted(vllm, keys[1..], i - |f|);
      }
    }
  }

  lemma GatherHas(vllm: Doc, keys: seq<VllmKey>, k: VllmKey)
    ensures (exists i :: 0 <= i < |Gather(vllm, keys)| && Gather(vllm, keys)[i].key == k)
      <==> k in keys && Wanted(vllm, k)
  {
    if k in keys && Wanted(vllm, k) {
      GatherHasWanted(vllm, keys, k);
    }
    if exists i :: 0 <= i < |Gather(vllm, keys)| && Gather(vllm, keys)[i].key == k {
      var i :| 0 <= i < |Gather(vllm, keys)| && Gather(vllm, keys)[i].key == k;
      GatherOnlyWanted(vllm, keys, i);
      GatherMeaning(vllm, keys);
    }
  }

  lemma GatherRanksAbove(vllm: Doc, keys: seq<VllmKey>, r: int)
    requires forall m :: 0 <= m < |keys| ==> Rank(keys[m]) > r
    ensures forall i :: 0 <= i < |Gather(vllm, keys)| ==> Rank(Gather(vllm, keys)[i].key) > r
  {
    GatherMeaning(vllm, keys);
  }

  lemma {:induction false} GatherRanked(vllm: Doc, keys: seq<VllmKey>)
    requires forall i, j :: 0 <= i < j < |keys| ==> Rank(keys[i]) < Rank(keys[j])
    ensures forall i, j :: 0 <= i < j < |Gather(vllm, keys)| ==>
      Rank(Gather(vllm, keys)[i].key) < Rank(Gather(vllm, keys)[j].key)
  {
    if |keys| > 0 {
      var f, rest := OptionFor(vllm, keys[0]), Gather(vllm, keys[1..]);
      GatherRanked(vllm, keys[1..]);
      GatherRanksAbove(vllm, keys[1..], Rank(keys[0]));
      OptionForMeaning(vllm, keys[0]);
      var g := Gather(vllm, keys);
      assert g == f + rest;
      forall i, j | 0 <= i < j < |g| ensures Rank(g[i].key) < Rank(g[j].key) {
        assert j >= |f|;
        assert g[j] == rest[j - |f|];
        assert Rank(rest[j - |f|].key) > Rank(keys[0]);
        if i < |f| {
          assert g[i] == f[i] && f[i].key == keys[0];
        } else {
          assert g[i] == rest[i - |f|];
        }
      }
    }
  }

  lemma VllmOptionsGather(vllm: Doc)
    requires VllmOptions(vllm).Ok?
    ensures VllmOptions(vllm).value == Gather(vllm, VLLM_KEYS)
  {
    var k4 := [MaxModelLen];
    var k3 := [GpuMemoryUtilization] + k4;
    var k2 := [TensorParallelSize] + k3;
    var k1 := [Port] + k2;
    var k0 := [Host] + k1;
    assert k4[1..] == [] && k3[1..] == k4 && k2[1..] == k3 && k1[1..] == k2 && k0[1..] == k1;
    assert k0 == VLLM_KEYS;
    assert Gather(vllm, k4) == OptionFor(vllm, MaxModelLen) + [];
    assert Gather(vllm, k3) == OptionFor(vllm, GpuMemoryUtilization) + Gather(vllm, k4);
    assert Gather(vllm, k2) == OptionFor(vllm, TensorParallelSize) + Gather(vllm, k3);
    assert Gather(vllm, k1) == OptionFor(vllm, Port) + Gather(vllm, k2);
    assert Gather(vllm, k0) == OptionFor(vllm, Host) + Gather(vllm, k1);
    assert OptionFor(vllm, TensorParallelSize) == TensorParallelOption(vllm).value;
    Concat5(OptionFor(vllm, Host), OptionFor(vllm, Port), OptionFor(vllm, TensorParallelSize),
      OptionFor(vllm, GpuMemoryUtilization), OptionFor(vllm, MaxModelLen));
  }

  lemma Concat5<T>(a: seq<T>, b: seq<T>, c: seq<T>, d: seq<T>, e: seq<T>)
    ensures a + b + c + d + e == a + (b + (c + (d + (e + []))))
  {
    assert e + [] == e;
  }

  /** Options appear in the fixed order host, port, tensor-parallel-size,
      gpu-memory-utilization, max-model-len; each one exactly when it is wanted, carrying
      `str()` of the section's value. */
  lemma VllmOptionsOrder(vllm: Doc)
    requires VllmOptions(vllm).Ok?
    ensures var opts := VllmOptions(vllm).value;
      (forall i, j :: 0 <= i < j < |opts| ==> Rank(opts[i].key) < Rank(opts[j].key))
      && (forall k :: Wanted(vllm, k) <==> exists i :: 0 <= i < |opts| && opts[i].key == k)
      && (forall i :: 0 <= i < |opts| ==> opts[i].value == Str(Get(vllm, KeyName(opts[i].key), VNone)))
  {
    VllmOptionsGather(vllm);
    GatherRanked(vllm, VLLM_KEYS);
    GatherMeaning(vllm, VLLM_KEYS);
    forall k ensures Wanted(vllm, k) <==> exists i :: 0 <= i < |VllmOptions(vllm).value| && VllmOptions(vllm).value[i].key == k {
      GatherHas(vllm, VLLM_KEYS, k);
      assert VLLM_KEYS[Rank(k)] == k;
    }
  }

  // ---------------------------------------------------------------------------
  // diffusers

  /** `get_diffusers_config()` on the loaded `image_gen` document. */
  function DiffusersConfig(cfg: Doc): Result<Doc> {
    Section(cfg, "diffusers")
  }

  /** The host and port the server listens on. */
  function ServerParams(diff: Doc, overrides: Option<Doc>): (params: Doc)
    ensures params.Keys == {"host", "port"}
  {
    map["host" := Chosen(diff, overrides, "host", VStr("0.0.0.0")),
        "port" := Chosen(diff, overrides, "port", VInt(8002))]
  }

  /** An override that is present and not None wins over the configured value, which wins
      over the built-in default. */
  function Chosen(diff: Doc, overrides: Option<Doc>, key: string, default: Value): (v: Value)
    ensures overrides.Some? && key in overrides.value && overrides.value[key] != VNone ==> v == overrides.value[key]
    ensures (overrides.None? || key !in overrides.value || overrides.value[key] == VNone) ==> v == Get(diff, key, default)
  {
    if overrides.Some? && key in overrides.value && overrides.value[key] != VNone then overrides.value[key]
    else Get(diff, key, default)
  }

  /** The body of `get_diffusers_server_params`: defaults from the section, then the loop
      over `("host", "port")` that copies each present, non-None override. */
  method ApplyServerOverrides(diff: Doc, overrides: Option<Doc>) returns (params: Doc)
    ensures params == ServerParams(diff, overrides)
  {
    params := map["host" := Get(diff, "host", VStr("0.0.0.0")), "port" := Get(diff, "port", VInt(8002))];
    if overrides.Some? && overrides.value != map[] {
      var keys := ["host", "port"];
      var i := 0;
      while i < |keys|
        invariant 0 <= i <= |keys|
        invariant params.Keys == {"host", "port"}
        invariant params["host"] == if i > 0 then Chosen(diff, overrides, "host", VStr("0.0.0.0")) else Get(diff, "host", VStr("0.0.0.0"))
        invariant params["port"] == if i > 1 then Chosen(diff, overrides, "port", VInt(8002)) else Get(diff, "port", VInt(8002))
      {
        var k := keys[i];
        if k in overrides.value && overrides.value[k] != VNone {
          params := params[k := overrides.value[k]];
        }
        i := i + 1;
      }
    }
    assert params == ServerParams(diff, overrides) by {
      assert params.Keys == ServerParams(diff, overrides).Keys;
    }
  }

  /** Keys other than `host` and `port` in the overrides change nothing. */
  lemma OtherOverridesIgnored(diff: Doc, overrides: Doc, key: string, v: Value)
    requires key != "host" && key != "port"
    ensures ServerParams(diff, Some(overrides[key := v])) == ServerParams(diff, Some(overrides))
  {
  }

  /** Inference defaults for the image endpoint. */
  datatype InferenceDefaults = InferenceDefaults(
    width: Value, height: Value, steps: Value, cfgScale: Value, negativePrompt: Value)

  const DEFAULT_NEGATIVE_PROMPT: string := "低分辨率，低画质，肢体畸形，手指畸形，画面过饱和，蜡像感。"

  /** `get_diffusers_inference_defaults()` on the diffusers section: each setting from
      the section, or 1024, 1024, 50 steps, 4.0 and the built-in negative prompt. */
  function InferenceDefaultsOf(diff: Doc): (d: InferenceDefaults)
    ensures "default_width" !in diff ==> d.width == VInt(1024)
    ensures "default_height" !in diff ==> d.height == VInt(1024)
    ensures "num_inference_steps" !in diff ==> d.steps == VInt(50)
    ensures "true_cfg_scale" !in diff ==> d.cfgScale == VFloat("4.0")
    ensures "default_negative_prompt" !in diff ==> d.negativePrompt == VStr(DEFAULT_NEGATIVE_PROMPT)
  {
    InferenceDefaults(
      Get(diff, "default_width", VInt(1024)),
      Get(diff, "default_height", VInt(1024)),
      Get(diff, "num_inference_steps", VInt(50)),
      Get(diff, "true_cfg_scale", VFloat("4.0")),
      Get(diff, "default_negative_prompt", VStr(DEFAULT_NEGATIVE_PROMPT)))
  }
}

=== FILE: diffusers_serve.dfy ===
/** The diffusers image server: how `POST /v1/images/generations` turns a request body and
    the configured inference defaults into one pipeline call and a list of base64 PNGs,
    and how `main` turns its command-line options into host/port overrides. The pipeline
    itself is a parameter: a function from the call to the PNG bytes it produced, or to
    the message of the exception it raised. */
module DiffusersServe {
  import opened Common
  import Base64
  import DeployConfig

  /** What the endpoint answers: a value, or an HTTP error status with its detail. */
  datatype Response<T> = Success(value: T) | Failure(status: int, detail: string)

  /** What FastAPI answers for an exception that is not an `HTTPException`. */
  const INTERNAL_ERROR: Response<seq<string>> := Failure(500, "Internal Server Error")

  /** The keyword arguments of the pipeline call. `cfgScale` is the value `float()`
      accepted; the pipeline receives that value as a float. */
  datatype GenerationCall = GenerationCall(
    prompt: Value, negativePrompt: Value, width: Value, height: Value,
    steps: int, cfgScale: Value, n: int)

  /** One PNG image as produced by `img.save(buf, format="PNG")`. */
  type Png = seq<Base64.byte>

  /** The pipeline: the images of one call, or the message of the exception it raised. */
  type Pipeline = GenerationCall -> Result<seq<Png>>

  datatype Dimensions = Dimensions(width: Value, height: Value)

  /** `req.get("size") or f"{default_width}x{default_height}"`. */
  function ResolvedSize(req: Doc, d: DeployConfig.InferenceDefaults): (size: Value)
    ensures Truthy(Get(req, "size", VNone)) ==> size == req["size"]
    ensures !Truthy(Get(req, "size", VNone)) ==> size == VStr(Str(d.width) + "x" + Str(d.height))
  {
    Or(Get(req, "size", VNone), VStr(Str(d.width) + "x" + Str(d.height)))
  }

  /** The message of the ValueError `int()` raises for a string that is not a decimal integer. */
  function IntErrorDetail(s: string): string {
    "invalid literal for int() with base 10: " + Repr(s)
  }

  /** The width and height the pipeline is called with: the defaults unless the size
      text contains `x` and splits on it into exactly two pieces, in which case both
      pieces must be integers (the first failing piece is reported). */
  function SizeOf(size: Value, w: Value, h: Value): (r: Result<Dimensions>)
    ensures !Truthy(size) || 'x' !in Str(size) ==> r == Ok(Dimensions(w, h))
    ensures Truthy(size) && |Split(Str(size), 'x')| != 2 ==> r == Ok(Dimensions(w, h))
    ensures Truthy(size) && 'x' in Str(size) && |Split(Str(size), 'x')| == 2 ==>
      var parts := Split(Str(size), 'x');
      (r.Ok? <==> ParseInt(parts[0]).Ok? && ParseInt(parts[1]).Ok?)
      && (r.Ok? ==> r.value == Dimensions(VInt(ParseInt(parts[0]).value), VInt(ParseInt(parts[1]).value)))
  {
    if Truthy(size) && 'x' in Str(size) then
      var parts := Split(Str(size), 'x');
      if |parts| == 2 then
        var pw := ParseInt(parts[0]);
        if pw.Err? then Err(IntErrorDetail(parts[0])) else
        var ph := ParseInt(parts[1]);
        if ph.Err? then Err(IntErrorDetail(parts[1])) else
        Ok(Dimensions(VInt(pw.value), VInt(ph.value)))
      else Ok(Dimensions(w, h))
    else Ok(Dimensions(w, h))
  }

  /** The text `"{a}x{b}"` of two integers splits back into the two integers. */
  lemma SizeOfIntegers(a: int, b: int, w: Value, h: Value)
    ensures SizeOf(VStr(IntToString(a) + "x" + IntToString(b)), w, h) == Ok(Dimensions(VInt(a), VInt(b)))
  {
    var sa, sb := IntToString(a), IntToString(b);
    NoXInIntToString(a);
    NoXInIntToString(b);
    var text := sa + "x" + sb;
    assert Join([sa, sb], "x") == text;
    SplitJoin([sa, sb], 'x');
    var parts := Split(text, 'x');
    assert parts == [sa, sb];
    assert text[|sa|] == 'x';
    assert Truthy(VStr(text)) && 'x' in Str(VStr(text));
    ParseIntOfIntToString(a);
    ParseIntOfIntToString(b);
    assert ParseInt(parts[0]) == Ok(a) && ParseInt(parts[1]) == Ok(b);
  }

  lemma NoXInIntToString(i: int)
    ensures 'x' !in IntToString(i)
  {
  }

  /** Without a size in the request, integer default dimensions survive the detour
      through the `"{width}x{height}"` text unchanged. */
  lemma DefaultSizeRoundTrip(req: Doc, d: DeployConfig.InferenceDefaults)
    requires !Truthy(Get(req, "size", VNone))
    requires d.width.VInt? && d.height.VInt?
    ensures SizeOf(ResolvedSize(req, d), d.width, d.height) == Ok(Dimensions(d.width, d.height))
  {
    SizeOfIntegers(d.width.i, d.height.i, d.width, d.height);
  }

  /** The parameter resolution of `images_generations` after the prompt check: `n`, size,
      negative prompt, steps and guidance scale, then the size parse inside the `try`.
      An `int()` or `float()` failure before the `try` is an unhandled exception (500
      Internal Server Error); one inside it becomes a 500 carrying the exception message. */
  function Resolve(req: Doc, prompt: Value, d: DeployConfig.InferenceDefaults): (r: Response<GenerationCall>)
    ensures ToInt(Get(req, "n", VInt(1))).Err? ==> r == Failure(500, "Internal Server Error")
    ensures ToFloat(Or(Get(req, "true_cfg_scale", VNone), d.cfgScale)).Err? ==> r == Failure(500, "Internal Server Error")
    ensures r.Success? ==> r.value.prompt == prompt && ToInt(Get(req, "n", VInt(1))) == Ok(r.value.n)
    ensures r.Success? ==> r.value.cfgScale == Or(Get(req, "true_cfg_scale", VNone), d.cfgScale) && ToFloat(r.value.cfgScale).Ok?
  {
    var n := ToInt(Get(req, "n", VInt(1)));
    if n.Err? then Failure(500, "Internal Server Error") else
    var size := ResolvedSize(req, d);
    var negative := Or(Get(req, "negative_prompt", VNone), d.negativePrompt);
    var steps := ToInt(Or(Get(req, "num_inference_steps", VNone), d.steps));
    if steps.Err? then Failure(500, "Internal Server Error") else
    var cfgScale := Or(Get(req, "true_cfg_scale", VNone), d.cfgScale);
    if ToFloat(cfgScale).Err? then Failure(500, "Internal Server Error") else
    var dims := SizeOf(size, d.width, d.height);
    if dims.Err? then Failure(500, dims.error) else
    Success(GenerationCall(prompt, negative, dims.value.width, dims.value.height, steps.value, cfgScale, n.value))
  }

  /** A float `n` such as `2.0` or `2.7` is truncated by `int()`, not refused. */
  lemma ResolveTruncatesFloatCount(req: Doc, prompt: Value, d: DeployConfig.InferenceDefaults, k: nat, fraction: string)
    requires AllDigits(fraction)
    requires "n" in req && req["n"] == VFloat(NatToString(k) + "." + fraction)
    requires Resolve(req, prompt, d).Success?
    ensures Resolve(req, prompt, d).value.n == k
  {
    var r := Resolve(req, prompt, d);
    IntOfPositionalFloat(k, fraction);
    assert ToInt(Get(req, "n", VInt(1))) == Ok(k);
  }

  lemma IntOfPositionalFloat(k: nat, fraction: string)
    requires AllDigits(fraction)
    ensures ToInt(VFloat(NatToString(k) + "." + fraction)) == Ok(k)
  {
    TruncFloatOfDecimal(k, fraction, false);
    assert "" + NatToString(k) + "." + fraction == NatToString(k) + "." + fraction;
  }

  /** A guidance scale that `float()` refuses (a word such as `"abc"`, or a non-empty list
      or mapping) fails the request with a bare 500 before the pipeline is reached. */
  lemma ResolveRejectsNonNumericScale(req: Doc, prompt: Value, d: DeployConfig.InferenceDefaults, scale: Value)
    requires "true_cfg_scale" in req && req["true_cfg_scale"] == scale
    requires (scale.VStr? && |scale.s| > 0 && 'a' <= scale.s[0] <= 'z' && scale.s[0] != 'i' && scale.s[0] != 'n'
              && !IsSpace(scale.s[|scale.s| - 1]))
          || (scale.VList? && scale.items != []) || (scale.VDict? && scale.entries != map[])
    ensures Resolve(req, prompt, d) == Failure(500, "Internal Server Error")
  {
    if scale.VStr? {
      FloatTextRefusesWord(scale.s);
    }
  }

  /** Missing or falsy request settings fall back to the configured defaults. */
  lemma ResolveFallbacks(req: Doc, prompt: Value, d: DeployConfig.InferenceDefaults)
    requires Resolve(req, prompt, d).Success?
    ensures var call := Resolve(req, prompt, d).value;
      (!Truthy(Get(req, "num_inference_steps", VNone)) ==> ToInt(d.steps) == Ok(call.steps))
      && (Truthy(Get(req, "num_inference_steps", VNone)) ==> ToInt(req["num_inference_steps"]) == Ok(call.steps))
      && (!Truthy(Get(req, "negative_prompt", VNone)) ==> call.negativePrompt == d.negativePrompt)
      && (Truthy(Get(req, "negative_prompt", VNone)) ==> call.negativePrompt == req["negative_prompt"])
      && (!Truthy(Get(req, "true_cfg_scale", VNone)) ==> call.cfgScale == d.cfgScale)
  {
  }

  /** Without a size in the request and with integer defaults, the pipeline is called
      with the default dimensions. */
  lemma ResolveDefaultDimensions(req: Doc, prompt: Value, d: DeployConfig.InferenceDefaults)
    requires Resolve(req, prompt, d).Success?
    requires !Truthy(Get(req, "size", VNone)) && d.width.VInt? && d.height.VInt?
    ensures Resolve(req, prompt, d).value.width == d.width
    ensures Resolve(req, prompt, d).value.height == d.height
  {
    DefaultSizeRoundTrip(req, d);
  }

  /** A size of two pieces that are not both integers fails the request with 500
      instead of falling back to the defaults. */
  lemma NonIntegerSizeFails(req: Doc, prompt: Value, d: DeployConfig.InferenceDefaults)
    requires ToInt(Get(req, "n", VInt(1))).Ok?
    requires ToInt(Or(Get(req, "num_inference_steps", VNone), d.steps)).Ok?
    requires var size := ResolvedSize(req, d); var parts := Split(Str(size), 'x');
      Truthy(size) && |parts| == 2 && (ParseInt(parts[0]).Err? || ParseInt(parts[1]).Err?)
    ensures Resolve(req, prompt, d).Failure? && Resolve(req, prompt, d).status == 500
  {
    var size := ResolvedSize(req, d);
    var parts := Split(Str(size), 'x');
    SplitPiecesMeanSeparator(Str(size), 'x');
  }

  /** Text that splits into more than one piece contains the separator. */
  lemma {:induction false} SplitPiecesMeanSeparator(s: string, sep: char)
    ensures |Split(s, sep)| > 1 ==> sep in s
  {
    if |s| > 0 && s[0] != sep {
      SplitPiecesMeanSeparator(s[1..], sep);
      if sep in s[1..] {
        var k :| 0 <= k < |s[1..]| && s[1..][k] == sep;
        assert s[k + 1] == sep;
      }
    }
  }

  /** The base64 text of each image, in order. */
  function EncodeAll(images: seq<Png>): (texts: seq<string>)
    ensures |texts| == |images|
  {
    if |images| == 0 then [] else [Base64.Encode(images[0])] + EncodeAll(images[1..])
  }

  /** Every returned text decodes back to the image at the same position. */
  lemma {:induction false} EncodeAllDecodes(images: seq<Png>, i: int)
    requires 0 <= i < |images|
    ensures Base64.Decode(EncodeAll(images)[i]) == Some(images[i])
  {
    if i == 0 {
      Base64.DecodeEncode(images[0]);
    } else {
      EncodeAllDecodes(images[1..], i - 1);
    }
  }

  /** The result loop `for img in images[:n]`: one base64 PNG per image kept. */
  method EncodeImages(images: seq<Png>, n: int) returns (data: seq<string>)
    ensures data == EncodeAll(SliceTo(images, n))
  {
    var kept := SliceTo(images, n);
    data := [];
    var i := 0;
    while i < |kept|
      invariant 0 <= i <= |kept|
      invariant data == EncodeAll(kept[..i])
    {
      EncodeAllSnoc(kept[..i], kept[i]);
      assert kept[..i + 1] == kept[..i] + [kept[i]];
      data := data + [Base64.Encode(kept[i])];
      i := i + 1;
    }
    assert kept[..|kept|] == kept;
  }

  lemma {:induction false} EncodeAllSnoc(images: seq<Png>, img: Png)
    ensures EncodeAll(images + [img]) == EncodeAll(images) + [Base64.Encode(img)]
  {
    if |images| > 0 {
      assert (images + [img])[1..] == images[1..] + [img];
      EncodeAllSnoc(images[1..], img);
    } else {
      assert images + [img] == [img];
    }
  }

  /** The answer of `images_generations` given the inference defaults (or the error that
      loading them raised) and the pipeline. */
  function Generations(req: Doc, defaults: Result<DeployConfig.InferenceDefaults>, pipe: Pipeline): (r: Response<seq<string>>)
    ensures !Truthy(Get(req, "prompt", VStr(""))) ==> r == Failure(400, "prompt required")
    ensures Truthy(Get(req, "prompt", VStr(""))) && defaults.Err? ==> r == INTERNAL_ERROR
    ensures Truthy(Get(req, "prompt", VStr(""))) && defaults.Ok?
      && (ToInt(Get(req, "n", VInt(1))).Err? || ToFloat(Or(Get(req, "true_cfg_scale", VNone), defaults.value.cfgScale)).Err?)
      ==> r == INTERNAL_ERROR
  {
    var prompt := Get(req, "prompt", VStr(""));
    if !Truthy(prompt) then Failure(400, "prompt required")
    else if defaults.Err? then INTERNAL_ERROR
    else
      var call := Resolve(req, prompt, defaults.value);
      if call.Failure? then Failure(call.status, call.detail)
      else
        var images := pipe(call.value);
        if images.Err? then Failure(500, images.error)
        else Success(EncodeAll(SliceTo(images.value, call.value.n)))
  }

  /** A successful answer holds at most `n` images (for a non-negative `n`), never more
      than the pipeline produced, each the base64 of the pipeline's image at that
      position. */
  lemma GenerationsResult(req: Doc, defaults: Result<DeployConfig.InferenceDefaults>, pipe: Pipeline)
    requires Generations(req, defaults, pipe).Success?
    ensures var call := Resolve(req, Get(req, "prompt", VStr("")), defaults.value).value;
      var images := pipe(call).value; var data := Generations(req, defaults, pipe).value;
      |data| <= |images|
      && (call.n >= 0 ==> |data| <= call.n)
      && (forall i :: 0 <= i < |data| ==> Base64.Decode(data[i]) == Some(images[i]))
  {
    var call := Resolve(req, Get(req, "prompt", VStr("")), defaults.value).value;
    var images := pipe(call).value;
    var kept := SliceTo(images, call.n);
    forall i | 0 <= i < |kept| ensures Base64.Decode(EncodeAll(kept)[i]) == Some(images[i]) {
      EncodeAllDecodes(kept, i);
    }
  }

  /** `images_generations` against the configuration cache: the prompt is checked before
      the configuration is consulted, and a rejected request leaves the cache alone. */
  method ImagesGenerations(cache: DeployConfig.ConfigCache, req: Doc, pipe: Pipeline)
    returns (r: Response<seq<string>>)
    requires cache.Valid()
    modifies cache
    ensures cache.Valid()
    ensures !Truthy(Get(req, "prompt", VStr(""))) ==> r == Failure(400, "prompt required") && unchanged(cache)
    ensures Truthy(Get(req, "prompt", VStr(""))) ==> cache.Loaded("image_gen")
    ensures r == Generations(req, ConfiguredDefaults(cache.dir), pipe)
  {
    var prompt := Get(req, "prompt", VStr(""));
    if !Truthy(prompt) {
      return Failure(400, "prompt required");
    }
    var defaults := cache.GetDiffusersInferenceDefaults();
    if defaults.Err? {
      return INTERNAL_ERROR;
    }
    var call := Resolve(req, prompt, defaults.value);
    if call.Failure? {
      return Failure(call.status, call.detail);
    }
    var images := pipe(call.value);
    if images.Err? {
      return Failure(500, images.error);
    }
    var data := EncodeImages(images.value, call.value.n);
    r := Success(data);
  }

  /** What `get_diffusers_inference_defaults()` gives for a configuration directory. */
  function ConfiguredDefaults(dir: DeployConfig.Directory): (r: Result<DeployConfig.InferenceDefaults>)
    ensures r.Err? <==> DeployConfig.DiffusersConfig(DeployConfig.FileDoc(dir, "image_gen")).Err?
  {
    var diff := DeployConfig.DiffusersConfig(DeployConfig.FileDoc(dir, "image_gen"));
    if diff.Err? then Err(diff.error) else Ok(DeployConfig.InferenceDefaultsOf(diff.value))
  }

  /** The overrides `main` passes on: only the options that were given. */
  function OverridesOf(host: Option<string>, port: Option<int>): (o: Doc)
    ensures o.Keys <= {"host", "port"}
    ensures "host" in o <==> host.Some?
    ensures "port" in o <==> port.Some?
  {
    var withHost := if host.Some? then map["host" := VStr(host.value)] else map[];
    if port.Some? then withHost["port" := VInt(port.value)] else withHost
  }

  /** `main`: `overrides = {}` filled from the `--host` and `--port` options that are not None. */
  method BuildOverrides(host: Option<string>, port: Option<int>) returns (overrides: Doc)
    ensures overrides == OverridesOf(host, port)
  {
    overrides := map[];
    if host.Some? {
      overrides := overrides["host" := VStr(host.value)];
    }
    if port.Some? {
      overrides := overrides["port" := VInt(port.value)];
    }
  }

  /** The server listens where the command line says, else where the configuration
      says, else on 0.0.0.0:8002. */
  lemma ServedAddress(diff: Doc, host: Option<string>, port: Option<int>)
    ensures var params := DeployConfig.ServerParams(diff, Some(OverridesOf(host, port)));
      params["host"] == (if host.Some? then VStr(host.value) else Get(diff, "host", VStr("0.0.0.0")))
      && params["port"] == (if port.Some? then VInt(port.value) else Get(diff, "port", VInt(8002)))
  {
    var o := OverridesOf(host, port);
    if host.Some? {
      assert o["host"] == VStr(host.value);
    }
    if port.Some? {
      assert o["port"] == VInt(port.value);
    }
  }
}

=== FILE: image_generator.dfy ===
/** The image-generation node: when image generation is configured and there are prompts,
    the prompts (at most four) are numbered into the stage template and sent in one
    request to an OpenAI-style `/v1/images/generations` endpoint asking for that many
    images; the base64 payloads of the reply are decoded. */
module ImageGenerator {
  import opened Common
  import Base64
  import Settings
  import Multimodal

  type byte = Base64.byte

  // ---------------------------------------------------------------------------
  // The endpoint

  /** `s.rstrip("/")`. */
  function RStripSlash(s: string): (r: string)
    ensures |r| <= |s| && r == s[..|r|]
    ensures |r| > 0 ==> r[|r| - 1] != '/'
    ensures forall k :: |r| <= k < |s| ==> s[k] == '/'
  {
    if |s| > 0 && s[|s| - 1] == '/' then RStripSlash(s[..|s| - 1]) else s
  }

  /** The endpoint `_call_image_gen_api` posts to. The first two branches of the source
      (the base ends with `/v1`; the base contains `/v1`) give the same URL. */
  function Endpoint(url: string): (e: string)
  {
    var base := RStripSlash(url);
    if EndsWith(base, "/v1") then base + "/images/generations"
    else if Contains(base, "/v1") then base + "/images/generations"
    else base + "/v1/images/generations"
  }

  lemma ContainsExtended(a: string, b: string, w: string)
    requires Contains(a, w)
    ensures Contains(a + b, w)
  {
    var i :| 0 <= i <= |a| - |w| && OccursAt(a, w, i);
    assert (a + b)[i..i + |w|] == a[i..i + |w|];
    assert OccursAt(a + b, w, i);
  }

  /** The endpoint is the stripped base followed by the images path: `/v1` is inserted
      exactly when the base lacks it. */
  lemma EndpointShape(url: string)
    ensures var base := RStripSlash(url);
      Contains(base, "/v1") ==> Endpoint(url) == base + "/images/generations"
    ensures var base := RStripSlash(url);
      !Contains(base, "/v1") ==> Endpoint(url) == base + "/v1/images/generations"
  {
    var base := RStripSlash(url);
    if EndsWith(base, "/v1") {
      assert OccursAt(base, "/v1", |base| - 3);
    }
  }

  lemma EndsWithSuffix(a: string, w: string)
    ensures EndsWith(a + w, w)
  {
    assert (a + w)[|a + w| - |w|..] == w;
  }

  lemma ContainsAt(t: string, w: string, i: int)
    requires OccursAt(t, w, i)
    ensures Contains(t, w)
  {
  }

  /** Whatever the configured URL, the endpoint names the images path of a `/v1` API. */
  lemma EndpointIsImagesApi(url: string)
    ensures EndsWith(Endpoint(url), "/images/generations") && Contains(Endpoint(url), "/v1")
  {
    var base := RStripSlash(url);
    EndpointShape(url);
    if Contains(base, "/v1") {
      ContainsExtended(base, "/images/generations", "/v1");
      EndsWithSuffix(base, "/images/generations");
    } else {
      var e := base + "/v1/images/generations";
      assert e == (base + "/v1") + "/images/generations";
      EndsWithSuffix(base + "/v1", "/images/generations");
      assert e[|base|..|base| + 3] == "/v1";
      ContainsAt(e, "/v1", |base|);
    }
  }

  /** Trailing slashes on the configured URL do not change the endpoint. */
  lemma EndpointIgnoresTrailingSlash(url: string)
    ensures Endpoint(url + "/") == Endpoint(url)
  {
    assert (url + "/")[..|url|] == url;
  }

  // ---------------------------------------------------------------------------
  // The reply

  /** `s.split(",", 1)[-1]`: the text after the first comma, or all of it. */
  function AfterFirstComma(s: string): (r: string)
    ensures |r| <= |s| && r == s[|s| - |r|..]
    ensures ',' !in s ==> r == s
    ensures ',' in s ==> |r| < |s| && s[|s| - |r| - 1] == ',' && ',' !in s[..|s| - |r| - 1]
  {
    var i := CommaIndex(s);
    if i < |s| then s[i + 1..] else s
  }

  /** The index of the first comma, or `|s|`. */
  function CommaIndex(s: string): (i: nat)
    ensures i <= |s| && ',' !in s[..i]
    ensures i < |s| ==> s[i] == ','
  {
    if |s| == 0 then 0 else if s[0] == ',' then 0 else 1 + CommaIndex(s[1..])
  }

  lemma AfterFirstCommaOfHead(head: string, payload: string)
    requires |head| > 0 && head[|head| - 1] == ',' && ',' !in head[..|head| - 1]
    ensures AfterFirstComma(head + payload) == payload
  {
    var s := head + payload;
    var i := CommaIndex(s);
    assert s[..|head| - 1] == head[..|head| - 1];
    assert s[|head| - 1] == ',';
    assert s[|head|..] == payload;
  }

  /** One entry of the reply's `data` list: the decoded image, None when the entry has no
      payload or it fails to decode, or the exception a malformed entry raises. */
  function ItemImage(item: Value): (r: Result<Option<seq<byte>>>)
    ensures !item.VDict? ==> r == Err("AttributeError")
  {
    if !item.VDict? then Err("AttributeError")
    else
      var b64 := Or(Get(item.entries, "b64_json", VNone), Get(item.entries, "url", VStr("")));
      if !Truthy(b64) then Ok(None)
      else if !b64.VStr? then Err("AttributeError")
      else
        var payload := if StartsWith(b64.s, "data:") then AfterFirstComma(b64.s) else b64.s;
        Ok(Base64.Decode(payload))
  }

  /** A `data:` URL as the multimodal messages build it yields its image again. */
  lemma DataUrlItem(img: seq<byte>)
    ensures ItemImage(VDict(map["url" := VStr(Multimodal.DataUrl(img))])) == Ok(Some(img))
  {
    var head := "data:" + Multimodal.MediaType(img) + ";base64,";
    Multimodal.DataUrlRoundTrip(img);
    AfterFirstCommaOfHead(head, Base64.Encode(img));
  }

  /** A base64 encoding never starts like a data URL: `:` is outside the alphabet. */
  lemma EncodingIsNoDataUrl(img: seq<byte>)
    ensures !StartsWith(Base64.Encode(img), "data:")
  {
    var e := Base64.Encode(img);
    Base64.EncodeIsKept(img);
    if |e| >= 5 {
      assert Base64.IsKept(e[4]);
      assert e[..5][4] != ':';
    }
  }

  /** A bare base64 payload yields its image; an empty one is skipped. */
  lemma B64JsonItem(img: seq<byte>)
    ensures img == [] ==> ItemImage(VDict(map["b64_json" := VStr(Base64.Encode(img))])) == Ok(None)
    ensures img != [] ==> ItemImage(VDict(map["b64_json" := VStr(Base64.Encode(img))])) == Ok(Some(img))
  {
    var e := Base64.Encode(img);
    var item := map["b64_json" := VStr(e)];
    assert Or(Get(item, "b64_json", VNone), Get(item, "url", VStr(""))) == VStr(e);
    EncodingIsNoDataUrl(img);
    Base64.DecodeEncode(img);
  }

  /** The images of the `data` list, in order; the first malformed entry's exception
      stops the loop. */
  function DecodedImages(items: seq<Value>): (r: Result<seq<seq<byte>>>)
    ensures r.Ok? ==> |r.value| <= |items|
  {
    if |items| == 0 then Ok([])
    else
      var init := DecodedImages(items[..|items| - 1]);
      if init.Err? then init
      else
        var last := ItemImage(items[|items| - 1]);
        if last.Err? then Err(last.error)
        else if last.value.None? then init
        else Ok(init.value + [last.value.value])
  }

  /** The decoding loop of `_call_image_gen_api`. */
  method DecodeItems(items: seq<Value>) returns (r: Result<seq<seq<byte>>>)
    ensures r == DecodedImages(items)
    ensures r.Ok? ==> |r.value| <= |items|
  {
    var images: seq<seq<byte>> := [];
    var i := 0;
    while i < |items|
      invariant 0 <= i <= |items|
      invariant DecodedImages(items[..i]) == Ok(images)
    {
      assert items[..i + 1][..i] == items[..i];
      var item := ItemImage(items[i]);
      if item.Err? {
        assert DecodedImages(items[..i + 1]).Err?;
        DecodedPrefixErr(items, i + 1);
        return Err(item.error);
      }
      if item.value.Some? {
        images := images + [item.value.value];
      }
      i := i + 1;
    }
    assert items[..|items|] == items;
    r := Ok(images);
  }

  /** An error in a prefix is the error of the whole list. */
  lemma {:induction false} DecodedPrefixErr(items: seq<Value>, n: nat)
    requires n <= |items| && DecodedImages(items[..n]).Err?
    ensures DecodedImages(items) == DecodedImages(items[..n])
    decreases |items| - n
  {
    if n < |items| {
      assert items[..n + 1][..n] == items[..n];
      DecodedPrefixErr(items, n + 1);
    } else {
      assert items[..n] == items;
    }
  }

  /** What the reply's JSON gives: the images of its `data` entry, nothing when it has
      none, or the exception the source raises on a reply of another shape. */
  function ReplyImages(data: Value): (r: Result<seq<seq<byte>>>)
    ensures data.VDict? && "data" !in data.entries ==> r == Ok([])
    ensures data.VDict? && "data" in data.entries && data.entries["data"].VList? ==>
      r == DecodedImages(data.entries["data"].items)
  {
    match data
    case VDict(m) =>
      if "data" !in m then Ok([])
      else
        (match m["data"]
         case VList(items) => DecodedImages(items)
         case VDict(e) => if e == map[] then Ok([]) else Err("AttributeError")
         case VStr(t) => if t == "" then Ok([]) else Err("AttributeError")
         case _ => Err("TypeError"))
    case VList(items) => if VStr("data") in items then Err("TypeError") else Ok([])
    case VStr(t) => if Contains(t, "data") then Err("TypeError") else Ok([])
    case _ => Err("TypeError")
  }

  /** The HTTP exchange: the JSON reply to a POST of the body to the endpoint with the
      given authorization header, or None when the request, the status or the JSON
      decoding fails. */
  type Post = (string, Doc, string) -> Option<Value>

  /** The request body. */
  function Body(s: Settings.Settings, size: Value, prompt: string, n: int): (b: Doc)
    ensures b.Keys == {"model", "prompt", "n", "size"}
  {
    map["model" := VStr(Settings.ImageGenModel(s)), "prompt" := VStr(prompt), "n" := VInt(n), "size" := size]
  }

  /** `_call_image_gen_api(prompt, n)`: the size is `settings.image_gen_size`, read from
      the image-generation deployment document (`importable` says whether that
      configuration module can be imported); an exception it raises is not caught, while
      a failed exchange gives no images. */
  function CallImageGenApi(s: Settings.Settings, importable: bool, imageGen: Doc, prompt: string, n: int, post: Post): (r: Result<seq<seq<byte>>>)
    ensures Settings.ImageGenSize(importable, imageGen).Err? ==> r == Err(Settings.ImageGenSize(importable, imageGen).error)
    ensures Settings.ImageGenSize(importable, imageGen).Ok? ==>
      var body := Body(s, Settings.ImageGenSize(importable, imageGen).value, prompt, n);
      body["size"] == Settings.ImageGenSize(importable, imageGen).value
      && (post(Endpoint(Settings.ImageGenUrl(s)), body, "Bearer " + Settings.ImageGenApiKey(s)).None? ==> r == Ok([]))
  {
    var size := Settings.ImageGenSize(importable, imageGen);
    if size.Err? then Err(size.error)
    else
      var reply := post(Endpoint(Settings.ImageGenUrl(s)), Body(s, size.value, prompt, n), "Bearer " + Settings.ImageGenApiKey(s));
      if reply.None? then Ok([]) else ReplyImages(reply.value)
  }

  /** Without the deployment configuration module the request asks for `1024x1024`. */
  lemma DefaultRequestSize(s: Settings.Settings, imageGen: Doc, prompt: string, n: int)
    ensures Body(s, Settings.ImageGenSize(false, imageGen).value, prompt, n)["size"] == VStr("1024x1024")
  {
  }

  /** Entries that each decode to an image give those images, in order. */
  lemma {:induction false} DecodesAll(items: seq<Value>, imgs: seq<seq<byte>>)
    requires |items| == |imgs|
    requires forall k :: 0 <= k < |items| ==> ItemImage(items[k]) == Ok(Some(imgs[k]))
    ensures DecodedImages(items) == Ok(imgs)
    decreases |items|
  {
    if |items| > 0 {
      var n := |items| - 1;
      forall k | 0 <= k < n ensures ItemImage(items[..n][k]) == Ok(Some(imgs[..n][k])) {
        assert items[..n][k] == items[k];
      }
      DecodesAll(items[..n], imgs[..n]);
      DecodedLast(items, imgs);
    }
  }

  /** One more entry that decodes to an image appends that image. */
  lemma DecodedLast(items: seq<Value>, imgs: seq<seq<byte>>)
    requires 0 < |items| == |imgs|
    requires DecodedImages(items[..|items| - 1]) == Ok(imgs[..|imgs| - 1])
    requires ItemImage(items[|items| - 1]) == Ok(Some(imgs[|imgs| - 1]))
    ensures DecodedImages(items) == Ok(imgs)
  {
    InitAndLast(imgs);
  }

  /** A non-empty sequence is its prefix and its last element. */
  lemma InitAndLast<T>(s: seq<T>)
    requires |s| > 0
    ensures s[..|s| - 1] + [s[|s| - 1]] == s
  {
  }

  /** A reply listing a data URL per image gives those images back, in order. */
  lemma DataUrlsDecode(items: seq<Value>, imgs: seq<seq<byte>>)
    requires |items| == |imgs|
    requires forall k :: 0 <= k < |items| ==> items[k] == VDict(map["url" := VStr(Multimodal.DataUrl(imgs[k]))])
    ensures DecodedImages(items) == Ok(imgs)
  {
    forall k | 0 <= k < |items| ensures ItemImage(items[k]) == Ok(Some(imgs[k])) {
      DataUrlItem(imgs[k]);
    }
    DecodesAll(items, imgs);
  }

  // ---------------------------------------------------------------------------
  // The prompt

  /** The heading of the `i`-th prompt, counted from 1. */
  function Heading(i: nat): string {
    "第 " + NatToString(i + 1) + " 张图像的描述：\n"
  }

  /** One numbered prompt. */
  function PromptPart(i: nat, p: string): (part: string)
    ensures StartsWith(part, Heading(i)) && part[|Heading(i)|..] == Strip(p)
  {
    Heading(i) + Strip(p)
  }

  function PromptParts(prompts: seq<string>): (parts: seq<string>)
    ensures |parts| == |prompts|
    ensures forall i :: 0 <= i < |parts| ==> parts[i] == PromptPart(i, prompts[i])
  {
    seq(|prompts|, i requires 0 <= i < |prompts| => PromptPart(i, prompts[i]))
  }

  /** `"\n\n".join(parts + [x])` adds the separator and `x`. */
  lemma {:induction false} JoinSnoc(parts: seq<string>, x: string, sep: string)
    requires |parts| >= 1
    ensures Join(parts + [x], sep) == Join(parts, sep) + sep + x
    decreases |parts|
  {
    if |parts| == 1 {
      assert (parts + [x])[1..] == [x];
    } else {
      assert (parts + [x])[1..] == parts[1..] + [x];
      JoinSnoc(parts[1..], x, sep);
    }
  }

  /** `_build_prompts_block(prompts)`: each prompt under its numbered heading, the parts
      separated by blank lines. */
  method BuildPromptsBlock(prompts: seq<string>) returns (block: string)
    ensures block == Join(PromptParts(prompts), "\n\n")
  {
    var parts: seq<string> := [];
    var i := 0;
    while i < |prompts|
      invariant 0 <= i <= |prompts|
      invariant parts == PromptParts(prompts[..i])
    {
      parts := parts + [PromptPart(i, prompts[i])];
      i := i + 1;
    }
    assert prompts[..|prompts|] == prompts;
    block := Join(parts, "\n\n");
  }

  /** The block grows by a blank line and the next numbered part per prompt; a single
      prompt is its part alone. */
  lemma BlockGrows(prompts: seq<string>, p: string)
    ensures Join(PromptParts([p]), "\n\n") == PromptPart(0, p)
    ensures |prompts| >= 1 ==>
      Join(PromptParts(prompts + [p]), "\n\n") == Join(PromptParts(prompts), "\n\n") + "\n\n" + PromptPart(|prompts|, p)
  {
    if |prompts| >= 1 {
      assert PromptParts(prompts + [p]) == PromptParts(prompts) + [PromptPart(|prompts|, p)];
      JoinSnoc(PromptParts(prompts), PromptPart(|prompts|, p), "\n\n");
    }
  }

  /** A template line that is a comment once stripped. */
  predicate IsComment(line: string) {
    StartsWith(Strip(line), "#")
  }

  /** The lines that are not comments, in order. */
  function Uncommented(lines: seq<string>): (r: seq<string>)
    ensures |r| <= |lines|
    ensures forall x :: x in r <==> x in lines && !IsComment(x)
  {
    if |lines| == 0 then []
    else
      var last := lines[|lines| - 1];
      var init := lines[..|lines| - 1];
      assert lines == init + [last];
      Uncommented(init) + (if IsComment(last) then [] else [last])
  }

  /** One line is kept alone exactly when it is not a comment. */
  lemma UncommentedLine(line: string)
    ensures Uncommented([line]) == if IsComment(line) then [] else [line]
  {
    assert [line][..0] == [];
  }

  /** Filtering distributes over concatenation, so kept lines stay in their order and
      with their multiplicity. */
  lemma {:induction false} UncommentedAppend(a: seq<string>, b: seq<string>)
    ensures Uncommented(a + b) == Uncommented(a) + Uncommented(b)
    decreases |b|
  {
    if |b| == 0 {
      assert a + b == a;
    } else {
      var init := b[..|b| - 1];
      var last := b[|b| - 1];
      assert (a + b)[..|a + b| - 1] == a + init;
      assert (a + b)[|a + b| - 1] == last;
      UncommentedAppend(a, init);
    }
  }

  /** The stage template with comment lines removed, stripped. */
  function TemplateOf(raw: string): (t: string)
    ensures |t| > 0 ==> !IsSpace(t[0]) && !IsSpace(t[|t| - 1])
  {
    Strip(Join(Uncommented(SplitLines(Strip(raw))), "\n"))
  }

  /** `template.format(image_count=..., prompts=...)`. */
  type Formatter = (string, int, string) -> string

  /** `max(1, min(4, state.get("image_count") or len(prompts)))`: a non-numeric count
      raises TypeError. */
  function GenCount(v: Value, promptCount: nat): (r: Result<int>)
    ensures r.Ok? ==> 1 <= r.value <= 4
    ensures !Truthy(v) ==> r == Ok(Clamp(promptCount, 1, 4))
    ensures v.VInt? && v.i != 0 ==> r == Ok(Clamp(v.i, 1, 4))
  {
    var x := Or(v, VInt(promptCount));
    if x.VInt? then Ok(Clamp(x.i, 1, 4))
    else if x.VBool? then Ok(1)
    else Err("TypeError")
  }

  /** The prompt strings: `p.strip()` raises AttributeError on a non-string. */
  function Texts(items: seq<Value>): (r: Result<seq<string>>)
    ensures r.Ok? ==> |r.value| == |items| && forall k :: 0 <= k < |items| ==> items[k] == VStr(r.value[k])
    ensures r.Err? <==> exists k :: 0 <= k < |items| && !items[k].VStr?
  {
    if |items| == 0 then Ok([])
    else
      var init := Texts(items[..|items| - 1]);
      var last := items[|items| - 1];
      if init.Err? then
        var k :| 0 <= k < |items| - 1 && !items[..|items| - 1][k].VStr?;
        assert !items[k].VStr?;
        init
      else if !last.VStr? then Err("AttributeError")
      else Ok(init.value + [last.s])
  }

  /** What the node sends: the count of images asked for and the final prompt. */
  datatype Call = Call(n: int, prompt: string)

  /** The request `image_generator` makes, None when it returns without one, or the
      exception it raises first. */
  function PlannedCall(state: Doc, s: Settings.Settings, rawTemplate: string, format: Formatter): (r: Result<Option<Call>>)
    ensures !Settings.ImageGenEnabled(s) ==> r == Ok(None)
    ensures !Truthy(Get(state, "image_prompts", VNone)) ==> r == Ok(None)
    ensures r.Ok? && r.value.Some? ==> 1 <= r.value.value.n <= 4
  {
    if !Settings.ImageGenEnabled(s) then Ok(None)
    else
      var prompts := Or(Get(state, "image_prompts", VNone), VList([]));
      if !Truthy(prompts) then Ok(None)
      else if !prompts.VList? then Err("TypeError")
      else
        var count := GenCount(Get(state, "image_count", VNone), |prompts.items|);
        if count.Err? then Err(count.error)
        else
          var texts := Texts(Take(prompts.items, count.value));
          if texts.Err? then Err(texts.error)
          else
            var block := Join(PromptParts(texts.value), "\n\n");
            Ok(Some(Call(count.value, Strip(format(TemplateOf(rawTemplate), count.value, block)))))
  }

  /** `image_generator(state)`: the generated images. */
  function GenerateImages(state: Doc, s: Settings.Settings, importable: bool, imageGen: Doc, rawTemplate: string,
                          format: Formatter, post: Post): Result<seq<seq<byte>>>
  {
    var call := PlannedCall(state, s, rawTemplate, format);
    if call.Err? then Err(call.error)
    else if call.value.None? then Ok([])
    else CallImageGenApi(s, importable, imageGen, call.value.value.prompt, call.value.value.n, post)
  }

  /** Disabled generation or no prompts: no images, whatever the endpoint would answer. */
  lemma NoCallWithoutPrompts(state: Doc, s: Settings.Settings, importable: bool, imageGen: Doc, rawTemplate: string,
                             format: Formatter, post1: Post, post2: Post)
    requires !Settings.ImageGenEnabled(s) || !Truthy(Get(state, "image_prompts", VNone))
    ensures GenerateImages(state, s, importable, imageGen, rawTemplate, format, post1) == Ok([])
    ensures GenerateImages(state, s, importable, imageGen, rawTemplate, format, post1)
      == GenerateImages(state, s, importable, imageGen, rawTemplate, format, post2)
  {
  }

  /** Prompt values that are all strings give those strings. */
  lemma TextsOfStrings(items: seq<Value>, texts: seq<string>)
    requires |items| == |texts| && forall k :: 0 <= k < |items| ==> items[k] == VStr(texts[k])
    ensures Texts(items) == Ok(texts)
  {
    var t := Texts(items);
    if t.Ok? {
      assert forall k :: 0 <= k < |texts| ==> t.value[k] == texts[k] by {
        forall k | 0 <= k < |texts| ensures t.value[k] == texts[k] {
          assert items[k] == VStr(t.value[k]);
        }
      }
      assert t.value == texts;
    }
  }

  /** For any state whose prompts are strings, the prompts sent are the first `n` of them,
      where `n` is the number of images asked for: the state's `image_count` clamped into
      [1, 4], or, with no count, the number of prompts capped at 4. */
  lemma CallCountsPrompts(state: Doc, s: Settings.Settings, rawTemplate: string, format: Formatter,
                          items: seq<Value>, texts: seq<string>, n: int)
    requires Settings.ImageGenEnabled(s) && texts != []
    requires |items| == |texts| && forall k :: 0 <= k < |items| ==> items[k] == VStr(texts[k])
    requires Get(state, "image_prompts", VNone) == VList(items)
    requires GenCount(Get(state, "image_count", VNone), |items|) == Ok(n)
    ensures 1 <= n <= 4
    ensures !Truthy(Get(state, "image_count", VNone)) ==> n == Clamp(|texts|, 1, 4)
    ensures Get(state, "image_count", VNone).VInt? && Truthy(Get(state, "image_count", VNone)) ==>
      n == Clamp(Get(state, "image_count", VNone).i, 1, 4)
    ensures PlannedCall(state, s, rawTemplate, format)
      == Ok(Some(Call(n, Strip(format(TemplateOf(rawTemplate), n, Join(PromptParts(Take(texts, n)), "\n\n"))))))
  {
    assert items[0] == VStr(texts[0]);
    var prompts := Or(Get(state, "image_prompts", VNone), VList([]));
    assert prompts == VList(items);
    var taken := Take(items, n);
    assert |taken| == |Take(texts, n)|;
    TextsOfStrings(taken, Take(texts, n));
  }

}

=== FILE: image_prompt.dfy ===
/** The image-prompt node: one model call that turns the requirements (and any reference
    images) into at most `image_count` image descriptions. A reply that parses as a JSON
    list gives one prompt per true-like entry; any other reply is one prompt. */
module ImagePromptNode {
  import opened Common
  import ContextEnhancer

  /** `max(1, min(4, int(state.get("image_count") or 1)))`, or the exception `int`
      raised. */
  function ImageCount(state: Doc): (r: Result<int>)
    ensures r.Ok? ==> 1 <= r.value <= 4
    ensures !Truthy(Get(state, "image_count", VNone)) ==> r == Ok(1)
    ensures "image_count" in state && state["image_count"].VInt? ==>
      r == Ok(if state["image_count"].i == 0 then 1 else Clamp(state["image_count"].i, 1, 4))
  {
    var v := Or(Get(state, "image_count", VNone), VInt(1));
    if v.VFloat? then ContextEnhancer.ClampedFloat(v.text)
    else
      var n := ToInt(v);
      if n.Err? then Err(n.error) else Ok(Clamp(n.value, 1, 4))
  }

  const REFERENCE_NOTE: string :=
    "\n\n[The user has provided reference images. Generate prompts that align with their style/content for image generation.]"

  /** The prompt after the template is filled: the reference-image note is appended
      exactly when the vision path is taken. */
  function Prompt(formatted: string, vision: bool): (p: string)
    ensures vision ==> p == formatted + REFERENCE_NOTE && EndsWith(p, REFERENCE_NOTE)
    ensures !vision ==> p == formatted
  {
    if vision then
      assert (formatted + REFERENCE_NOTE)[|formatted|..] == REFERENCE_NOTE;
      formatted + REFERENCE_NOTE
    else formatted
  }

  /** `[str(p) for p in parsed if p]`. */
  function TruthyStrings(items: seq<Value>): (r: seq<string>)
    ensures |r| <= |items|
  {
    if |items| == 0 then []
    else
      var last := items[|items| - 1];
      TruthyStrings(items[..|items| - 1]) + (if Truthy(last) then [Str(last)] else [])
  }

  /** The comprehension keeps order: it distributes over concatenation. */
  lemma {:induction false} TruthyStringsAppend(a: seq<Value>, b: seq<Value>)
    ensures TruthyStrings(a + b) == TruthyStrings(a) + TruthyStrings(b)
    decreases |b|
  {
    if |b| == 0 {
      assert a + b == a;
    } else {
      var last := b[|b| - 1];
      assert (a + b)[..|a + b| - 1] == a + b[..|b| - 1];
      TruthyStringsAppend(a, b[..|b| - 1]);
    }
  }

  /** An entry is kept exactly when it is true-like, as its `str()`. */
  lemma {:induction false} TruthyStringsMembers(items: seq<Value>, x: string)
    ensures x in TruthyStrings(items) <==> exists p :: p in items && Truthy(p) && Str(p) == x
    decreases |items|
  {
    if |items| > 0 {
      var init := items[..|items| - 1];
      var last := items[|items| - 1];
      TruthyStringsMembers(init, x);
      assert items == init + [last];
      if x in TruthyStrings(items) && x !in TruthyStrings(init) {
        assert Truthy(last) && Str(last) == x;
      }
      if p :| p in items && Truthy(p) && Str(p) == x {
        if p != last {
          assert p in init;
        }
      }
    }
  }

  /** `json.loads(content)`: the parsed value, or None when it raises. */
  type JsonLoader = string -> Option<Value>

  /** The prompts read from the reply: a JSON list when the reply has both brackets and
      parses as one, otherwise the stripped reply alone. */
  function Prompts(content: string, json: JsonLoader): (r: seq<string>)
    ensures !('[' in content && ']' in content) ==> r == [Strip(content)]
  {
    if '[' in content && ']' in content then
      match json(content)
      case Some(VList(items)) => TruthyStrings(items)
      case _ => [Strip(content)]
    else [Strip(content)]
  }

  /** A list reply of non-empty strings gives those strings, in order. */
  lemma {:induction false} StringListPrompts(strings: seq<string>)
    requires forall k :: 0 <= k < |strings| ==> strings[k] != ""
    ensures TruthyStrings(seq(|strings|, k requires 0 <= k < |strings| => VStr(strings[k]))) == strings
    decreases |strings|
  {
    if |strings| > 0 {
      var init := strings[..|strings| - 1];
      var values := seq(|strings|, k requires 0 <= k < |strings| => VStr(strings[k]));
      assert values[..|values| - 1] == seq(|init|, k requires 0 <= k < |init| => VStr(init[k]));
      StringListPrompts(init);
      assert strings == init + [strings[|strings| - 1]];
    }
  }

  /** The reply of the chosen model to a prompt, images attached on the vision path. */
  type Llm = (bool, string, Option<Value>) -> string

  /** `image_prompt_generator(state)`: the prompts, cut to the count. `formatted` is the
      stage template filled from the state. */
  function ImagePrompts(state: Doc, formatted: string, llm: Llm, json: JsonLoader): (r: Result<seq<string>>)
    ensures r.Ok? ==> |r.value| <= 4
    ensures r.Ok? <==> ImageCount(state).Ok?
    ensures r.Ok? ==> |r.value| <= ImageCount(state).value
  {
    var count := ImageCount(state);
    if count.Err? then Err(count.error)
    else
      var vision := ContextEnhancer.Vision(state);
      var images := if vision then Some(Get(state, "input_images", VNone)) else None;
      var content := llm(vision, Prompt(formatted, vision), images);
      Ok(Take(Prompts(content, json), count.value))
  }

  /** A reply that is not a list gives exactly one prompt, the stripped reply. */
  lemma PlainReplyOnePrompt(state: Doc, formatted: string, llm: Llm, json: JsonLoader)
    requires ImageCount(state).Ok?
    requires var vision := ContextEnhancer.Vision(state);
      var content := llm(vision, Prompt(formatted, vision),
        if vision then Some(Get(state, "input_images", VNone)) else None);
      !(json(content).Some? && json(content).value.VList?)
    ensures var vision := ContextEnhancer.Vision(state);
      var content := llm(vision, Prompt(formatted, vision),
        if vision then Some(Get(state, "input_images", VNone)) else None);
      ImagePrompts(state, formatted, llm, json) == Ok([Strip(content)])
  {
  }
}

=== FILE: launch_vllm.dfy ===
/** The argument handling of the vLLM launcher: the hand-written `-key value` / `--flag`
    tokenizer, the sorted `--key value` serialiser, and the merge in which command-line
    options override the options built from the deployment config. */
module LaunchVllm {
  import opened Common

  /** A parsed option value: a string, or Python's `True` for a bare flag. */
  datatype ArgValue = Flag | Text(s: string)

  type KvArgs = map<string, ArgValue>

  /** How the parser consumes the argument list: a positional token, or an option token
      together with the value token it took, if it took one. */
  datatype Item = Positional(token: string) | Opt(token: string, value: Option<string>)

  /** `a.startswith("-") and len(a) > 1`: the token names an option. */
  predicate IsOptionToken(t: string) {
    |t| > 1 && t[0] == '-'
  }

  /** `a.startswith("-")`. */
  predicate StartsWithDash(t: string) {
    |t| > 0 && t[0] == '-'
  }

  /** `t.lstrip("-")`. */
  function LStripDashes(t: string): (r: string)
    ensures |r| <= |t| && r == t[|t| - |r|..]
    ensures !StartsWithDash(r)
    ensures forall k :: 0 <= k < |t| - |r| ==> t[k] == '-'
  {
    if StartsWithDash(t) then LStripDashes(t[1..]) else t
  }

  /** The dictionary key of an option token: every leading dash removed, inner dashes
      turned into underscores (`--tensor-parallel-size` gives `tensor_parallel_size`). */
  function KeyOf(token: string): (key: string)
    ensures '-' !in key
    ensures |key| <= |token|
  {
    ReplaceChar(LStripDashes(token), '-', '_')
  }

  /** The value an option item stores: the token it took, or True. */
  function ValueOf(it: Item): ArgValue
    requires it.Opt?
  {
    if it.value.Some? then Text(it.value.value) else Flag
  }

  /** The item the parser reads at the front of a non-empty argument list: an option token
      takes the next token as its value when there is one and it does not start with a
      dash. */
  function FirstItem(args: seq<string>): (it: Item)
    requires |args| > 0
    ensures 1 <= |TokensOf(it)| <= |args| && TokensOf(it) == args[..|TokensOf(it)|]
  {
    if IsOptionToken(args[0]) then
      if |args| > 1 && !StartsWithDash(args[1]) then Opt(args[0], Some(args[1])) else Opt(args[0], None)
    else Positional(args[0])
  }

  /** The reading of an argument list, item by item, exactly as the `while` loop of
      `_parse_kv_args` walks it. */
  function Tokenize(args: seq<string>): seq<Item>
    decreases |args|
  {
    if |args| == 0 then []
    else
      var it := FirstItem(args);
      [it] + Tokenize(args[|TokensOf(it)|..])
  }

  /** The tokens an item consumed. */
  function TokensOf(it: Item): seq<string> {
    match it
    case Positional(t) => [t]
    case Opt(t, v) => if v.Some? then [t, v.value] else [t]
  }

  function Flatten(items: seq<Item>): seq<string> {
    if |items| == 0 then [] else TokensOf(items[0]) + Flatten(items[1..])
  }

  function PositionalsOf(items: seq<Item>): seq<string> {
    if |items| == 0 then []
    else (if items[0].Positional? then [items[0].token] else []) + PositionalsOf(items[1..])
  }

  function EntryOf(it: Item): KvArgs {
    if it.Opt? then map[KeyOf(it.token) := ValueOf(it)] else map[]
  }

  /** The dictionary built by the items in order; a later assignment to a key wins. */
  function KvOf(items: seq<Item>): KvArgs {
    if |items| == 0 then map[] else EntryOf(items[0]) + KvOf(items[1..])
  }

  /** The positional list `_parse_kv_args` returns. */
  function Positionals(args: seq<string>): seq<string> {
    PositionalsOf(Tokenize(args))
  }

  /** The option dictionary `_parse_kv_args` returns. */
  function Options(args: seq<string>): KvArgs {
    KvOf(Tokenize(args))
  }

  lemma {:induction false} KvOfAppend(a: seq<Item>, b: seq<Item>)
    ensures KvOf(a + b) == KvOf(a) + KvOf(b)
  {
    if |a| > 0 {
      assert (a + b)[0] == a[0] && (a + b)[1..] == a[1..] + b;
      KvOfAppend(a[1..], b);
      MergeAssociates(EntryOf(a[0]), KvOf(a[1..]), KvOf(b));
    } else {
      assert a + b == b;
    }
  }

  lemma MergeAssociates(m1: KvArgs, m2: KvArgs, m3: KvArgs)
    ensures m1 + (m2 + m3) == (m1 + m2) + m3
  {
  }

  lemma {:induction false} PositionalsOfAppend(a: seq<Item>, b: seq<Item>)
    ensures PositionalsOf(a + b) == PositionalsOf(a) + PositionalsOf(b)
  {
    if |a| > 0 {
      assert (a + b)[1..] == a[1..] + b;
      PositionalsOfAppend(a[1..], b);
    } else {
      assert a + b == b;
    }
  }

  /** One step of the reading at index `i`: the front item, then the rest after the tokens
      it consumed. */
  lemma {:induction false} TokenizeFront(args: seq<string>, done: seq<Item>, i: nat)
    requires i < |args|
    requires Tokenize(args) == done + Tokenize(args[i..])
    ensures var it := FirstItem(args[i..]);
      i + |TokensOf(it)| <= |args| && Tokenize(args) == (done + [it]) + Tokenize(args[i + |TokensOf(it)|..])
  {
    var rest := args[i..];
    var it := FirstItem(rest);
    var n := |TokensOf(it)|;
    assert Tokenize(rest) == [it] + Tokenize(rest[n..]);
    assert rest[n..] == args[i + n..];
    var tail := Tokenize(args[i + n..]);
    assert done + ([it] + tail) == (done + [it]) + tail;
  }

  /** Reading an option item assigns its key in the dictionary. */
  lemma KvOfSnocOpt(done: seq<Item>, it: Item)
    requires it.Opt?
    ensures KvOf(done + [it]) == KvOf(done)[KeyOf(it.token) := ValueOf(it)]
  {
    SingleItem(it);
    KvOfAppend(done, [it]);
    MergeSingleton(KvOf(done), KeyOf(it.token), ValueOf(it));
  }

  lemma MergeSingleton(m: KvArgs, k: string, v: ArgValue)
    ensures m + map[k := v] == m[k := v]
  {
  }

  /** Reading a positional item appends its token to the positionals. */
  lemma SnocPositional(done: seq<Item>, t: string)
    ensures KvOf(done + [Positional(t)]) == KvOf(done)
    ensures PositionalsOf(done + [Positional(t)]) == PositionalsOf(done) + [t]
  {
    SingleItem(Positional(t));
    KvOfAppend(done, [Positional(t)]);
    PositionalsOfAppend(done, [Positional(t)]);
  }

  lemma SnocOpt(done: seq<Item>, it: Item)
    requires it.Opt?
    ensures PositionalsOf(done + [it]) == PositionalsOf(done)
  {
    SingleItem(it);
    PositionalsOfAppend(done, [it]);
  }

  lemma SingleItem(it: Item)
    ensures KvOf([it]) == EntryOf(it)
    ensures PositionalsOf([it]) == if it.Positional? then [it.token] else []
  {
    assert [it][1..] == [];
  }

  lemma TokenizeEnd(args: seq<string>, done: seq<Item>, i: nat)
    requires i == |args| && Tokenize(args) == done + Tokenize(args[i..])
    ensures Tokenize(args) == done
  {
    assert args[i..] == [];
  }

  /** One step of the loop at index `i`: the item read there, the index after it, and
      what reading it does to the positionals and the dictionary. */
  lemma Step(args: seq<string>, done: seq<Item>, i: nat) returns (it: Item, next: nat)
    requires i < |args| && Tokenize(args) == done + Tokenize(args[i..])
    ensures it.token == args[i] && (it.Opt? <==> IsOptionToken(args[i]))
    ensures it.Opt? ==> (it.value.Some? <==> i + 1 < |args| && !StartsWithDash(args[i + 1]))
    ensures it.Opt? && it.value.Some? ==> it.value.value == args[i + 1]
    ensures next == i + (if it.Opt? && it.value.Some? then 2 else 1) && next <= |args|
    ensures Tokenize(args) == (done + [it]) + Tokenize(args[next..])
    ensures it.Opt? ==> KvOf(done + [it]) == KvOf(done)[KeyOf(it.token) := ValueOf(it)]
    ensures it.Opt? ==> PositionalsOf(done + [it]) == PositionalsOf(done)
    ensures it.Positional? ==> KvOf(done + [it]) == KvOf(done)
    ensures it.Positional? ==> PositionalsOf(done + [it]) == PositionalsOf(done) + [it.token]
  {
    it := FirstItem(args[i..]);
    assert args[i..][0] == args[i];
    if |args[i..]| > 1 {
      assert args[i..][1] == args[i + 1];
    }
    next := i + |TokensOf(it)|;
    TokenizeFront(args, done, i);
    if it.Opt? {
      KvOfSnocOpt(done, it);
      SnocOpt(done, it);
    } else {
      SnocPositional(done, it.token);
    }
  }

  /** `_parse_kv_args`: one pass over `args` with index `i`, which grows by one or two
      tokens per step and never passes `len(args)`. */
  method ParseKvArgs(args: seq<string>) returns (positional: seq<string>, kv: KvArgs)
    ensures positional == Positionals(args)
    ensures kv == Options(args)
  {
    positional := [];
    kv := map[];
    var i := 0;
    ghost var done: seq<Item> := [];
    while i < |args|
      invariant 0 <= i <= |args|
      invariant Tokenize(args) == done + Tokenize(args[i..])
      invariant positional == PositionalsOf(done)
      invariant kv == KvOf(done)
      decreases |args| - i
    {
      ghost var it, next := Step(args, done, i);
      var a := args[i];
      if StartsWithDash(a) && |a| > 1 {
        var key := KeyOf(a);
        if i + 1 < |args| && !StartsWithDash(args[i + 1]) {
          kv := kv[key := Text(args[i + 1])];
          i := i + 2;
        } else {
          kv := kv[key := Flag];
          i := i + 1;
        }
      } else {
        positional := positional + [a];
        i := i + 1;
      }
      done := done + [it];
    }
    TokenizeEnd(args, done, i);
  }

  // ---------------------------------------------------------------------------
  // What the parser guarantees

  /** Every token is consumed exactly once, in order. */
  lemma {:induction false} FlattenTokenize(args: seq<string>)
    ensures Flatten(Tokenize(args)) == args
    decreases |args|
  {
    if |args| > 0 {
      var it := FirstItem(args);
      var n := |TokensOf(it)|;
      FlattenTokenize(args[n..]);
      FlattenCons(args, it, n, Tokenize(args[n..]));
    }
  }

  /** An item that consumed the first `n` tokens, followed by items that flatten to the
      remaining ones, flattens to the whole list. */
  lemma FlattenCons(args: seq<string>, it: Item, n: nat, items: seq<Item>)
    requires n <= |args| && TokensOf(it) == args[..n] && Flatten(items) == args[n..]
    ensures Flatten([it] + items) == args
  {
    assert ([it] + items)[1..] == items;
    assert args[..n] + args[n..] == args;
  }

  /** Option items come from option tokens and positional items from the others. */
  lemma {:induction false} OptionItemsAreOptions(args: seq<string>)
    ensures forall j :: 0 <= j < |Tokenize(args)| ==>
      (Tokenize(args)[j].Opt? <==> IsOptionToken(Tokenize(args)[j].token))
    decreases |args|
  {
    if |args| > 0 {
      var rest := args[|TokensOf(FirstItem(args))|..];
      OptionItemsAreOptions(rest);
      forall j | 0 < j < |Tokenize(args)|
        ensures Tokenize(args)[j].Opt? <==> IsOptionToken(Tokenize(args)[j].token)
      {
        assert Tokenize(args)[j] == Tokenize(rest)[j - 1];
      }
    }
  }

  /** A value the parser takes never starts with a dash, so `--delta -5` reads `-5` as
      another option rather than as the value. */
  lemma {:induction false} TakenValuesNotDashed(args: seq<string>)
    ensures forall j :: 0 <= j < |Tokenize(args)| && Tokenize(args)[j].Opt? && Tokenize(args)[j].value.Some? ==>
      !StartsWithDash(Tokenize(args)[j].value.value)
    decreases |args|
  {
    if |args| > 0 {
      var rest := args[|TokensOf(FirstItem(args))|..];
      TakenValuesNotDashed(rest);
      forall j | 0 < j < |Tokenize(args)|
        ensures Tokenize(args)[j].Opt? && Tokenize(args)[j].value.Some? ==>
          !StartsWithDash(Tokenize(args)[j].value.value)
      {
        assert Tokenize(args)[j] == Tokenize(rest)[j - 1];
      }
    }
  }

  /** An option becomes a bare flag only when nothing follows it or the token after it
      starts with a dash. */
  lemma {:induction false} FlagsPrecedeDashes(args: seq<string>)
    ensures var items := Tokenize(args);
      forall j :: 0 <= j < |items| && items[j].Opt? && items[j].value.None? ==>
        Flatten(items[j + 1..]) == [] || StartsWithDash(Flatten(items[j + 1..])[0])
    decreases |args|
  {
    if |args| > 0 {
      var items := Tokenize(args);
      var rest := args[|TokensOf(FirstItem(args))|..];
      FlagsPrecedeDashes(rest);
      assert items[1..] == Tokenize(rest);
      forall j | 0 <= j < |items| && items[j].Opt? && items[j].value.None?
        ensures Flatten(items[j + 1..]) == [] || StartsWithDash(Flatten(items[j + 1..])[0])
      {
        if j == 0 {
          FlattenTokenize(rest);
        } else {
          assert items[j] == Tokenize(rest)[j - 1];
          assert items[j + 1..] == Tokenize(rest)[j - 1 + 1..];
        }
      }
    }
  }

  /** Keys come only from option tokens, and every option token contributes its key. */
  lemma {:induction false} KeysOfKvOf(items: seq<Item>, k: string)
    ensures k in KvOf(items) <==> exists j :: 0 <= j < |items| && items[j].Opt? && KeyOf(items[j].token) == k
  {
    if |items| > 0 {
      KeysOfKvOf(items[1..], k);
      if k in KvOf(items[1..]) {
        var j :| 0 <= j < |items[1..]| && items[1..][j].Opt? && KeyOf(items[1..][j].token) == k;
        assert items[j + 1] == items[1..][j];
      }
      if exists j :: 0 <= j < |items| && items[j].Opt? && KeyOf(items[j].token) == k {
        var j :| 0 <= j < |items| && items[j].Opt? && KeyOf(items[j].token) == k;
        if j > 0 {
          assert items[1..][j - 1] == items[j];
        }
      }
    }
  }

  /** A repeated key keeps the value of its last occurrence. */
  lemma {:induction false} LastValueWins(items: seq<Item>, j: nat)
    requires j < |items| && items[j].Opt?
    requires forall j' {:trigger items[j'].token} :: j < j' < |items| && items[j'].Opt? ==> KeyOf(items[j'].token) != KeyOf(items[j].token)
    ensures KeyOf(items[j].token) in KvOf(items)
    ensures KvOf(items)[KeyOf(items[j].token)] == ValueOf(items[j])
  {
    var k := KeyOf(items[j].token);
    if j == 0 {
      KeyAbsentFromTail(items, k);
      HeadEntryKept(items, k);
    } else {
      NoLaterKeyInTail(items, j);
      LastValueWins(items[1..], j - 1);
      TailEntryKept(items, k);
    }
  }

  /** The hypothesis of LastValueWins carries over to the tail, one position earlier. */
  lemma NoLaterKeyInTail(items: seq<Item>, j: nat)
    requires 0 < j < |items| && items[j].Opt?
    requires forall j' {:trigger items[j'].token} :: j < j' < |items| && items[j'].Opt? ==> KeyOf(items[j'].token) != KeyOf(items[j].token)
    ensures items[1..][j - 1] == items[j]
    ensures forall j' {:trigger items[1..][j'].token} :: j - 1 < j' < |items[1..]| && items[1..][j'].Opt? ==>
      KeyOf(items[1..][j'].token) != KeyOf(items[1..][j - 1].token)
  {
    var rest := items[1..];
    forall j' | j - 1 < j' < |rest| && rest[j'].Opt? ensures KeyOf(rest[j'].token) != KeyOf(items[j].token) {
      assert rest[j'] == items[j' + 1];
    }
  }

  /** The first item's entry survives when the tail does not assign its key. */
  lemma HeadEntryKept(items: seq<Item>, k: string)
    requires |items| > 0 && items[0].Opt? && KeyOf(items[0].token) == k && k !in KvOf(items[1..])
    ensures k in KvOf(items) && KvOf(items)[k] == ValueOf(items[0])
  {
    assert EntryOf(items[0]) == map[k := ValueOf(items[0])];
  }

  /** An entry of the tail's map is an entry of the whole map. */
  lemma TailEntryKept(items: seq<Item>, k: string)
    requires |items| > 0 && k in KvOf(items[1..])
    ensures k in KvOf(items) && KvOf(items)[k] == KvOf(items[1..])[k]
  {
  }

  /** A key that no option after the first item carries is not in the tail's map. */
  lemma KeyAbsentFromTail(items: seq<Item>, k: string)
    requires |items| > 0
    requires forall j' :: 0 < j' < |items| && items[j'].Opt? ==> KeyOf(items[j'].token) != k
    ensures k !in KvOf(items[1..])
  {
    var rest := items[1..];
    KeysOfKvOf(rest, k);
    forall j' | 0 <= j' < |rest| ensures !(rest[j'].Opt? && KeyOf(rest[j'].token) == k) {
      assert rest[j'] == items[j' + 1];
    }
  }

  /** Positional tokens keep their order and are never option tokens. */
  lemma {:induction false} PositionalsAreNotOptions(args: seq<string>)
    ensures forall p :: p in Positionals(args) ==> !IsOptionToken(p)
  {
    OptionItemsAreOptions(args);
    PositionalsOfNotOptions(Tokenize(args));
  }

  lemma {:induction false} PositionalsOfNotOptions(items: seq<Item>)
    requires forall j :: 0 <= j < |items| ==> (items[j].Opt? <==> IsOptionToken(items[j].token))
    ensures forall p :: p in PositionalsOf(items) ==> !IsOptionToken(p)
  {
    if |items| > 0 {
      PositionalsOfNotOptions(items[1..]);
    }
  }

  /** Tokens that are not options are read one by one as positionals, in order. */
  lemma {:induction false} TokenizePositionalPrefix(ps: seq<string>, rest: seq<string>)
    requires forall k :: 0 <= k < |ps| ==> !IsOptionToken(ps[k])
    ensures Tokenize(ps + rest) == PositionalItems(ps) + Tokenize(rest)
  {
    if |ps| > 0 {
      assert (ps + rest)[1..] == ps[1..] + rest;
      TokenizePositionalPrefix(ps[1..], rest);
    } else {
      assert ps + rest == rest;
    }
  }

  function PositionalItems(ps: seq<string>): (items: seq<Item>)
    ensures PositionalsOf(items) == ps && KvOf(items) == map[]
  {
    if |ps| == 0 then [] else [Positional(ps[0])] + PositionalItems(ps[1..])
  }

  /** An argument list without option tokens is all positional. */
  lemma ParseWithoutOptions(args: seq<string>)
    requires forall k :: 0 <= k < |args| ==> !IsOptionToken(args[k])
    ensures Positionals(args) == args && Options(args) == map[]
  {
    TokenizePositionalPrefix(args, []);
    assert args + [] == args;
    assert PositionalItems(args) + [] == PositionalItems(args);
  }

  // ---------------------------------------------------------------------------
  // Sorted re-serialisation

  /** Python's `<` on strings: code point by code point, a proper prefix first. */
  predicate LexLess(a: string, b: string) {
    if |a| == 0 then |b| > 0
    else |b| > 0 && (a[0] < b[0] || (a[0] == b[0] && LexLess(a[1..], b[1..])))
  }

  lemma LexLessIrreflexive(a: string)
    ensures !LexLess(a, a)
  {
  }

  lemma {:induction false} LexLessTransitive(a: string, b: string, c: string)
    requires LexLess(a, b) && LexLess(b, c)
    ensures LexLess(a, c)
  {
    if |a| > 0 && a[0] == b[0] && b[0] == c[0] {
      LexLessTransitive(a[1..], b[1..], c[1..]);
    }
  }

  lemma {:induction false} LexLessTotal(a: string, b: string)
    ensures a == b || LexLess(a, b) || LexLess(b, a)
  {
    if |a| > 0 && |b| > 0 && a[0] == b[0] {
      LexLessTotal(a[1..], b[1..]);
      if a[1..] == b[1..] {
        assert a == [a[0]] + a[1..] && b == [b[0]] + b[1..];
      }
    }
  }

  predicate IsLeast(m: string, s: set<string>) {
    m in s && forall x :: x in s && x != m ==> LexLess(m, x)
  }

  lemma {:induction false} LeastExists(s: set<string>)
    requires s != {}
    ensures exists m :: IsLeast(m, s)
    decreases |s|
  {
    var x :| x in s;
    var rest := s - {x};
    if rest == {} {
      assert s == {x};
      assert IsLeast(x, s);
    } else {
      LeastExists(rest);
      var m :| IsLeast(m, rest);
      LexLessTotal(x, m);
      if LexLess(x, m) {
        forall y | y in s && y != x ensures LexLess(x, y) {
          if y != m {
            LexLessTransitive(x, m, y);
          }
        }
        assert IsLeast(x, s);
      } else {
        assert IsLeast(m, s);
      }
    }
  }

  lemma LeastUnique(m1: string, m2: string, s: set<string>)
    requires IsLeast(m1, s) && IsLeast(m2, s)
    ensures m1 == m2
  {
    if m1 != m2 {
      LexLessTransitive(m1, m2, m1);
      LexLessIrreflexive(m1);
    }
  }

  /** `sorted(keys)`: the keys, least first (see `SortedKeysOrdered`). */
  ghost function SortedKeys(s: set<string>): (r: seq<string>)
    ensures forall k :: k in r <==> k in s
    decreases |s|
  {
    if s == {} then []
    else
      LeastExists(s);
      var m :| IsLeast(m, s);
      [m] + SortedKeys(s - {m})
  }

  lemma SortedKeysUnfold(s: set<string>, k: string)
    requires IsLeast(k, s)
    ensures SortedKeys(s) == [k] + SortedKeys(s - {k})
  {
    LeastExists(s);
    var m :| IsLeast(m, s) && SortedKeys(s) == [m] + SortedKeys(s - {m});
    LeastUnique(m, k, s);
  }

  /** `SortedKeys` lists every key exactly once, in strictly increasing order. */
  lemma {:induction false} SortedKeysOrdered(s: set<string>)
    ensures |SortedKeys(s)| == |s|
    ensures forall i, j :: 0 <= i < j < |SortedKeys(s)| ==> LexLess(SortedKeys(s)[i], SortedKeys(s)[j])
    decreases |s|
  {
    if s != {} {
      LeastExists(s);
      var m :| IsLeast(m, s);
      SortedKeysUnfold(s, m);
      SortedKeysOrdered(s - {m});
      var t := SortedKeys(s - {m});
      forall x | x in t ensures LexLess(m, x) {
        assert x in s - {m};
      }
      ConsIncreasing(m, t);
    }
  }

  /** A least element put before a strictly increasing list keeps it strictly increasing. */
  lemma ConsIncreasing(m: string, t: seq<string>)
    requires forall i, j :: 0 <= i < j < |t| ==> LexLess(t[i], t[j])
    requires forall x :: x in t ==> LexLess(m, x)
    ensures forall i, j :: 0 <= i < j < |[m] + t| ==> LexLess(([m] + t)[i], ([m] + t)[j])
  {
    var r := [m] + t;
    forall i, j | 0 <= i < j < |r| ensures LexLess(r[i], r[j]) {
      assert r[j] == t[j - 1] && r[j] in t;
      if i > 0 {
        assert r[i] == t[i - 1];
      }
    }
  }

  /** A dictionary key as a command-line option: `--` and the key with `_` turned into `-`. */
  function DashedKey(k: string): string {
    "--" + ReplaceChar(k, '_', '-')
  }

  /** The argument list `_kv_to_args` emits for keys in the given order. */
  function Render(keys: seq<string>, kv: KvArgs): seq<string>
    requires forall k :: k in keys ==> k in kv
  {
    if |keys| == 0 then []
    else
      [DashedKey(keys[0])] + (if kv[keys[0]].Text? then [kv[keys[0]].s] else [])
      + Render(keys[1..], kv)
  }

  /** What one key contributes to the serialisation. */
  function KeyTokens(k: string, v: ArgValue): seq<string> {
    [DashedKey(k)] + (if v.Text? then [v.s] else [])
  }

  lemma RenderCons(k: string, tail: seq<string>, kv: KvArgs)
    requires k in kv && forall k' :: k' in tail ==> k' in kv
    ensures Render([k] + tail, kv) == KeyTokens(k, kv[k]) + Render(tail, kv)
  {
    assert ([k] + tail)[1..] == tail;
  }

  /** Emitting the least remaining key keeps the output a prefix of the full rendering. */
  lemma KvToArgsStep(kv: KvArgs, remaining: set<string>, k: string, before: seq<string>)
    requires remaining <= kv.Keys && IsLeast(k, remaining)
    requires before + Render(SortedKeys(remaining), kv) == Render(SortedKeys(kv.Keys), kv)
    ensures kv[k].Text? ==>
      (before + [DashedKey(k)] + [kv[k].s]) + Render(SortedKeys(remaining - {k}), kv) == Render(SortedKeys(kv.Keys), kv)
    ensures kv[k].Flag? ==>
      (before + [DashedKey(k)]) + Render(SortedKeys(remaining - {k}), kv) == Render(SortedKeys(kv.Keys), kv)
  {
    var rest := Render(SortedKeys(remaining - {k}), kv);
    var full := Render(SortedKeys(kv.Keys), kv);
    SortedKeysUnfold(remaining, k);
    RenderCons(k, SortedKeys(remaining - {k}), kv);
    PrefixGrows(before, KeyTokens(k, kv[k]), rest, full);
    if kv[k].Text? {
      assert KeyTokens(k, kv[k]) == [DashedKey(k)] + [kv[k].s];
      assert before + [DashedKey(k)] + [kv[k].s] == before + KeyTokens(k, kv[k]);
    } else {
      assert KeyTokens(k, kv[k]) == [DashedKey(k)];
    }
  }

  /** Moving the next tokens from the pending part to the emitted part. */
  lemma PrefixGrows(before: seq<string>, toks: seq<string>, rest: seq<string>, full: seq<string>)
    requires before + (toks + rest) == full
    ensures (before + toks) + rest == full
  {
  }

  /** `_kv_to_args`: the keys in sorted order, each as `--key`, followed by its value unless
      the value is True. */
  method KvToArgs(kv: KvArgs) returns (result: seq<string>)
    ensures result == Render(SortedKeys(kv.Keys), kv)
  {
    result := [];
    var remaining := kv.Keys;
    while remaining != {}
      invariant remaining <= kv.Keys
      invariant result + Render(SortedKeys(remaining), kv) == Render(SortedKeys(kv.Keys), kv)
      decreases |remaining|
    {
      LeastExists(remaining);
      var k :| IsLeast(k, remaining);
      KvToArgsStep(kv, remaining, k, result);
      var v := kv[k];
      result := result + [DashedKey(k)];
      if v.Text? {
        result := result + [v.s];
      }
      remaining := remaining - {k};
    }
  }

  /** Output length: one token per key plus one per key whose value is not True. */
  lemma {:induction false} RenderLength(keys: seq<string>, kv: KvArgs)
    requires forall k :: k in keys ==> k in kv
    requires forall i, j :: 0 <= i < j < |keys| ==> keys[i] != keys[j]
    ensures |Render(keys, kv)| == |keys| + |set k | k in keys && kv[k].Text?|
  {
    if |keys| > 0 {
      var rest := keys[1..];
      RenderLength(rest, kv);
      var all := set k | k in keys && kv[k].Text?;
      var tailSet := set k | k in rest && kv[k].Text?;
      forall j | 0 <= j < |rest| ensures rest[j] != keys[0] {
        assert rest[j] == keys[j + 1];
      }
      if kv[keys[0]].Text? {
        assert all == {keys[0]} + tailSet;
      } else {
        assert all == tailSet;
      }
    }
  }

  lemma KvToArgsLength(kv: KvArgs)
    ensures |Render(SortedKeys(kv.Keys), kv)| == |kv| + |set k | k in kv && kv[k].Text?|
  {
    var keys := SortedKeys(kv.Keys);
    SortedKeysOrdered(kv.Keys);
    IncreasingIsDistinct(keys);
    RenderLength(keys, kv);
    SameTextKeys(keys, kv);
  }

  lemma IncreasingIsDistinct(keys: seq<string>)
    requires forall i, j :: 0 <= i < j < |keys| ==> LexLess(keys[i], keys[j])
    ensures forall i, j :: 0 <= i < j < |keys| ==> keys[i] != keys[j]
  {
    forall i, j | 0 <= i < j < |keys| ensures keys[i] != keys[j] {
      LexLessIrreflexive(keys[i]);
    }
  }

  lemma SameTextKeys(keys: seq<string>, kv: KvArgs)
    requires forall k :: k in keys <==> k in kv
    ensures (set k | k in keys && kv[k].Text?) == (set k | k in kv && kv[k].Text?)
  {
  }

  // ---------------------------------------------------------------------------
  // Reading back what was serialised

  /** Keys that survive the trip to `--key` and back: no dash, no leading underscore. */
  predicate WellFormedKey(k: string) {
    '-' !in k && (|k| == 0 || k[0] != '_')
  }

  /** A dictionary the parser can read back from its serialisation. */
  predicate RoundTrips(kv: KvArgs) {
    forall k :: k in kv ==> WellFormedKey(k) && (kv[k].Text? ==> !StartsWithDash(kv[k].s))
  }

  lemma {:induction false} LStripDashesOfPrefix(t: string)
    requires !StartsWithDash(t)
    ensures LStripDashes("--" + t) == t
  {
    assert ("--" + t)[1..] == "-" + t;
    assert ("-" + t)[1..] == t;
  }

  lemma KeyOfDashedKey(k: string)
    requires WellFormedKey(k)
    ensures KeyOf(DashedKey(k)) == k
  {
    var d := ReplaceChar(k, '_', '-');
    LStripDashesOfPrefix(d);
    assert ReplaceChar(d, '-', '_') == k;
  }

  function RenderItems(keys: seq<string>, kv: KvArgs): seq<Item>
    requires forall k :: k in keys ==> k in kv
  {
    if |keys| == 0 then []
    else
      [Opt(DashedKey(keys[0]), if kv[keys[0]].Text? then Some(kv[keys[0]].s) else None)]
      + RenderItems(keys[1..], kv)
  }

  lemma {:induction false} TokenizeRender(keys: seq<string>, kv: KvArgs)
    requires forall k :: k in keys ==> k in kv
    requires RoundTrips(kv)
    ensures Tokenize(Render(keys, kv)) == RenderItems(keys, kv)
  {
    if |keys| > 0 {
      var k := keys[0];
      var args := Render(keys, kv);
      var rest := Render(keys[1..], kv);
      TokenizeRender(keys[1..], kv);
      assert IsOptionToken(args[0]);
      if kv[k].Text? {
        assert args == [DashedKey(k), kv[k].s] + rest;
        assert args[2..] == rest;
      } else {
        assert args == [DashedKey(k)] + rest;
        assert args[1..] == rest;
        assert |args| > 1 ==> StartsWithDash(args[1]);
      }
    }
  }

  lemma {:induction false} KvOfRenderItems(keys: seq<string>, kv: KvArgs)
    requires forall k :: k in keys ==> k in kv
    requires RoundTrips(kv)
    ensures PositionalsOf(RenderItems(keys, kv)) == []
    ensures forall k :: k in KvOf(RenderItems(keys, kv)) <==> k in keys
    ensures forall k :: k in keys ==> KvOf(RenderItems(keys, kv))[k] == kv[k]
  {
    if |keys| > 0 {
      KvOfRenderItems(keys[1..], kv);
      KeyOfDashedKey(keys[0]);
      var items := RenderItems(keys, kv);
      var tailMap := KvOf(RenderItems(keys[1..], kv));
      assert items[1..] == RenderItems(keys[1..], kv);
      assert EntryOf(items[0]) == map[keys[0] := kv[keys[0]]];
      assert KvOf(items) == map[keys[0] := kv[keys[0]]] + tailMap;
      ConsEntryMeaning(keys, kv, tailMap);
    }
  }

  /** The entry of the first key, overridden by a map that agrees with `kv` on the other
      keys, agrees with `kv` on all of them. */
  lemma ConsEntryMeaning(keys: seq<string>, kv: KvArgs, tailMap: KvArgs)
    requires |keys| > 0 && forall k :: k in keys ==> k in kv
    requires forall k :: k in tailMap <==> k in keys[1..]
    requires forall k :: k in keys[1..] ==> tailMap[k] == kv[k]
    ensures forall k :: k in map[keys[0] := kv[keys[0]]] + tailMap <==> k in keys
    ensures forall k :: k in keys ==> (map[keys[0] := kv[keys[0]]] + tailMap)[k] == kv[k]
  {
    forall k ensures k in keys <==> k == keys[0] || k in keys[1..] {
      assert keys == [keys[0]] + keys[1..];
    }
  }

  lemma TokenizeKvToArgs(pos: seq<string>, kv: KvArgs)
    requires forall k :: 0 <= k < |pos| ==> !IsOptionToken(pos[k])
    requires RoundTrips(kv)
    ensures Tokenize(pos + Render(SortedKeys(kv.Keys), kv)) == PositionalItems(pos) + RenderItems(SortedKeys(kv.Keys), kv)
  {
    var keys := SortedKeys(kv.Keys);
    TokenizePositionalPrefix(pos, Render(keys, kv));
    TokenizeRender(keys, kv);
  }

  /** Parsing non-option tokens followed by the serialisation of a dictionary gives those
      tokens back as the positionals ... */
  lemma KvToArgsPositionals(pos: seq<string>, kv: KvArgs)
    requires forall k :: 0 <= k < |pos| ==> !IsOptionToken(pos[k])
    requires RoundTrips(kv)
    ensures Positionals(pos + Render(SortedKeys(kv.Keys), kv)) == pos
  {
    var items := RenderItems(SortedKeys(kv.Keys), kv);
    TokenizeKvToArgs(pos, kv);
    KvOfRenderItems(SortedKeys(kv.Keys), kv);
    PositionalsOfAppend(PositionalItems(pos), items);
  }

  /** ... and the dictionary back as the options. */
  lemma KvToArgsOptions(pos: seq<string>, kv: KvArgs)
    requires forall k :: 0 <= k < |pos| ==> !IsOptionToken(pos[k])
    requires RoundTrips(kv)
    ensures Options(pos + Render(SortedKeys(kv.Keys), kv)) == kv
  {
    var items := RenderItems(SortedKeys(kv.Keys), kv);
    TokenizeKvToArgs(pos, kv);
    KvOfRenderSorted(kv);
    EmptyUnion(kv);
    KvOfAppend(PositionalItems(pos), items);
  }

  lemma EmptyUnion(kv: KvArgs) ensures map[] + kv == kv {}

  lemma KvOfRenderSorted(kv: KvArgs)
    requires RoundTrips(kv)
    ensures KvOf(RenderItems(SortedKeys(kv.Keys), kv)) == kv
  {
    KvOfRenderItems(SortedKeys(kv.Keys), kv);
  }

  // ---------------------------------------------------------------------------
  // The merge

  /** The dictionary `{**cfg_kv, **rem_kv}`. */
  function MergedKv(configArgs: seq<string>, remainder: seq<string>): KvArgs {
    Options(configArgs) + Options(remainder)
  }

  /** The merged argument list: the config's positionals, then the merged options in
      sorted order; positionals of the command line are dropped. */
  ghost function Merged(configArgs: seq<string>, remainder: seq<string>): seq<string> {
    var m := MergedKv(configArgs, remainder);
    Positionals(configArgs) + Render(SortedKeys(m.Keys), m)
  }

  /** `_merge_vllm_args`. */
  method MergeVllmArgs(configArgs: seq<string>, remainder: seq<string>) returns (merged: seq<string>)
    ensures merged == Merged(configArgs, remainder)
  {
    var cfgPos, cfgKv := ParseKvArgs(configArgs);
    var _, remKv := ParseKvArgs(remainder);
    var m := cfgKv + remKv;
    var tail := KvToArgs(m);
    merged := cfgPos + tail;
  }

  /** Keys the parser stores never contain a dash. */
  lemma OptionKeysHaveNoDash(args: seq<string>)
    ensures forall k :: k in Options(args) ==> '-' !in k
  {
    forall k | k in Options(args) ensures '-' !in k {
      KeysOfKvOf(Tokenize(args), k);
    }
  }

  /** Values the parser stores never start with a dash. */
  lemma ParsedValuesNotDashed(args: seq<string>)
    ensures forall k :: k in Options(args) && Options(args)[k].Text? ==> !StartsWithDash(Options(args)[k].s)
  {
    TakenValuesNotDashed(args);
    forall k | k in Options(args) && Options(args)[k].Text? ensures !StartsWithDash(Options(args)[k].s) {
      KvOfValues(Tokenize(args), k);
    }
  }

  lemma {:induction false} KvOfValues(items: seq<Item>, k: string)
    requires forall j :: 0 <= j < |items| && items[j].Opt? && items[j].value.Some? ==> !StartsWithDash(items[j].value.value)
    requires k in KvOf(items) && KvOf(items)[k].Text?
    ensures !StartsWithDash(KvOf(items)[k].s)
  {
    if k !in KvOf(items[1..]) {
      assert items[0].Opt? && items[0].value.Some?;
    } else {
      assert forall j :: 0 <= j < |items[1..]| ==> items[1..][j] == items[j + 1];
      KvOfValues(items[1..], k);
    }
  }

  /** What the launched command line means: reading the merged list back with the same
      parser gives the config's positionals, every option of either list, and the
      command line's value wherever both set an option, provided no option name starts
      with an underscore. */
  lemma MergeMeaning(configArgs: seq<string>, remainder: seq<string>)
    requires forall k :: k in MergedKv(configArgs, remainder) ==> |k| == 0 || k[0] != '_'
    ensures Positionals(Merged(configArgs, remainder)) == Positionals(configArgs)
    ensures forall k :: k in Options(Merged(configArgs, remainder)) <==> k in Options(configArgs) || k in Options(remainder)
    ensures forall k :: k in Options(remainder) ==> Options(Merged(configArgs, remainder))[k] == Options(remainder)[k]
    ensures forall k :: k in Options(configArgs) && k !in Options(remainder) ==>
      Options(Merged(configArgs, remainder))[k] == Options(configArgs)[k]
  {
    var m := MergedKv(configArgs, remainder);
    ParsedValuesNotDashed(configArgs);
    ParsedValuesNotDashed(remainder);
    OptionKeysHaveNoDash(configArgs);
    OptionKeysHaveNoDash(remainder);
    assert RoundTrips(m);
    PositionalsAreNotOptions(configArgs);
    KvToArgsPositionals(Positionals(configArgs), m);
    KvToArgsOptions(Positionals(configArgs), m);
  }
}

=== FILE: mcp_config.dfy ===
/** MCP server configuration: `${NAME}` / `$NAME` expansion from the environment over a
    parsed YAML tree, loading of the servers file, and the enabled-server filter. */
module McpConfig {
  import opened Common

  /** The process environment. */
  type Env = map<string, string>

  /** Python's `\w` on `str` patterns: which characters are word characters. Beyond ASCII
      it follows the Unicode character database (letters and digits of every script), so
      the class is a parameter of the expansion. */
  type WordClass = char -> bool

  /** Letters, digits and underscore: exactly the word characters below U+0080. */
  predicate IsAsciiWordChar(c: char) {
    'a' <= c <= 'z' || 'A' <= c <= 'Z' || '0' <= c <= '9' || c == '_'
  }

  /** A word class that agrees with `\w` on ASCII. */
  predicate AsciiExact(word: WordClass) {
    forall c: char :: c < '\U{80}' ==> (word(c) <==> IsAsciiWordChar(c))
  }

  /** The end of the run of word characters that starts at `i`. */
  function WordEnd(s: string, i: nat, word: WordClass): (j: nat)
    requires i <= |s|
    ensures i <= j <= |s|
    ensures forall k :: i <= k < j ==> word(s[k])
    ensures j < |s| ==> !word(s[j])
    decreases |s| - i
  {
    if i < |s| && word(s[i]) then WordEnd(s, i + 1, word) else i
  }

  /** The first index at or after `i` holding `c`, or `|s|` when there is none. */
  function FindChar(s: string, c: char, i: nat): (j: nat)
    requires i <= |s|
    ensures i <= j <= |s|
    ensures forall k :: i <= k < j ==> s[k] != c
    ensures j < |s| ==> s[j] == c
    decreases |s| - i
  {
    if i < |s| && s[i] != c then FindChar(s, c, i + 1) else i
  }

  /** `os.environ.get(name, text)`. */
  function EnvGet(env: Env, name: string, text: string): string {
    if name in env then env[name] else text
  }

  /** Where a `${NAME}` reference that starts the text ends (one past its `}`), if it does. */
  function BracedEnd(s: string): (j: nat)
    ensures j == 0 || (3 < j <= |s| && s[..2] == "${" && s[j - 1] == '}' && '}' !in s[2..j - 1])
  {
    if |s| >= 2 && s[0] == '$' && s[1] == '{' then
      var close := FindChar(s, '}', 2);
      if 2 < close < |s| then
        assert forall k :: 0 <= k < |s[2..close]| ==> s[2..close][k] == s[k + 2];
        close + 1
      else 0
    else 0
  }

  /** `re.sub(r"\$\{([^}]+)\}|\$(\w+)", replacer, s)`: one left-to-right pass; each
      reference is replaced by the variable's value when it is defined and kept verbatim
      otherwise, and the replacement text is not scanned again. */
  function ExpandText(s: string, env: Env, word: WordClass): string
    decreases |s|
  {
    if |s| == 0 then ""
    else if s[0] != '$' || |s| == 1 then [s[0]] + ExpandText(s[1..], env, word)
    else if BracedEnd(s) > 0 then
      var j := BracedEnd(s);
      EnvGet(env, s[2..j - 1], s[..j]) + ExpandText(s[j..], env, word)
    else if word(s[1]) then
      var j := WordEnd(s, 1, word);
      EnvGet(env, s[1..j], s[..j]) + ExpandText(s[j..], env, word)
    else "$" + ExpandText(s[1..], env, word)
  }

  /** With no variable defined, expansion changes nothing. */
  lemma {:induction false} ExpandTextEmptyEnv(s: string, word: WordClass)
    ensures ExpandText(s, map[], word) == s
    decreases |s|
  {
    if |s| > 0 {
      var j := EmptyEnvHead(s, word);
      ExpandTextEmptyEnv(s[j..], word);
      PrefixThenSuffix(s, j);
    }
  }

  lemma PrefixThenSuffix(s: string, j: nat)
    requires j <= |s|
    ensures s[..j] + s[j..] == s
  {
  }

  /** With no variable defined, the first step of expansion copies a non-empty prefix. */
  lemma EmptyEnvHead(s: string, word: WordClass) returns (j: nat)
    requires |s| > 0
    ensures 0 < j <= |s| && ExpandText(s, map[], word) == s[..j] + ExpandText(s[j..], map[], word)
  {
    if s[0] != '$' || |s| == 1 {
      j := 1;
      assert s[..1] == [s[0]];
    } else if BracedEnd(s) > 0 {
      j := BracedEnd(s);
      assert EnvGet(map[], s[2..j - 1], s[..j]) == s[..j];
    } else if word(s[1]) {
      j := WordEnd(s, 1, word);
      assert EnvGet(map[], s[1..j], s[..j]) == s[..j];
    } else {
      j := 1;
      assert s[..1] == "$";
    }
  }

  /** A defined `${NAME}` becomes the value, which is not scanned again: expansion
      continues after the reference. */
  lemma ExpandBraced(name: string, rest: string, env: Env, word: WordClass)
    requires name != "" && '}' !in name && name in env
    ensures ExpandText("${" + name + "}" + rest, env, word) == env[name] + ExpandText(rest, env, word)
  {
    var s := "${" + name + "}" + rest;
    var close := |name| + 2;
    assert s[close] == '}';
    assert forall k :: 2 <= k < close ==> s[k] == name[k - 2];
    assert FindChar(s, '}', 2) == close;
    assert s[2..close] == name;
    assert s[close + 1..] == rest;
  }

  /** An undefined `${NAME}` is kept verbatim, braces included, and the rest is expanded
      separately. */
  lemma ExpandBracedUndefined(name: string, rest: string, env: Env, word: WordClass)
    requires name != "" && '}' !in name && name !in env
    ensures ExpandText("${" + name + "}" + rest, env, word) == "${" + name + "}" + ExpandText(rest, env, word)
  {
    var s := "${" + name + "}" + rest;
    var close := |name| + 2;
    assert s[close] == '}';
    assert forall k :: 2 <= k < close ==> s[k] == name[k - 2];
    assert FindChar(s, '}', 2) == close;
    assert s[2..close] == name;
    assert s[..close + 1] == "${" + name + "}";
    assert s[close + 1..] == rest;
  }

  /** `$NAME` takes the whole run of word characters after the `$`: when that run is
      defined it becomes the value, and expansion continues after it. */
  lemma ExpandBare(name: string, rest: string, env: Env, word: WordClass)
    requires AsciiExact(word)
    requires name != "" && (forall k :: 0 <= k < |name| ==> word(name[k])) && name in env
    requires rest == "" || !word(rest[0])
    ensures ExpandText("$" + name + rest, env, word) == env[name] + ExpandText(rest, env, word)
  {
    BareRun(name, rest, word);
  }

  /** An undefined run is kept verbatim, however much of it is ASCII. */
  lemma ExpandBareUndefined(name: string, rest: string, env: Env, word: WordClass)
    requires AsciiExact(word)
    requires name != "" && (forall k :: 0 <= k < |name| ==> word(name[k])) && name !in env
    requires rest == "" || !word(rest[0])
    ensures ExpandText("$" + name + rest, env, word) == "$" + name + ExpandText(rest, env, word)
  {
    BareRun(name, rest, word);
  }

  lemma BareRun(name: string, rest: string, word: WordClass)
    requires AsciiExact(word)
    requires name != "" && (forall k :: 0 <= k < |name| ==> word(name[k]))
    requires rest == "" || !word(rest[0])
    ensures var s := "$" + name + rest;
      BracedEnd(s) == 0 && word(s[1]) && WordEnd(s, 1, word) == |name| + 1
      && s[1..|name| + 1] == name && s[..|name| + 1] == "$" + name && s[|name| + 1..] == rest
  {
    var s := "$" + name + rest;
    var j := |name| + 1;
    assert !word('{');
    assert forall k :: 1 <= k < j ==> s[k] == name[k - 1];
    assert j < |s| ==> s[j] == rest[0];
    assert s[1] == name[0];
    WordEndOfRun(s, 1, j, word);
    assert s[1..j] == name;
    assert s[..j] == "$" + name;
    assert s[j..] == rest;
  }

  /** Under Python's Unicode `\w`, `$HOME` directly followed by CJK letters names the
      variable `HOME中文`; when only `HOME` is defined the text is kept as it is. */
  lemma UnicodeRunIsOneName(word: WordClass, text: string)
    requires AsciiExact(word) && word('中') && word('文')
    requires text == "$HOME中文"
    ensures ExpandText(text, map["HOME" := "/r"], word) == text
  {
    var name := "HOME中文";
    assert word('H') && word('O') && word('M') && word('E');
    assert forall k :: 0 <= k < |name| ==> word(name[k]);
    ExpandBareUndefined(name, "", map["HOME" := "/r"], word);
    assert "$" + name + "" == "$HOME中文";
  }

  /** A run ends at the first non-word character: `$HOME/bin` expands `HOME`. */
  lemma AsciiRunEndsAtSlash(word: WordClass, text: string)
    requires AsciiExact(word)
    requires text == "$HOME/bin"
    ensures ExpandText(text, map["HOME" := "/r"], word) == "/r/bin"
  {
    assert word('H') && word('O') && word('M') && word('E') && !word('/');
    var env := map["HOME" := "/r"];
    var name, rest := text[1..5], text[5..];
    assert text[1] == 'H' && text[2] == 'O' && text[3] == 'M' && text[4] == 'E';
    assert name == "HOME";
    assert rest == "/bin";
    assert forall k :: 0 <= k < |name| ==> word(name[k]);
    ExpandBare(name, rest, env, word);
    assert "$" + name + rest == text;
    ExpandTextEmptyEnvFree(rest, env, word);
    assert env[name] + rest == "/r/bin";
  }

  /** Text without `$` is unchanged whatever the environment. */
  lemma {:induction false} ExpandTextEmptyEnvFree(s: string, env: Env, word: WordClass)
    requires '$' !in s
    ensures ExpandText(s, env, word) == s
    decreases |s|
  {
    if |s| > 0 {
      assert s[0] != '$';
      ExpandTextEmptyEnvFree(s[1..], env, word);
      assert [s[0]] + s[1..] == s;
    }
  }

  lemma {:induction false} WordEndOfRun(s: string, i: nat, j: nat, word: WordClass)
    requires i <= j <= |s|
    requires forall k :: i <= k < j ==> word(s[k])
    requires j < |s| ==> !word(s[j])
    ensures WordEnd(s, i, word) == j
    decreases j - i
  {
    if i < j {
      WordEndOfRun(s, i + 1, j, word);
    }
  }

  /** `_expand_env_vars`: strings are expanded, mappings keep their keys and lists their
      length and order while their members are expanded, and other values are kept. */
  function ExpandValue(v: Value, env: Env, word: WordClass): (r: Value)
    ensures v.VStr? ==> r == VStr(ExpandText(v.s, env, word))
    ensures v.VDict? ==>
      r.VDict? && r.entries.Keys == v.entries.Keys
      && forall k :: k in v.entries ==> r.entries[k] == ExpandValue(v.entries[k], env, word)
    ensures v.VList? ==>
      r.VList? && |r.items| == |v.items|
      && forall i :: 0 <= i < |v.items| ==> r.items[i] == ExpandValue(v.items[i], env, word)
    ensures !v.VStr? && !v.VDict? && !v.VList? ==> r == v
  {
    match v
    case VStr(s) => VStr(ExpandText(s, env, word))
    case VDict(m) => VDict(map k | k in m :: ExpandValue(m[k], env, word))
    case VList(items) => VList(seq(|items|, i requires 0 <= i < |items| => ExpandValue(items[i], env, word)))
    case _ => v
  }

  /** With no variable defined, the whole tree is unchanged. */
  lemma {:induction false} ExpandValueEmptyEnv(v: Value, word: WordClass)
    ensures ExpandValue(v, map[], word) == v
  {
    match v
    case VStr(s) =>
      ExpandTextEmptyEnv(s, word);
    case VDict(m) =>
      forall k | k in m ensures ExpandValue(m[k], map[], word) == m[k] {
        ExpandValueEmptyEnv(m[k], word);
      }
      assert ExpandValue(v, map[], word).entries == m;
    case VList(items) =>
      forall i | 0 <= i < |items| ensures ExpandValue(items[i], map[], word) == items[i] {
        ExpandValueEmptyEnv(items[i], word);
      }
      assert ExpandValue(v, map[], word).items == items;
    case _ =>
  }

  /** The servers file: None when it does not exist, otherwise what `yaml.safe_load`
      returned (None for an empty document). */
  type ServersFile = Option<Option<Doc>>

  /** `load_mcp_config()`: `{"servers": {}}` for a missing file, otherwise the document
      (or `{}`) with every string expanded. */
  function LoadMcpConfig(file: ServersFile, env: Env, word: WordClass): (cfg: Doc)
    ensures file.None? ==> cfg == map["servers" := VDict(map[])]
    ensures file == Some(None) ==> cfg == map[]
    ensures file.Some? && file.value.Some? ==> cfg.Keys == file.value.value.Keys
  {
    if file.None? then map["servers" := VDict(map[])]
    else
      var raw := if file.value.Some? then file.value.value else map[];
      ExpandValue(VDict(raw), env, word).entries
  }

  /** `cfg.get("enabled", True)` is truthy. */
  predicate Enabled(cfg: Doc) {
    Truthy(Get(cfg, "enabled", VBool(true)))
  }

  /** The `servers` mapping of a loaded configuration, provided it and every server
      entry are mappings (otherwise `.items()` or `.get` raises AttributeError). */
  function ServersOf(config: Doc): Result<map<string, Doc>> {
    var servers := Get(config, "servers", VDict(map[]));
    if !servers.VDict? then Err("AttributeError")
    else if exists name :: name in servers.entries && !servers.entries[name].VDict? then Err("AttributeError")
    else Ok(map name | name in servers.entries :: servers.entries[name].entries)
  }

  /** `get_server_configs()` on a loaded configuration: the enabled servers, unchanged. */
  function ServerConfigs(config: Doc): (r: Result<map<string, Doc>>)
    ensures r.Ok? <==> ServersOf(config).Ok?
    ensures r.Ok? ==> forall name :: name in r.value <==> name in ServersOf(config).value && Enabled(ServersOf(config).value[name])
    ensures r.Ok? ==> forall name :: name in r.value ==> r.value[name] == ServersOf(config).value[name]
  {
    var servers := ServersOf(config);
    if servers.Err? then Err(servers.error)
    else Ok(map name | name in servers.value && Enabled(servers.value[name]) :: servers.value[name])
  }

  /** A server without an `enabled` key is kept; one whose `enabled` is false is dropped. */
  lemma EnabledDefault(config: Doc, name: string)
    requires ServersOf(config).Ok? && name in ServersOf(config).value
    ensures "enabled" !in ServersOf(config).value[name] ==> name in ServerConfigs(config).value
    ensures Get(ServersOf(config).value[name], "enabled", VNone) == VBool(false) ==> name !in ServerConfigs(config).value
  {
  }

  /** Without a servers file there are no servers. */
  lemma NoFileNoServers(env: Env, word: WordClass)
    ensures ServerConfigs(LoadMcpConfig(None, env, word)) == Ok(map[])
  {
    var cfg := LoadMcpConfig(None, env, word);
    assert ServersOf(cfg) == Ok(map[]);
  }
}

=== FILE: mcp_registry.dfy ===
/** The stage-to-tools mapping: which MCP tool names a pipeline stage may use, and the
    union of the tool filters of the enabled servers. */
module McpRegistry {
  import opened Common
  import McpConfig

  /** A YAML file that may be missing: None when it does not exist, otherwise what
      `yaml.safe_load` returned (None for an empty document). */
  type YamlFile = Option<Option<Doc>>

  /** The document of a file that exists, `{}` for an empty one. */
  function DocOf(file: YamlFile): Doc
    requires file.Some?
  {
    if file.value.Some? then file.value.value else map[]
  }

  /** `_load_stage_contexts()`: `{}` for a missing file. */
  function StageContexts(file: YamlFile): (d: Doc)
    ensures file.None? ==> d == map[]
  {
    if file.None? then map[] else DocOf(file)
  }

  /** `d.get(key, {})` followed by a `.get` on the result: a mapping, or AttributeError. */
  function SubMap(d: Doc, key: string): (r: Result<Doc>)
    ensures key !in d ==> r == Ok(map[])
  {
    match Get(d, key, VDict(map[]))
    case VDict(m) => Ok(m)
    case _ => Err("AttributeError")
  }

  /** `get_tool_names_for_stage(stage)`: an explicit, non-None `mcp_tools` of the stage
      wins (a non-list gives `[]`); otherwise the stage's entry in `stage_tools` of the
      servers file (`[]` when absent), and `[]` when that file does not exist. */
  function ToolNamesForStage(stageContexts: YamlFile, serversFile: YamlFile, stage: string): (r: Result<Value>)
  {
    var stages := SubMap(StageContexts(stageContexts), "stages");
    if stages.Err? then Err(stages.error) else
    var cfg := SubMap(stages.value, stage);
    if cfg.Err? then Err(cfg.error) else
    var mcpTools := Get(cfg.value, "mcp_tools", VNone);
    if mcpTools != VNone then
      Ok(if mcpTools.VList? then mcpTools else VList([]))
    else if serversFile.Some? then
      var stageTools := SubMap(DocOf(serversFile), "stage_tools");
      if stageTools.Err? then Err(stageTools.error)
      else Ok(Get(stageTools.value, stage, VList([])))
    else Ok(VList([]))
  }

  /** The stage's configuration entry, when the stage-contexts file gives one. */
  function StageEntry(stageContexts: YamlFile, stage: string): Result<Doc> {
    var stages := SubMap(StageContexts(stageContexts), "stages");
    if stages.Err? then stages else SubMap(stages.value, stage)
  }

  /** Precedence: an explicit `mcp_tools` decides alone, even when it is an empty list,
      whatever the servers file says; a non-list value gives no tools. */
  lemma ExplicitToolsWin(stageContexts: YamlFile, serversFile: YamlFile, stage: string)
    requires StageEntry(stageContexts, stage).Ok?
    requires Get(StageEntry(stageContexts, stage).value, "mcp_tools", VNone) != VNone
    ensures var t := StageEntry(stageContexts, stage).value["mcp_tools"];
      ToolNamesForStage(stageContexts, serversFile, stage) == Ok(if t.VList? then t else VList([]))
  {
  }

  /** Without an explicit `mcp_tools`, the servers file's `stage_tools` entry is used, and
      with neither source the result is `[]`. */
  lemma FallbackTools(stageContexts: YamlFile, serversFile: YamlFile, stage: string)
    requires StageEntry(stageContexts, stage).Ok?
    requires Get(StageEntry(stageContexts, stage).value, "mcp_tools", VNone) == VNone
    ensures serversFile.None? ==> ToolNamesForStage(stageContexts, serversFile, stage) == Ok(VList([]))
    ensures serversFile.Some? && SubMap(DocOf(serversFile), "stage_tools").Ok? ==>
      ToolNamesForStage(stageContexts, serversFile, stage)
        == Ok(Get(SubMap(DocOf(serversFile), "stage_tools").value, stage, VList([])))
  {
  }

  /** With neither file present, a stage has no tools. */
  lemma NoFilesNoTools(stage: string)
    ensures ToolNamesForStage(None, None, stage) == Ok(VList([]))
  {
  }

  /** A list filter whose every member can go into a set. */
  predicate HashableList(filter: Value) {
    filter.VList? && forall i :: 0 <= i < |filter.items| ==> Hashable(filter.items[i])
  }

  /** The names `names.update(filter_list)` adds for a truthy filter: list members, the
      characters of a string, the keys of a mapping. A list member that is itself a list
      or a mapping is unhashable, and anything other than these three is not iterable;
      both raise TypeError. */
  function FilterNames(filter: Value): (r: Result<set<Value>>)
    ensures filter.VList? ==> (r.Ok? <==> HashableList(filter))
    ensures filter.VList? && r.Ok? ==> forall x :: x in r.value <==> x in filter.items
    ensures r.Err? ==> r.error == "TypeError"
  {
    match filter
    case VList(items) =>
      if exists i :: 0 <= i < |items| && !Hashable(items[i]) then Err("TypeError")
      else Ok(set i | 0 <= i < |items| :: items[i])
    case VStr(s) => Ok(set i | 0 <= i < |s| :: VStr([s[i]]))
    case VDict(m) => Ok(set k | k in m :: VStr(k))
    case _ => Err("TypeError")
  }

  /** What one server contributes: nothing without a truthy `tools_filter`. */
  function ServerNames(cfg: Doc): Result<set<Value>> {
    var filter := Get(cfg, "tools_filter", VNone);
    if Truthy(filter) then FilterNames(filter) else Ok({})
  }

  /** The union of the contributions of the servers in `names`. */
  function Contributed(configs: map<string, Doc>, names: set<string>): set<Value> {
    set n, x | n in names && n in configs && ServerNames(configs[n]).Ok? && x in ServerNames(configs[n]).value :: x
  }

  /** `get_all_available_tool_names()` on the enabled server configurations. */
  function AvailableNames(configs: map<string, Doc>): Result<set<Value>> {
    if exists n :: n in configs && ServerNames(configs[n]).Err? then Err("TypeError")
    else Ok(Contributed(configs, configs.Keys))
  }

  /** The loop over the server configurations, adding each one's filter to `names`. */
  method AllAvailableToolNames(configs: map<string, Doc>) returns (r: Result<set<Value>>)
    ensures r == AvailableNames(configs)
  {
    var names: set<Value> := {};
    var todo := configs.Keys;
    ghost var done: set<string> := {};
    while todo != {}
      invariant todo + done == configs.Keys && todo !! done
      invariant forall n :: n in done ==> ServerNames(configs[n]).Ok?
      invariant names == Contributed(configs, done)
      decreases |todo|
    {
      var name :| name in todo;
      var contribution := ServerNames(configs[name]);
      if contribution.Err? {
        assert name in configs && ServerNames(configs[name]).Err?;
        return Err(contribution.error);
      }
      ContributedAdd(configs, done, name);
      names := names + contribution.value;
      todo := todo - {name};
      done := done + {name};
    }
    assert done == configs.Keys;
    r := Ok(names);
  }

  lemma ContributedAdd(configs: map<string, Doc>, done: set<string>, name: string)
    requires name in configs && ServerNames(configs[name]).Ok?
    ensures Contributed(configs, done + {name}) == Contributed(configs, done) + ServerNames(configs[name]).value
  {
  }

  /** With list filters of hashable members only, a name is available exactly when some
      enabled server lists it in a non-empty `tools_filter`; a server without a filter
      contributes nothing. */
  lemma AvailableNamesMeaning(configs: map<string, Doc>, x: Value)
    requires forall n :: n in configs ==>
      HashableList(Get(configs[n], "tools_filter", VNone)) || !Truthy(Get(configs[n], "tools_filter", VNone))
    ensures AvailableNames(configs).Ok?
    ensures x in AvailableNames(configs).value <==>
      exists n :: n in configs && "tools_filter" in configs[n] && configs[n]["tools_filter"].VList?
        && x in configs[n]["tools_filter"].items
  {
    forall n | n in configs ensures ServerNames(configs[n]).Ok? {
      ServerNamesOf(configs[n], x);
    }
    if x in AvailableNames(configs).value {
      var n :| n in configs && ServerNames(configs[n]).Ok? && x in ServerNames(configs[n]).value;
      ServerNamesOf(configs[n], x);
    }
    if exists n :: n in configs && "tools_filter" in configs[n] && configs[n]["tools_filter"].VList?
        && x in configs[n]["tools_filter"].items {
      var n :| n in configs && "tools_filter" in configs[n] && configs[n]["tools_filter"].VList?
        && x in configs[n]["tools_filter"].items;
      ServerNamesOf(configs[n], x);
    }
  }

  lemma ServerNamesOf(cfg: Doc, x: Value)
    requires HashableList(Get(cfg, "tools_filter", VNone)) || !Truthy(Get(cfg, "tools_filter", VNone))
    ensures ServerNames(cfg).Ok?
    ensures x in ServerNames(cfg).value <==>
      "tools_filter" in cfg && cfg["tools_filter"].VList? && x in cfg["tools_filter"].items
  {
  }

  /** One enabled server whose list filter holds a list or a mapping makes the whole
      lookup raise TypeError, whatever the other servers say. */
  lemma UnhashableFilterFails(configs: map<string, Doc>, n: string, i: nat)
    requires n in configs && "tools_filter" in configs[n] && configs[n]["tools_filter"].VList?
    requires i < |configs[n]["tools_filter"].items| && !Hashable(configs[n]["tools_filter"].items[i])
    ensures AvailableNames(configs) == Err("TypeError")
  {
    assert ServerNames(configs[n]).Err?;
  }

  /** `get_all_available_tool_names()` on the loaded servers configuration: only the
      enabled servers are consulted. */
  function AvailableToolNames(config: Doc): Result<set<Value>> {
    var configs := McpConfig.ServerConfigs(config);
    if configs.Err? then Err(configs.error) else AvailableNames(configs.value)
  }

  /** `register_stage_tools`: not supported; it always raises NotImplementedError. */
  function RegisterStageTools(stage: string, toolNames: seq<string>): (r: Result<()>)
    ensures r.Err?
  {
    Err("NotImplementedError")
  }
}

=== FILE: mcp_transports.dfy ===
/** The MCP transport factory: a registry from transport type to handler, filled with the
    three built-in handlers at start-up and extensible by registration, and the dispatch
    that adds a configured server to a client through the handler of its transport. The
    client is modelled by the log of its `add_server` calls. */
module McpTransports {
  import opened Common

  /** A transport handler: one of the three built-ins, or one registered by other code,
      known here by an identifier. */
  datatype Handler = AddStdio | AddHttp | AddSse | Custom(id: string)

  /** One `client.add_server(...)` call. The built-ins make the first two kinds; a custom
      handler may call `add_server` with any arguments, kept as a mapping. */
  datatype ServerCall =
    | StdioServer(name: string, command: Value, args: Value, env: Value)
    | UrlServer(name: string, transport: string, url: Value, headers: Value)
    | OtherServer(name: string, kwargs: Doc)

  /** What running a handler does to the client: the servers it adds, in order, and the
      exception it raises after them, if any. */
  datatype Effect = Effect(added: seq<ServerCall>, raised: Option<string>)

  /** The code of the custom handlers: what the handler registered under an identifier
      does for server `name` with configuration `cfg`. */
  type CustomCode = (string, string, Doc) -> Effect

  /** The call a built-in handler makes for server `name` with configuration `cfg`. */
  function BuiltinCall(h: Handler, name: string, cfg: Doc): (c: ServerCall)
    requires !h.Custom?
    ensures c.name == name
    ensures h == AddStdio ==>
      c.StdioServer?
      && c.command == Get(cfg, "command", VStr("npx"))
      && c.args == Get(cfg, "args", VList([]))
      && (!Truthy(Get(cfg, "env", VNone)) ==> c.env == VDict(map[]))
      && (Truthy(Get(cfg, "env", VNone)) ==> c.env == cfg["env"])
    ensures h == AddHttp ==> c == UrlServer(name, "http", Get(cfg, "url", VStr("")), Get(cfg, "headers", VNone))
    ensures h == AddSse ==> c == UrlServer(name, "sse", Get(cfg, "url", VStr("")), Get(cfg, "headers", VNone))
  {
    match h
    case AddStdio =>
      StdioServer(name, Get(cfg, "command", VStr("npx")), Get(cfg, "args", VList([])),
                  Or(Get(cfg, "env", VNone), VDict(map[])))
    case AddHttp => UrlServer(name, "http", Get(cfg, "url", VStr("")), Get(cfg, "headers", VNone))
    case AddSse => UrlServer(name, "sse", Get(cfg, "url", VStr("")), Get(cfg, "headers", VNone))
  }

  /** `handler(client, name, cfg)`: a built-in adds exactly its one server and does not
      raise; a custom handler does whatever its code does. */
  function Run(h: Handler, name: string, cfg: Doc, code: CustomCode): (e: Effect)
    ensures !h.Custom? ==> e == Effect([BuiltinCall(h, name, cfg)], None)
    ensures h.Custom? ==> e == code(h.id, name, cfg)
  {
    if h.Custom? then code(h.id, name, cfg) else Effect([BuiltinCall(h, name, cfg)], None)
  }

  /** The registry right after import. */
  const BUILTINS: map<string, Handler> := map["stdio" := AddStdio, "http" := AddHttp, "sse" := AddSse]

  /** The handler `add_server_to_client` picks: the one registered for the configured
      transport, `stdio` when none is configured. A list or mapping cannot be looked up
      (TypeError); any other unregistered transport raises ValueError. */
  function Dispatch(handlers: map<string, Handler>, cfg: Doc): (r: Result<Handler>)
    ensures r.Ok? <==> Get(cfg, "transport", VStr("stdio")).VStr? && Get(cfg, "transport", VStr("stdio")).s in handlers
    ensures r.Ok? ==> r.value == handlers[Get(cfg, "transport", VStr("stdio")).s]
    ensures var t := Get(cfg, "transport", VStr("stdio"));
      r.Err? && !t.VList? && !t.VDict? ==> r.error == "Unknown MCP transport: " + Str(t)
    ensures var t := Get(cfg, "transport", VStr("stdio")); t.VList? || t.VDict? ==> r == Err("TypeError")
  {
    var transport := Get(cfg, "transport", VStr("stdio"));
    if transport.VList? || transport.VDict? then Err("TypeError")
    else if transport.VStr? && transport.s in handlers then Ok(handlers[transport.s])
    else Err("Unknown MCP transport: " + Str(transport))
  }

  /** A configuration without `transport` goes to whatever is registered for `stdio`,
      which is the stdio handler unless it was replaced. */
  lemma DefaultTransportIsStdio(handlers: map<string, Handler>, cfg: Doc)
    requires "transport" !in cfg
    ensures "stdio" in handlers ==> Dispatch(handlers, cfg) == Ok(handlers["stdio"])
    ensures Dispatch(BUILTINS, cfg) == Ok(AddStdio)
  {
  }

  /** After registering `h` for `t`, configurations naming `t` go to `h`, and every other
      transport keeps its handler. */
  lemma DispatchAfterRegister(handlers: map<string, Handler>, t: string, h: Handler, cfg: Doc)
    ensures Get(cfg, "transport", VStr("stdio")) == VStr(t) ==> Dispatch(handlers[t := h], cfg) == Ok(h)
    ensures Get(cfg, "transport", VStr("stdio")) != VStr(t) ==> Dispatch(handlers[t := h], cfg) == Dispatch(handlers, cfg)
  {
  }

  /** An MCP client, seen through the servers added to it. */
  class Client {
    var calls: seq<ServerCall>

    constructor ()
      ensures calls == []
    {
      calls := [];
    }

    /** `client.add_server(...)`. */
    method AddServer(call: ServerCall)
      modifies this
      ensures calls == old(calls) + [call]
    {
      calls := calls + [call];
    }
  }

  /** The module-level `_transport_registry`. */
  class TransportRegistry {
    var handlers: map<string, Handler>

    /** The registry after import: `stdio`, `http` and `sse` registered. */
    constructor ()
      ensures handlers == BUILTINS
    {
      handlers := map[];
      new;
      RegisterTransport("stdio", AddStdio);
      RegisterTransport("http", AddHttp);
      RegisterTransport("sse", AddSse);
    }

    /** `register_transport(t, h)`: `t` now maps to `h`, replacing any earlier handler. */
    method RegisterTransport(t: string, h: Handler)
      modifies this
      ensures handlers == old(handlers)[t := h]
    {
      handlers := handlers[t := h];
    }

    /** `add_server_to_client(client, name, cfg)`: for an unknown transport nothing runs
        and the client is left as it was; otherwise the handler's servers are added one
        by one, and an exception it raises propagates after them. */
    method AddServerToClient(client: Client, name: string, cfg: Doc, code: CustomCode) returns (r: Result<()>)
      modifies client
      ensures Dispatch(handlers, cfg).Err? ==> r.Err? && client.calls == old(client.calls)
      ensures Dispatch(handlers, cfg).Ok? ==>
        var e := Run(Dispatch(handlers, cfg).value, name, cfg, code);
        client.calls == old(client.calls) + e.added
        && (r.Err? <==> e.raised.Some?)
        && (r.Err? ==> r.error == e.raised.value)
      ensures Dispatch(handlers, cfg).Ok? && !Dispatch(handlers, cfg).value.Custom? ==>
        r.Ok? && client.calls == old(client.calls) + [BuiltinCall(Dispatch(handlers, cfg).value, name, cfg)]
    {
      var handler := Dispatch(handlers, cfg);
      if handler.Err? {
        return Err(handler.error);
      }
      var e := Run(handler.value, name, cfg, code);
      var i := 0;
      while i < |e.added|
        invariant 0 <= i <= |e.added|
        invariant client.calls == old(client.calls) + e.added[..i]
      {
        client.AddServer(e.added[i]);
        assert e.added[..i + 1] == e.added[..i] + [e.added[i]];
        i := i + 1;
      }
      assert e.added[..i] == e.added;
      if e.raised.Some? {
        return Err(e.raised.value);
      }
      r := Ok(());
    }
  }
}

=== FILE: multimodal.dfy ===
/** Multimodal message content: the media type of an image guessed from its leading bytes,
    and the message parts that pair the text with each image as a `data:` URL (RFC 2397)
    carrying the base64 encoding of the bytes (section 4 of RFC 4648). */
module Multimodal {
  import opened Common
  import Base64

  type byte = Base64.byte

  /** The eight-byte PNG signature (section 5.2 of the PNG specification, ISO/IEC 15948). */
  const PNG_SIGNATURE: seq<byte> := [0x89, 0x50, 0x4E, 0x47, 0x0D, 0x0A, 0x1A, 0x0A]
  const JPEG_SOI: seq<byte> := [0xFF, 0xD8]
  /** `GIF87a` and `GIF89a`. */
  const GIF87A: seq<byte> := [0x47, 0x49, 0x46, 0x38, 0x37, 0x61]
  const GIF89A: seq<byte> := [0x47, 0x49, 0x46, 0x38, 0x39, 0x61]
  /** `RIFF` and `WEBP`. */
  const RIFF: seq<byte> := [0x52, 0x49, 0x46, 0x46]
  const WEBP: seq<byte> := [0x57, 0x45, 0x42, 0x50]

  /** `data[i:j] == sig` in Python: a slice that runs past the end is shorter and so
      unequal. */
  predicate SliceIs(data: seq<byte>, i: nat, sig: seq<byte>) {
    i + |sig| <= |data| && data[i..i + |sig|] == sig
  }

  predicate IsPng(data: seq<byte>) { SliceIs(data, 0, PNG_SIGNATURE) }
  predicate IsJpeg(data: seq<byte>) { SliceIs(data, 0, JPEG_SOI) }
  predicate IsGif(data: seq<byte>) { SliceIs(data, 0, GIF87A) || SliceIs(data, 0, GIF89A) }
  predicate IsWebp(data: seq<byte>) { SliceIs(data, 0, RIFF) && SliceIs(data, 8, WEBP) }

  /** `_guess_image_media_type(data)`: the signatures are tried in the order PNG, JPEG,
      GIF, WebP, and anything else is taken for JPEG. */
  function MediaType(data: seq<byte>): (t: string)
    ensures t in {"image/png", "image/jpeg", "image/gif", "image/webp"}
    ensures t == "image/png" <==> IsPng(data)
    ensures t == "image/gif" <==> !IsPng(data) && !IsJpeg(data) && IsGif(data)
    ensures t == "image/webp" <==> !IsPng(data) && !IsJpeg(data) && !IsGif(data) && IsWebp(data)
    ensures t == "image/jpeg" <==> !IsPng(data) && (IsJpeg(data) || (!IsGif(data) && !IsWebp(data)))
  {
    if IsPng(data) then "image/png"
    else if IsJpeg(data) then "image/jpeg"
    else if IsGif(data) then "image/gif"
    else if IsWebp(data) then "image/webp"
    else "image/jpeg"
  }

  /** Each signature, followed by anything, gets its own type. */
  lemma PngSignature(rest: seq<byte>)
    ensures MediaType(PNG_SIGNATURE + rest) == "image/png"
  {
    assert (PNG_SIGNATURE + rest)[..8] == PNG_SIGNATURE;
  }

  lemma JpegSignature(rest: seq<byte>)
    ensures MediaType(JPEG_SOI + rest) == "image/jpeg"
  {
    var d := JPEG_SOI + rest;
    assert d[..2] == JPEG_SOI;
    assert d[0] == 0xFF;
  }

  lemma GifSignature(rest: seq<byte>, sig: seq<byte>)
    requires sig == GIF87A || sig == GIF89A
    ensures MediaType(sig + rest) == "image/gif"
  {
    var d := sig + rest;
    assert d[..6] == sig;
    assert d[0] == 0x47;
  }

  /** `RIFF`, a four-byte size, `WEBP`. */
  lemma WebpSignature(size: seq<byte>, rest: seq<byte>)
    requires |size| == 4
    ensures MediaType(RIFF + size + WEBP + rest) == "image/webp"
  {
    var d := RIFF + size + WEBP + rest;
    assert d[..4] == RIFF && d[8..12] == WEBP;
    assert d[0] == 0x52;
  }

  /** Input too short for any signature, the empty input included, is taken for JPEG. */
  lemma ShortInputIsJpeg(data: seq<byte>)
    requires |data| < 2
    ensures MediaType(data) == "image/jpeg"
  {
  }

  /** `data:<media>;base64,<payload>` for one image. */
  function DataUrl(img: seq<byte>): (url: string)
    ensures StartsWith(url, "data:")
  {
    "data:" + MediaType(img) + ";base64," + Base64.Encode(img)
  }

  /** The payload after the first comma of a data URL decodes back to the image, and the
      text before it names the guessed media type. */
  lemma DataUrlRoundTrip(img: seq<byte>)
    ensures var url := DataUrl(img);
      var head := "data:" + MediaType(img) + ";base64,";
      url == head + Base64.Encode(img) && ',' !in head[..|head| - 1] && head[|head| - 1] == ','
      && Base64.Decode(url[|head|..]) == Some(img)
  {
    var media := MediaType(img);
    var head := "data:" + media + ";base64,";
    var url := DataUrl(img);
    assert url == head + Base64.Encode(img);
    assert url[|head|..] == Base64.Encode(img);
    Base64.DecodeEncode(img);
    MediaTypeNoComma(img);
    HeadEndsAtComma(media);
  }

  lemma MediaTypeNoComma(data: seq<byte>)
    ensures ',' !in MediaType(data)
  {
    var t := MediaType(data);
    if t == "image/png" {
    } else if t == "image/jpeg" {
    } else if t == "image/gif" {
    } else {
      assert t == "image/webp";
    }
  }

  /** The comma that ends the header of a data URL is its only one. */
  lemma HeadEndsAtComma(media: string)
    requires ',' !in media
    ensures var head := "data:" + media + ";base64,";
      ',' !in head[..|head| - 1] && head[|head| - 1] == ','
  {
    var head := "data:" + media + ";base64,";
    assert head[..|head| - 1] == "data:" + media + ";base64";
    assert ',' !in "data:" && ',' !in ";base64";
  }

  /** One content part of the message. */
  datatype Part = TextPart(text: string) | ImagePart(url: string)

  /** `build_multimodal_content(text, images)`: the text part, then one image part per
      image in order; a missing or empty list gives the text part alone. */
  method BuildMultimodalContent(text: string, images: Option<seq<seq<byte>>>) returns (content: seq<Part>)
    ensures var list := if images.Some? then images.value else [];
      |content| == 1 + |list| && content[0] == TextPart(text)
      && forall i :: 0 <= i < |list| ==> content[i + 1] == ImagePart(DataUrl(list[i]))
  {
    content := [TextPart(text)];
    if images.Some? && images.value != [] {
      var list := images.value;
      var i := 0;
      while i < |list|
        invariant 0 <= i <= |list|
        invariant |content| == 1 + i && content[0] == TextPart(text)
        invariant forall k :: 0 <= k < i ==> content[k + 1] == ImagePart(DataUrl(list[k]))
      {
        var b64 := Base64.Encode(list[i]);
        var media := MediaType(list[i]);
        var url := "data:" + media + ";base64," + b64;
        assert url == DataUrl(list[i]);
        ImagePartsGrow(content, list, i, url);
        content := content + [ImagePart(url)];
        i := i + 1;
      }
    }
  }

  /** Appending the part of the next image keeps the parts in step with the images. */
  lemma ImagePartsGrow(content: seq<Part>, list: seq<seq<byte>>, i: nat, url: string)
    requires i < |list| && |content| == 1 + i && url == DataUrl(list[i])
    requires forall k :: 0 <= k < i ==> content[k + 1] == ImagePart(DataUrl(list[k]))
    ensures forall k :: 0 <= k < i + 1 ==> (content + [ImagePart(url)])[k + 1] == ImagePart(DataUrl(list[k]))
  {
    forall k | 0 <= k < i + 1 ensures (content + [ImagePart(url)])[k + 1] == ImagePart(DataUrl(list[k])) {
      if k < i {
        assert (content + [ImagePart(url)])[k + 1] == content[k + 1];
      }
    }
  }
}

=== FILE: safety_checker.dfy ===
/** The input and output safety check: a forbidden-word list read from a text file, a
    substring rule over it, and a language-model verdict consulted after the rule passes.
    The language model and the JSON decoder are parameters; the word set is a Python
    `set`, whose iteration order is not fixed, so the rule check names whichever occurring
    word it meets first. */
module SafetyChecker {
  import opened Common

  // ---------------------------------------------------------------------------
  // The forbidden-word file

  /** A line is kept when its stripped form is neither empty nor a comment. */
  predicate Kept(line: string) {
    IsWord(Strip(line))
  }

  predicate IsWord(w: string) {
    w != "" && w[0] != '#'
  }

  /** The words of the lines of a file, collected line by line. */
  function Words(lines: seq<string>): set<string>
    decreases |lines|
  {
    if |lines| == 0 then {}
    else
      var last := lines[|lines| - 1];
      Words(lines[..|lines| - 1]) + if Kept(last) then {Strip(last)} else {}
  }

  lemma WordsSnoc(lines: seq<string>, i: nat)
    requires i < |lines|
    ensures Words(lines[..i + 1]) == Words(lines[..i]) + if Kept(lines[i]) then {Strip(lines[i])} else {}
  {
    var b := lines[..i + 1];
    assert b[..|b| - 1] == lines[..i];
    assert b[|b| - 1] == lines[i];
  }

  /** Every kept line contributes its stripped form. */
  lemma {:induction false} WordsComplete(lines: seq<string>, i: nat)
    requires i < |lines| && Kept(lines[i])
    ensures Strip(lines[i]) in Words(lines)
    decreases |lines|
  {
    if i < |lines| - 1 {
      var init := lines[..|lines| - 1];
      assert init[i] == lines[i];
      WordsComplete(init, i);
    }
  }

  /** Every word comes from a kept line. */
  lemma {:induction false} WordsSound(lines: seq<string>, w: string)
    requires w in Words(lines)
    ensures exists i :: 0 <= i < |lines| && Kept(lines[i]) && Strip(lines[i]) == w
    decreases |lines|
  {
    var init := lines[..|lines| - 1];
    var last := lines[|lines| - 1];
    if w in Words(init) {
      WordsSound(init, w);
      var i :| 0 <= i < |init| && Kept(init[i]) && Strip(init[i]) == w;
      assert lines[i] == init[i];
    } else {
      assert Kept(last) && Strip(last) == w;
    }
  }

  /** `_load_forbidden_words()`: nothing when no file is configured or it does not exist;
      reading a directory raises. */
  function ForbiddenWords(wordsFile: Option<string>, fs: FileSystem): Result<set<string>> {
    if wordsFile.None? || wordsFile.value == "" || wordsFile.value !in fs then Ok({})
    else if fs[wordsFile.value].Directory? then Err("IsADirectoryError")
    else Ok(Words(SplitLines(fs[wordsFile.value].text)))
  }

  /** Every forbidden word is non-empty, stripped, not a comment and a single line. */
  lemma WordsAreClean(lines: seq<string>, w: string)
    requires w in Words(lines)
    ensures w != "" && Strip(w) == w && w[0] != '#'
    ensures exists i :: 0 <= i < |lines| && Strip(lines[i]) == w
  {
    WordsSound(lines, w);
    var i :| 0 <= i < |lines| && Kept(lines[i]) && Strip(lines[i]) == w;
    StripOfStripped(w);
  }

  /** A clean line is a word exactly as written. */
  lemma CleanLineIsWord(lines: seq<string>, i: nat)
    requires i < |lines| && lines[i] != "" && lines[i][0] != '#'
    requires !IsSpace(lines[i][0]) && !IsSpace(lines[i][|lines[i]| - 1])
    ensures lines[i] in Words(lines)
  {
    StripOfStripped(lines[i]);
    WordsComplete(lines, i);
  }

  /** The loop of `_load_forbidden_words` over the file's lines. */
  method LoadForbiddenWords(wordsFile: Option<string>, fs: FileSystem) returns (r: Result<set<string>>)
    ensures r == ForbiddenWords(wordsFile, fs)
  {
    if wordsFile.None? || wordsFile.value == "" {
      return Ok({});
    }
    var path := wordsFile.value;
    if path !in fs {
      return Ok({});
    }
    if fs[path].Directory? {
      return Err("IsADirectoryError");
    }
    var lines := SplitLines(fs[path].text);
    var words: set<string> := {};
    var i := 0;
    while i < |lines|
      invariant 0 <= i <= |lines|
      invariant words == Words(lines[..i])
    {
      var line := Strip(lines[i]);
      if IsWord(line) {
        words := words + {line};
      }
      WordsSnoc(lines, i);
      i := i + 1;
    }
    assert lines[..i] == lines;
    r := Ok(words);
  }

  // ---------------------------------------------------------------------------
  // The rule

  /** The rule passes empty text, and otherwise text containing no forbidden word. */
  predicate RulePasses(text: string, forbidden: set<string>) {
    text == "" || forall w :: w in forbidden ==> !Contains(text, w)
  }

  function RuleMessage(w: string): string {
    "Contains forbidden word: " + w
  }

  /** `_check_text_forbidden(text, forbidden)`: the words are tried in the set's order and
      the first one found in the text is named. */
  method CheckTextForbidden(text: string, forbidden: set<string>) returns (ok: bool, msg: string)
    ensures ok <==> RulePasses(text, forbidden)
    ensures ok ==> msg == ""
    ensures !ok ==> exists w :: w in forbidden && Contains(text, w) && msg == RuleMessage(w)
  {
    if text == "" {
      return true, "";
    }
    var todo := forbidden;
    while todo != {}
      invariant todo <= forbidden
      invariant forall w :: w in forbidden - todo ==> !Contains(text, w)
      decreases |todo|
    {
      var w :| w in todo;
      if Contains(text, w) {
        return false, RuleMessage(w);
      }
      todo := todo - {w};
    }
    return true, "";
  }

  // ---------------------------------------------------------------------------
  // The language-model verdict

  /** The reply of the model to a prompt built from the text, or the exception the call
      raised. The prompt template is not modelled; the model sees only the text. */
  type Llm = string -> Result<string>

  /** `json.loads` on a brace-delimited candidate: the object, or None on a decode error. */
  type JsonDecoder = string -> Option<Doc>

  /** The index of the first brace at or after `i`, or `|s|`. */
  function NextBrace(s: string, i: nat): (j: nat)
    requires i <= |s|
    ensures i <= j <= |s|
    ensures forall k :: i <= k < j ==> s[k] != '{' && s[k] != '}'
    ensures j < |s| ==> s[j] == '{' || s[j] == '}'
    decreases |s| - i
  {
    if i == |s| || s[i] == '{' || s[i] == '}' then i else NextBrace(s, i + 1)
  }

  /** Text without braces. */
  predicate Plain(t: string) {
    forall k :: 0 <= k < |t| ==> t[k] != '{' && t[k] != '}'
  }

  /** A brace-free stretch ends at the next brace. */
  lemma NextBraceAfterPlain(s: string, p: nat, q: nat)
    requires p <= q < |s| && Plain(s[p..q]) && (s[q] == '{' || s[q] == '}')
    ensures NextBrace(s, p) == q
  {
    assert forall k :: p <= k < q ==> s[k] == s[p..q][k - p];
  }

  /** `re.finditer(r'\{[^{}]*"passed"[^{}]*\}', s)` from position `i`: the brace-delimited
      pieces without inner braces that mention `"passed"`, left to right. */
  function Candidates(s: string, i: nat): (r: seq<string>)
    requires i <= |s|
    ensures forall k :: 0 <= k < |r| ==>
      |r[k]| >= 2 && r[k][0] == '{' && r[k][|r[k]| - 1] == '}' && Contains(r[k], "\"passed\"")
    decreases |s| - i
  {
    if i == |s| then []
    else if s[i] == '{' then
      var j := NextBrace(s, i + 1);
      if j < |s| && s[j] == '}' && Contains(s[i + 1..j], "\"passed\"") then
        assert s[i..j + 1][1..j - i] == s[i + 1..j];
        ContainsInfix(s[i..j + 1], s[i + 1..j], "\"passed\"");
        [s[i..j + 1]] + Candidates(s, j + 1)
      else Candidates(s, i + 1)
    else Candidates(s, i + 1)
  }

  lemma ContainsInfix(t: string, u: string, w: string)
    requires |t| == |u| + 2 && t[1..|t| - 1] == u && Contains(u, w)
    ensures Contains(t, w)
  {
    var i :| 0 <= i <= |u| - |w| && OccursAt(u, w, i);
    forall k | 0 <= k < |w| ensures t[i + 1 + k] == w[k] {
      assert t[i + 1 + k] == u[i + k];
    }
    assert t[i + 1..i + 1 + |w|] == w;
    assert OccursAt(t, w, i + 1);
  }

  /** Text without braces before position `j` yields no candidate. */
  lemma {:induction false} SkipPlainText(s: string, i: nat, j: nat)
    requires i <= j <= |s| && Plain(s[i..j])
    ensures Candidates(s, i) == Candidates(s, j)
    decreases j - i
  {
    if i < j {
      assert s[i] == s[i..j][0];
      assert s[i + 1..j] == s[i..j][1..];
      SkipPlainText(s, i + 1, j);
    }
  }

  /** A brace-free object `s[i..j + 1]` that mentions `"passed"`, after brace-free text,
      is the first candidate, and the others are found after it. */
  lemma {:induction false} PassedObjectFirst(s: string, i: nat, j: nat)
    requires i < j < |s| && s[i] == '{' && s[j] == '}'
    requires Plain(s[0..i]) && Plain(s[i + 1..j]) && Contains(s[i + 1..j], "\"passed\"")
    ensures Candidates(s, 0) == [s[i..j + 1]] + Candidates(s, j + 1)
  {
    SkipPlainText(s, 0, i);
    NextBraceAfterPlain(s, i + 1, j);
    CandidateAt(s, i, j);
  }

  /** An object closed at the next brace and mentioning `"passed"` is a candidate. */
  lemma CandidateAt(s: string, i: nat, j: nat)
    requires i < j < |s| && s[i] == '{' && s[j] == '}' && NextBrace(s, i + 1) == j
    requires Contains(s[i + 1..j], "\"passed\"")
    ensures Candidates(s, i) == [s[i..j + 1]] + Candidates(s, j + 1)
  {
  }

  /** The model's answer: `passed` and `reason` as they appear in its JSON. */
  datatype LlmVerdict = LlmVerdict(passed: Value, reason: Value)

  const PASS: LlmVerdict := LlmVerdict(VBool(true), VStr(""))

  /** The first candidate that decodes and has a `passed` key decides; candidates that do
      not decode, or decode without that key, are skipped; none gives a pass. */
  function FirstVerdict(candidates: seq<string>, json: JsonDecoder): (v: LlmVerdict)
    ensures (forall k :: 0 <= k < |candidates| ==> json(candidates[k]).None? || "passed" !in json(candidates[k]).value) ==> v == PASS
  {
    if |candidates| == 0 then PASS
    else
      var data := json(candidates[0]);
      if data.Some? && "passed" in data.value then
        LlmVerdict(data.value["passed"], Get(data.value, "reason", VStr("")))
      else FirstVerdict(candidates[1..], json)
  }

  /** The `k`-th candidate decides when every earlier one fails to decode or has no
      `passed` key and it decodes with one: its `passed`, and its `reason` or `""`. */
  lemma {:induction false} FirstVerdictAt(candidates: seq<string>, json: JsonDecoder, k: nat)
    requires k < |candidates|
    requires forall j :: 0 <= j < k ==> json(candidates[j]).None? || "passed" !in json(candidates[j]).value
    requires json(candidates[k]).Some? && "passed" in json(candidates[k]).value
    ensures var m := json(candidates[k]).value;
      FirstVerdict(candidates, json) == LlmVerdict(m["passed"], Get(m, "reason", VStr("")))
  {
    if k > 0 {
      assert json(candidates[0]).None? || "passed" !in json(candidates[0]).value;
      assert forall j :: 0 <= j < k - 1 ==> candidates[1..][j] == candidates[j + 1];
      FirstVerdictAt(candidates[1..], json, k - 1);
    }
  }

  /** `_check_text_llm(text)`: a pass when the text is empty, the model is disabled or the
      call fails; otherwise the verdict in the reply to the first 2000 characters. */
  function CheckTextLlm(text: string, useLlm: bool, llm: Llm, json: JsonDecoder): (v: LlmVerdict)
    ensures text == "" || !useLlm ==> v == PASS
    ensures useLlm && text != "" && llm(Take(text, 2000)).Err? ==> v == PASS
  {
    if text == "" || !useLlm then PASS
    else
      var reply := llm(Take(text, 2000));
      if reply.Err? then PASS
      else FirstVerdict(Candidates(reply.value, 0), json)
  }

  /** Only the first 2000 characters reach the model. */
  lemma LlmSeesPrefix(a: string, b: string, useLlm: bool, llm: Llm, json: JsonDecoder)
    requires a != "" && b != "" && Take(a, 2000) == Take(b, 2000)
    ensures CheckTextLlm(a, useLlm, llm, json) == CheckTextLlm(b, useLlm, llm, json)
  {
  }

  /** A reply without any brace-delimited `"passed"` object is a pass. */
  lemma NoVerdictIsPass(text: string, useLlm: bool, llm: Llm, json: JsonDecoder)
    requires text != "" && useLlm && llm(Take(text, 2000)).Ok?
    requires Candidates(llm(Take(text, 2000)).value, 0) == []
    ensures CheckTextLlm(text, useLlm, llm, json) == PASS
  {
  }

  /** A reply whose first `"passed"` object, `reply[i..j + 1]`, decodes to `m` gives `m`'s
      verdict. */
  lemma LlmVerdictOfReply(text: string, useLlm: bool, llm: Llm, json: JsonDecoder,
                          reply: string, i: nat, j: nat, m: Doc)
    requires text != "" && useLlm && llm(Take(text, 2000)) == Ok(reply)
    requires i < j < |reply| && reply[i] == '{' && reply[j] == '}'
    requires Plain(reply[0..i]) && Plain(reply[i + 1..j]) && Contains(reply[i + 1..j], "\"passed\"")
    requires json(reply[i..j + 1]) == Some(m) && "passed" in m
    ensures CheckTextLlm(text, useLlm, llm, json) == LlmVerdict(m["passed"], Get(m, "reason", VStr("")))
  {
    PassedObjectFirst(reply, i, j);
    FirstVerdictAt(Candidates(reply, 0), json, 0);
  }

  // ---------------------------------------------------------------------------
  // Combined checks

  /** The model is asked only when it is enabled and the text is not blank. */
  predicate AsksLlm(text: string, useLlm: bool) {
    useLlm && Strip(text) != ""
  }

  /** `_check_text` passes: the rule passes and, when the model is asked, its `passed`
      is true-like. */
  predicate TextPasses(text: string, forbidden: set<string>, useLlm: bool, llm: Llm, json: JsonDecoder) {
    RulePasses(text, forbidden)
    && (AsksLlm(text, useLlm) ==> Truthy(CheckTextLlm(text, useLlm, llm, json).passed))
  }

  /** The message a failing `_check_text` returns: the rule's, naming a word that occurs,
      or, when the rule passed, the model's reason. */
  predicate FailureMessage(text: string, msg: Value, forbidden: set<string>, useLlm: bool, llm: Llm, json: JsonDecoder) {
    if !RulePasses(text, forbidden) then
      exists w :: w in forbidden && Contains(text, w) && msg == VStr(RuleMessage(w))
    else msg == CheckTextLlm(text, useLlm, llm, json).reason
  }

  /** A check's result: the verdict and its message. */
  datatype Verdict = Verdict(passed: bool, message: Value)

  /** `_check_text(text, forbidden, use_llm)`; `asked` reports whether the model was
      called. */
  method CheckText(text: string, forbidden: set<string>, useLlm: bool, llm: Llm, json: JsonDecoder)
    returns (v: Verdict, asked: bool)
    ensures asked <==> RulePasses(text, forbidden) && AsksLlm(text, useLlm)
    ensures v.passed <==> TextPasses(text, forbidden, useLlm, llm, json)
    ensures v.passed ==> v.message == VStr("")
    ensures !v.passed ==> FailureMessage(text, v.message, forbidden, useLlm, llm, json)
  {
    var ok, msg := CheckTextForbidden(text, forbidden);
    if !ok {
      return Verdict(false, VStr(msg)), false;
    }
    asked := false;
    if useLlm && Strip(text) != "" {
      var answer := CheckTextLlm(text, useLlm, llm, json);
      asked := true;
      if !Truthy(answer.passed) {
        return Verdict(false, answer.reason), asked;
      }
    }
    v := Verdict(true, VStr(""));
  }

  /** For a text the rule lets through, a reply whose first `"passed"` object,
      `reply[i..j + 1]`, decodes to `m` makes `_check_text` pass exactly when
      `m["passed"]` is true-like; a failure carries `m`'s reason, or `""` without one. */
  lemma LlmDecides(text: string, forbidden: set<string>, useLlm: bool, llm: Llm, json: JsonDecoder,
                   reply: string, i: nat, j: nat, m: Doc)
    requires RulePasses(text, forbidden) && AsksLlm(text, useLlm)
    requires llm(Take(text, 2000)) == Ok(reply)
    requires i < j < |reply| && reply[i] == '{' && reply[j] == '}'
    requires Plain(reply[0..i]) && Plain(reply[i + 1..j]) && Contains(reply[i + 1..j], "\"passed\"")
    requires json(reply[i..j + 1]) == Some(m) && "passed" in m
    ensures TextPasses(text, forbidden, useLlm, llm, json) <==> Truthy(m["passed"])
    ensures !Truthy(m["passed"]) ==> FailureMessage(text, Get(m, "reason", VStr("")), forbidden, useLlm, llm, json)
  {
    assert text != "";
    LlmVerdictOfReply(text, useLlm, llm, json, reply, i, j, m);
  }

  /** `check_input` passes: the requirements pass, and so does the description when it
      is given and non-empty. */
  predicate InputPasses(requirements: string, description: Option<string>, forbidden: set<string>,
                        useLlm: bool, llm: Llm, json: JsonDecoder) {
    TextPasses(requirements, forbidden, useLlm, llm, json)
    && (description.Some? && description.value != "" ==> TextPasses(description.value, forbidden, useLlm, llm, json))
  }

  /** `check_input(requirements, description, images)`: the images are not examined. */
  method CheckInput(requirements: string, description: Option<string>, images: Option<seq<seq<int>>>,
                    wordsFile: Option<string>, fs: FileSystem, useLlm: bool, llm: Llm, json: JsonDecoder)
    returns (r: Result<Verdict>)
    ensures r.Err? <==> ForbiddenWords(wordsFile, fs).Err?
    ensures r.Ok? ==>
      var forbidden := ForbiddenWords(wordsFile, fs).value;
      (r.value.passed <==> InputPasses(requirements, description, forbidden, useLlm, llm, json))
      && (r.value.passed ==> r.value.message == VStr(""))
      && (!r.value.passed && !TextPasses(requirements, forbidden, useLlm, llm, json) ==>
            FailureMessage(requirements, r.value.message, forbidden, useLlm, llm, json))
      && (!r.value.passed && TextPasses(requirements, forbidden, useLlm, llm, json) ==>
            FailureMessage(description.value, r.value.message, forbidden, useLlm, llm, json))
  {
    var loaded := LoadForbiddenWords(wordsFile, fs);
    if loaded.Err? {
      return Err(loaded.error);
    }
    var forbidden := loaded.value;
    var v, _ := CheckText(requirements, forbidden, useLlm, llm, json);
    if !v.passed {
      return Ok(v);
    }
    if description.Some? && description.value != "" {
      var asked;
      v, asked := CheckText(description.value, forbidden, useLlm, llm, json);
      if !v.passed {
        return Ok(v);
      }
    }
    r := Ok(Verdict(true, VStr("")));
  }

  /** `check_output` passes: the copy passes, and so does every image prompt. */
  predicate OutputPasses(copy: string, prompts: seq<string>, forbidden: set<string>,
                         useLlm: bool, llm: Llm, json: JsonDecoder) {
    TextPasses(copy, forbidden, useLlm, llm, json)
    && forall k :: 0 <= k < |prompts| ==> TextPasses(prompts[k], forbidden, useLlm, llm, json)
  }

  /** Prompt `k` is the first that fails, and `msg` is its failure message. */
  predicate FirstFailure(list: seq<string>, k: int, msg: Value, forbidden: set<string>,
                         useLlm: bool, llm: Llm, json: JsonDecoder) {
    0 <= k < |list| && !TextPasses(list[k], forbidden, useLlm, llm, json)
    && (forall j :: 0 <= j < k ==> TextPasses(list[j], forbidden, useLlm, llm, json))
    && FailureMessage(list[k], msg, forbidden, useLlm, llm, json)
  }

  /** `check_output(copy, image_prompts, generated_images)`: the copy first, then each
      prompt in order; the first failure is returned. The generated images are not
      examined, and a missing prompt list counts as empty. */
  method CheckOutput(copy: string, prompts: Option<seq<string>>, images: Option<seq<seq<int>>>,
                     wordsFile: Option<string>, fs: FileSystem, useLlm: bool, llm: Llm, json: JsonDecoder)
    returns (r: Result<Verdict>)
    ensures r.Err? <==> ForbiddenWords(wordsFile, fs).Err?
    ensures r.Ok? ==>
      var forbidden := ForbiddenWords(wordsFile, fs).value;
      var list := if prompts.Some? then prompts.value else [];
      (r.value.passed <==> OutputPasses(copy, list, forbidden, useLlm, llm, json))
      && (r.value.passed ==> r.value.message == VStr(""))
      && (!r.value.passed && !TextPasses(copy, forbidden, useLlm, llm, json) ==>
            FailureMessage(copy, r.value.message, forbidden, useLlm, llm, json))
      && (!r.value.passed && TextPasses(copy, forbidden, useLlm, llm, json) ==>
            exists k :: FirstFailure(list, k, r.value.message, forbidden, useLlm, llm, json))
  {
    var loaded := LoadForbiddenWords(wordsFile, fs);
    if loaded.Err? {
      return Err(loaded.error);
    }
    var forbidden := loaded.value;
    var v, _ := CheckText(copy, forbidden, useLlm, llm, json);
    if !v.passed {
      return Ok(v);
    }
    var list := if prompts.Some? then prompts.value else [];
    v := CheckPrompts(list, forbidden, useLlm, llm, json);
    r := Ok(v);
  }

  /** The loop of `check_output` over the image prompts, stopping at the first failure. */
  method CheckPrompts(list: seq<string>, forbidden: set<string>, useLlm: bool, llm: Llm, json: JsonDecoder)
    returns (v: Verdict)
    ensures v.passed <==> forall k :: 0 <= k < |list| ==> TextPasses(list[k], forbidden, useLlm, llm, json)
    ensures v.passed ==> v.message == VStr("")
    ensures !v.passed ==> exists k :: FirstFailure(list, k, v.message, forbidden, useLlm, llm, json)
  {
    var i := 0;
    while i < |list|
      invariant 0 <= i <= |list|
      invariant forall j :: 0 <= j < i ==> TextPasses(list[j], forbidden, useLlm, llm, json)
    {
      var asked;
      v, asked := CheckText(list[i], forbidden, useLlm, llm, json);
      if !v.passed {
        assert FirstFailure(list, i, v.message, forbidden, useLlm, llm, json);
        return v;
      }
      i := i + 1;
    }
    v := Verdict(true, VStr(""));
  }

  /** With no forbidden words and the model disabled, every text passes. */
  lemma NothingConfiguredPasses(text: string, llm: Llm, json: JsonDecoder)
    ensures TextPasses(text, {}, false, llm, json)
  {
  }

  /** A text containing a forbidden word fails whatever the model would say. */
  lemma ForbiddenWordFails(text: string, w: string, forbidden: set<string>, useLlm: bool, llm: Llm, json: JsonDecoder)
    requires w in forbidden && text != "" && Contains(text, w)
    ensures !TextPasses(text, forbidden, useLlm, llm, json)
  {
  }
}

=== FILE: settings.dfy ===
/** The application settings of the promotional-copy service: the raw fields read from the
    environment, the paths derived from the configuration directory, the comma-separated
    extra skill directories, and the per-capability endpoint, model and key, each falling
    back to the main text model when unset or empty. */
module Settings {
  import opened Common
  import DeployConfig

  /** The settings fields; unset optional fields are None. */
  datatype Settings = Settings(
    llmMainBaseUrl: string,
    llmMainModel: string,
    llmMainModelApiKey: string,
    vlmTextGenBaseUrl: Option<string>,
    vlmTextGenModel: Option<string>,
    vlmTextGenModelApiKey: Option<string>,
    llmImageGenBaseUrl: Option<string>,
    llmImageGenModel: Option<string>,
    llmImageGenModelApiKey: Option<string>,
    forbiddenWordsFile: Option<string>,
    safetyUseLlm: bool,
    safetyLlmModel: Option<string>,
    skillsDirs: Option<string>,
    configDir: string,
    logLevel: string,
    maxConcurrentJobs: int)

  /** The field defaults used when the environment sets nothing. */
  const DEFAULTS: Settings := Settings(
    "http://localhost:8000/v1", "Qwen/Qwen2.5-7B", "not-needed",
    None, None, None,
    None, None, None,
    None, true, None,
    None, "config",
    "INFO", 10)

  /** A POSIX `pathlib` path: its root (`""`, `/`, or exactly `//`, which POSIX lets an
      implementation keep) and its parts. */
  datatype PurePath = PurePath(root: string, parts: seq<string>)

  /** What parsing can produce: no empty, `.` or slash-holding part. */
  predicate Normal(p: PurePath) {
    (p.root == "" || p.root == "/" || p.root == "//")
    && forall k :: 0 <= k < |p.parts| ==> p.parts[k] != "" && p.parts[k] != "." && '/' !in p.parts[k]
  }

  /** The root of a path string: two leading slashes are kept, one or three and more
      collapse to one. */
  function RootOf(s: string): (r: string)
    ensures r == "" <==> (|s| == 0 || s[0] != '/')
  {
    if |s| >= 1 && s[0] == '/' then
      if |s| >= 2 && s[1] == '/' && (|s| == 2 || s[2] != '/') then "//" else "/"
    else ""
  }

  /** The pieces between slashes, without the empty and `.` ones. */
  function DropEmptyAndDot(pieces: seq<string>): (r: seq<string>)
    ensures forall k :: 0 <= k < |r| ==> r[k] in pieces && r[k] != "" && r[k] != "."
  {
    if |pieces| == 0 then []
    else if pieces[0] == "" || pieces[0] == "." then DropEmptyAndDot(pieces[1..])
    else [pieces[0]] + DropEmptyAndDot(pieces[1..])
  }

  /** `PurePosixPath(s)`. */
  function ParsePath(s: string): (p: PurePath)
    ensures Normal(p)
    ensures p.root != "" <==> |s| > 0 && s[0] == '/'
  {
    PurePath(RootOf(s), DropEmptyAndDot(Split(s, '/')))
  }

  /** `str(p)`: `.` for the empty relative path. */
  function PathText(p: PurePath): string {
    if p.root == "" && p.parts == [] then "." else p.root + Join(p.parts, "/")
  }

  /** `a / b`: an absolute right side replaces the left; otherwise the parts are
      concatenated under the left side's root. */
  function JoinPath(a: PurePath, b: PurePath): (p: PurePath)
    ensures Normal(a) && Normal(b) ==> Normal(p)
    ensures b.root != "" ==> p == b
    ensures b.root == "" ==>
      p.root == a.root && |p.parts| == |a.parts| + |b.parts|
      && p.parts[..|a.parts|] == a.parts && p.parts[|a.parts|..] == b.parts
  {
    if b.root != "" then b else PurePath(a.root, a.parts + b.parts)
  }

  /** `posixpath.join(a, b)` on the text of two paths. */
  function JoinText(a: string, b: string): string {
    if |b| > 0 && b[0] == '/' then b
    else if a == "" || a[|a| - 1] == '/' then a + b
    else a + "/" + b
  }

  lemma {:induction false} SplitAround(x: string, y: string)
    ensures Split(x + "/" + y, '/') == Split(x, '/') + Split(y, '/')
    decreases |x|
  {
    var s := x + "/" + y;
    if |x| == 0 {
      assert s[0] == '/' && s[1..] == y;
      assert Split(s, '/') == [""] + Split(y, '/');
    } else {
      assert s[1..] == x[1..] + "/" + y;
      SplitAround(x[1..], y);
      if x[0] == '/' {
        SplitFirstSeparator(s, x, Split(x[1..], '/'), Split(y, '/'));
      } else {
        SplitFirstChar(s, x, Split(x[1..], '/'), Split(y, '/'));
      }
    }
  }

  /** One step of `SplitAround`: a leading slash starts a new piece. */
  lemma SplitFirstSeparator(s: string, x: string, rest: seq<string>, tail: seq<string>)
    requires |x| > 0 && |s| > 0 && s[0] == x[0] == '/'
    requires rest == Split(x[1..], '/') && Split(s[1..], '/') == rest + tail
    ensures Split(s, '/') == Split(x, '/') + tail
  {
    ConsSeparator(s, rest + tail);
    ConsSeparator(x, rest);
    HeadThenAppend(Split(s, '/'), Split(x, '/'), "", rest, tail);
  }

  lemma HeadThenAppend(a: seq<string>, b: seq<string>, h: string, rest: seq<string>, tail: seq<string>)
    requires a == [h] + (rest + tail) && b == [h] + rest
    ensures a == b + tail
  {
  }

  /** One step of `SplitAround`: any other character joins the first piece of the rest. */
  lemma SplitFirstChar(s: string, x: string, rest: seq<string>, tail: seq<string>)
    requires |x| > 0 && |s| > 0 && s[0] == x[0] && x[0] != '/'
    requires rest == Split(x[1..], '/') && Split(s[1..], '/') == rest + tail
    ensures Split(s, '/') == Split(x, '/') + tail
  {
    ConsChar(s, rest + tail);
    ConsChar(x, rest);
    MergedHeadThenAppend(Split(s, '/'), Split(x, '/'), [x[0]], rest, tail);
  }

  lemma MergedHeadThenAppend(a: seq<string>, b: seq<string>, c: string, rest: seq<string>, tail: seq<string>)
    requires |rest| >= 1
    requires a == [c + (rest + tail)[0]] + (rest + tail)[1..] && b == [c + rest[0]] + rest[1..]
    ensures a == b + tail
  {
    assert (rest + tail)[0] == rest[0];
    assert (rest + tail)[1..] == rest[1..] + tail;
  }

  lemma ConsSeparator(s: string, r: seq<string>)
    requires |s| > 0 && s[0] == '/' && Split(s[1..], '/') == r
    ensures Split(s, '/') == [""] + r
  {
  }

  lemma ConsChar(s: string, r: seq<string>)
    requires |s| > 0 && s[0] != '/' && Split(s[1..], '/') == r
    ensures |r| >= 1 && Split(s, '/') == [[s[0]] + r[0]] + r[1..]
  {
  }

  lemma {:induction false} DropConcat(xs: seq<string>, ys: seq<string>)
    ensures DropEmptyAndDot(xs + ys) == DropEmptyAndDot(xs) + DropEmptyAndDot(ys)
  {
    if |xs| > 0 {
      assert (xs + ys)[1..] == xs[1..] + ys;
      DropConcat(xs[1..], ys);
    } else {
      assert xs + ys == ys;
    }
  }

  lemma {:induction false} DropOfNormalParts(parts: seq<string>)
    requires forall k :: 0 <= k < |parts| ==> parts[k] != "" && parts[k] != "."
    ensures DropEmptyAndDot(parts) == parts
  {
    if |parts| > 0 {
      DropOfNormalParts(parts[1..]);
      assert [parts[0]] + parts[1..] == parts;
    }
  }

  /** Appending to a path text that does not end in a slash, or a non-slash text to one
      that does, keeps its root. */
  lemma RootOfExtended(a: string, rest: string)
    requires |a| > 0
    requires a[|a| - 1] != '/' || rest == "" || rest[0] != '/'
    ensures RootOf(a + rest) == RootOf(a)
  {
    var s := a + rest;
    assert forall k :: 0 <= k < |a| ==> s[k] == a[k];
    assert |a| < |s| ==> s[|a|] == rest[0];
  }

  /** The parts of a joined text are the parts of both sides. */
  lemma JoinTextParts(a: string, b: string)
    requires a != "" && (b == "" || b[0] != '/')
    ensures DropEmptyAndDot(Split(JoinText(a, b), '/'))
      == DropEmptyAndDot(Split(a, '/')) + DropEmptyAndDot(Split(b, '/'))
  {
    if a[|a| - 1] == '/' {
      var a0 := a[..|a| - 1];
      assert a == a0 + "/" + "";
      SplitAround(a0, "");
      assert JoinText(a, b) == a0 + "/" + b;
      SplitAround(a0, b);
      DropConcat(Split(a0, '/'), [""]);
      DropConcat(Split(a0, '/'), Split(b, '/'));
    } else {
      SplitAround(a, b);
      DropConcat(Split(a, '/'), Split(b, '/'));
    }
  }

  /** A joined text keeps the root of its left side. */
  lemma JoinTextRoot(a: string, b: string)
    requires a != "" && (b == "" || b[0] != '/')
    ensures RootOf(JoinText(a, b)) == RootOf(a)
  {
    if a[|a| - 1] == '/' {
      RootOfExtended(a, b);
    } else {
      assert a + "/" + b == a + ("/" + b);
      RootOfExtended(a, "/" + b);
    }
  }

  /** The path algebra agrees with `posixpath.join` on the texts: joining the parsed
      paths is parsing the joined text. */
  lemma JoinMatchesText(a: string, b: string)
    ensures JoinPath(ParsePath(a), ParsePath(b)) == ParsePath(JoinText(a, b))
  {
    if |b| > 0 && b[0] == '/' {
    } else if a == "" {
      assert JoinText(a, b) == b;
      assert DropEmptyAndDot(Split(a, '/')) == [];
    } else {
      JoinTextParts(a, b);
      JoinTextRoot(a, b);
    }
  }

  /** Parsing the text of a normal path gives the path back. */
  lemma ParseOfText(p: PurePath)
    requires Normal(p)
    ensures ParsePath(PathText(p)) == p
  {
    if p.parts == [] {
      RootsOnly(p.root);
    } else {
      ParseOfPartsText(p);
    }
  }

  lemma RootsOnly(root: string)
    requires root == "" || root == "/" || root == "//"
    ensures ParsePath(PathText(PurePath(root, []))) == PurePath(root, [])
  {
    assert Join([], "/") == "";
    assert root != "" ==> PathText(PurePath(root, [])) == root;
    assert Split("", '/') == [""];
    if root == "" {
      assert "."[1..] == "" && "."[0] == '.';
      assert ['.'] + "" == ".";
      assert Split(".", '/') == [['.'] + ""] + [""][1..];
      assert DropEmptyAndDot(["."]) == DropEmptyAndDot([]);
    } else if root == "/" {
      assert "/"[1..] == "";
      assert Split("/", '/') == ["", ""];
      assert DropEmptyAndDot(["", ""]) == DropEmptyAndDot([""]) == [];
    } else {
      assert "//"[1..] == "/" && "/"[1..] == "";
      assert Split("/", '/') == ["", ""];
      assert Split("//", '/') == ["", "", ""];
      assert RootOf("//") == "//";
      assert DropEmptyAndDot(["", "", ""]) == DropEmptyAndDot(["", ""]) == DropEmptyAndDot([""]) == [];
    }
  }

  lemma ParseOfPartsText(p: PurePath)
    requires Normal(p) && p.parts != []
    ensures ParsePath(PathText(p)) == p
  {
    var j := Join(p.parts, "/");
    assert "/" == ['/'];
    SplitJoin(p.parts, '/');
    DropOfNormalParts(p.parts);
    assert j[0] == p.parts[0][0];
    var s := p.root + j;
    assert PathText(p) == s;
    if p.root == "/" {
      assert s[1..] == j;
      assert Split(s, '/') == [""] + p.parts;
      assert [""] + p.parts == [""] + p.parts[..];
    } else if p.root == "//" {
      assert s[1..] == "/" + j && s[1..][1..] == j;
      assert s[2] == j[0];
      assert Split(s, '/') == [""] + ([""] + p.parts);
    } else {
      assert s == j;
    }
    assert DropEmptyAndDot([""] + p.parts) == DropEmptyAndDot(p.parts);
    assert DropEmptyAndDot([""] + ([""] + p.parts)) == DropEmptyAndDot([""] + p.parts);
  }

  /** `Path.cwd() / config_dir`. */
  function ConfigPath(s: Settings, cwd: string): PurePath {
    JoinPath(ParsePath(cwd), ParsePath(s.configDir))
  }

  function StageContextsPath(s: Settings, cwd: string): PurePath {
    JoinPath(ConfigPath(s, cwd), ParsePath("stage_contexts.yaml"))
  }

  function McpServersPath(s: Settings, cwd: string): PurePath {
    JoinPath(ConfigPath(s, cwd), ParsePath("mcp_servers.yaml"))
  }

  /** A plain file name joined onto a directory becomes its last part. */
  lemma JoinFileName(dir: PurePath, name: string)
    requires name != "" && name != "." && '/' !in name
    ensures JoinPath(dir, ParsePath(name)) == PurePath(dir.root, dir.parts + [name])
  {
    assert Join([name], "/") == name;
    assert "/" == ['/'];
    SplitJoin([name], '/');
    DropOfNormalParts([name]);
    assert ParsePath(name) == PurePath("", [name]);
  }

  /** Both files sit directly in the configuration directory, under fixed names. */
  lemma ConfigFilePaths(s: Settings, cwd: string)
    ensures StageContextsPath(s, cwd) == PurePath(ConfigPath(s, cwd).root, ConfigPath(s, cwd).parts + ["stage_contexts.yaml"])
    ensures McpServersPath(s, cwd) == PurePath(ConfigPath(s, cwd).root, ConfigPath(s, cwd).parts + ["mcp_servers.yaml"])
    ensures StageContextsPath(s, cwd) != McpServersPath(s, cwd)
  {
    StageContextsInConfigDir(s, cwd);
    McpServersInConfigDir(s, cwd);
    LastPartsDiffer(ConfigPath(s, cwd), "stage_contexts.yaml", "mcp_servers.yaml");
  }

  lemma StageContextsInConfigDir(s: Settings, cwd: string)
    ensures StageContextsPath(s, cwd) == PurePath(ConfigPath(s, cwd).root, ConfigPath(s, cwd).parts + ["stage_contexts.yaml"])
  {
    JoinFileName(ConfigPath(s, cwd), "stage_contexts.yaml");
  }

  lemma McpServersInConfigDir(s: Settings, cwd: string)
    ensures McpServersPath(s, cwd) == PurePath(ConfigPath(s, cwd).root, ConfigPath(s, cwd).parts + ["mcp_servers.yaml"])
  {
    JoinFileName(ConfigPath(s, cwd), "mcp_servers.yaml");
  }

  lemma LastPartsDiffer(c: PurePath, x: string, y: string)
    requires x != y
    ensures PurePath(c.root, c.parts + [x]) != PurePath(c.root, c.parts + [y])
  {
    assert (c.parts + [x])[|c.parts|] == x;
  }

  /** An absolute `config_dir` is used as it is, whatever the working directory; a
      relative one is placed under it. */
  lemma ConfigDirAbsoluteOrRelative(s: Settings, cwd: string)
    ensures ConfigPath(s, cwd) == ParsePath(JoinText(cwd, s.configDir))
    ensures |s.configDir| > 0 && s.configDir[0] == '/' ==> ConfigPath(s, cwd) == ParsePath(s.configDir)
    ensures (|s.configDir| == 0 || s.configDir[0] != '/') ==>
      ConfigPath(s, cwd) == PurePath(ParsePath(cwd).root, ParsePath(cwd).parts + ParsePath(s.configDir).parts)
  {
    JoinMatchesText(cwd, s.configDir);
  }

  /** An absolute `config_dir` places the servers file in that directory, whatever the
      working directory. */
  lemma AbsoluteConfigDirIgnoresCwd(s: Settings, cwd1: string, cwd2: string)
    requires |s.configDir| > 0 && s.configDir[0] == '/'
    ensures McpServersPath(s, cwd1) == McpServersPath(s, cwd2)
      == PurePath(ParsePath(s.configDir).root, ParsePath(s.configDir).parts + ["mcp_servers.yaml"])
  {
    ConfigDirAbsoluteOrRelative(s, cwd1);
    ConfigDirAbsoluteOrRelative(s, cwd2);
    McpServersInConfigDir(s, cwd1);
    McpServersInConfigDir(s, cwd2);
  }

  /** `Path("/etc/app")` is the root with two parts. */
  lemma EtcAppParses(text: string)
    requires text == "/etc/app"
    ensures |text| > 0 && text[0] == '/'
    ensures ParsePath(text) == PurePath("/", ["etc", "app"])
  {
    var etc := PurePath("/", ["etc", "app"]);
    assert Join(etc.parts, "/") == "etc/app";
    assert PathText(etc) == text;
    ParseOfText(etc);
  }

  /** The stripped, non-blank pieces, in order. */
  function NonBlankStripped(pieces: seq<string>): (r: seq<string>)
    ensures |r| <= |pieces|
    ensures forall k :: 0 <= k < |r| ==> r[k] != "" && Strip(r[k]) == r[k]
  {
    if |pieces| == 0 then []
    else
      var p := Strip(pieces[0]);
      if p == "" then NonBlankStripped(pieces[1..])
      else
        StripOfStripped(p);
        [p] + NonBlankStripped(pieces[1..])
  }

  /** `extra_skills_dirs`: nothing when unset or empty, otherwise a path for each of the
      comma-separated pieces, stripped, with blank pieces dropped. */
  function ExtraSkillsDirs(s: Settings): (dirs: seq<PurePath>)
    ensures s.skillsDirs.None? || s.skillsDirs.value == "" ==> dirs == []
    ensures forall k :: 0 <= k < |dirs| ==> Normal(dirs[k])
  {
    if s.skillsDirs.None? || s.skillsDirs.value == "" then []
    else
      ParsedAll(NonBlankStripped(Split(s.skillsDirs.value, ',')))
  }

  /** `[Path(p) for p in pieces]`. */
  function ParsedAll(pieces: seq<string>): (r: seq<PurePath>)
    ensures |r| == |pieces|
    ensures forall k :: 0 <= k < |r| ==> r[k] == ParsePath(pieces[k])
  {
    seq(|pieces|, k requires 0 <= k < |pieces| => ParsePath(pieces[k]))
  }

  /** A path is listed exactly when some non-blank piece, stripped, parses to it. */
  lemma ExtraSkillsDirsMembers(s: Settings, d: PurePath)
    requires s.skillsDirs.Some? && s.skillsDirs.value != ""
    ensures d in ExtraSkillsDirs(s) <==>
      exists p :: p in Split(s.skillsDirs.value, ',') && Strip(p) != "" && ParsePath(Strip(p)) == d
  {
    var raw := Split(s.skillsDirs.value, ',');
    if d in ExtraSkillsDirs(s) {
      ListedFromPiece(raw, d);
    }
    if exists p :: p in raw && Strip(p) != "" && ParsePath(Strip(p)) == d {
      var p :| p in raw && Strip(p) != "" && ParsePath(Strip(p)) == d;
      PieceListed(raw, p);
    }
  }

  lemma ListedFromPiece(raw: seq<string>, d: PurePath)
    requires d in ParsedAll(NonBlankStripped(raw))
    ensures exists p :: p in raw && Strip(p) != "" && ParsePath(Strip(p)) == d
  {
    var pieces := NonBlankStripped(raw);
    var k :| 0 <= k < |pieces| && ParsePath(pieces[k]) == d;
    NonBlankStrippedMembers(raw, pieces[k]);
    var j :| 0 <= j < |raw| && Strip(raw[j]) == pieces[k];
    assert raw[j] in raw;
  }

  lemma PieceListed(raw: seq<string>, p: string)
    requires p in raw && Strip(p) != ""
    ensures ParsePath(Strip(p)) in ParsedAll(NonBlankStripped(raw))
  {
    var pieces := NonBlankStripped(raw);
    var j :| 0 <= j < |raw| && raw[j] == p;
    NonBlankStrippedMembers(raw, Strip(p));
    var k :| 0 <= k < |pieces| && pieces[k] == Strip(p);
    assert ParsedAll(pieces)[k] == ParsePath(Strip(p));
  }

  /** A directory is listed exactly when some piece strips to it. */
  lemma {:induction false} NonBlankStrippedMembers(pieces: seq<string>, d: string)
    ensures d in NonBlankStripped(pieces) <==> d != "" && exists k :: 0 <= k < |pieces| && Strip(pieces[k]) == d
  {
    if |pieces| > 0 {
      NonBlankStrippedMembers(pieces[1..], d);
      if exists k :: 0 <= k < |pieces[1..]| && Strip(pieces[1..][k]) == d {
        var k :| 0 <= k < |pieces[1..]| && Strip(pieces[1..][k]) == d;
        assert Strip(pieces[k + 1]) == d;
      }
      if exists k :: 0 <= k < |pieces| && Strip(pieces[k]) == d {
        var k :| 0 <= k < |pieces| && Strip(pieces[k]) == d;
        if k > 0 {
          assert Strip(pieces[1..][k - 1]) == d;
        }
      }
    }
  }

  /** Pieces that are already stripped and non-blank are kept as they are. */
  lemma {:induction false} NonBlankStrippedOfClean(pieces: seq<string>)
    requires forall k :: 0 <= k < |pieces| ==> pieces[k] != "" && Strip(pieces[k]) == pieces[k]
    ensures NonBlankStripped(pieces) == pieces
  {
    if |pieces| > 0 {
      NonBlankStrippedOfClean(pieces[1..]);
      assert [pieces[0]] + pieces[1..] == pieces;
    }
  }

  /** Joining clean directory names with commas and reading them back gives their paths,
      in order. */
  lemma ExtraSkillsDirsOfJoin(s: Settings, dirs: seq<string>)
    requires |dirs| >= 1
    requires forall k :: 0 <= k < |dirs| ==> dirs[k] != "" && Strip(dirs[k]) == dirs[k] && ',' !in dirs[k]
    requires s.skillsDirs == Some(Join(dirs, ","))
    ensures |ExtraSkillsDirs(s)| == |dirs|
    ensures forall k :: 0 <= k < |dirs| ==> ExtraSkillsDirs(s)[k] == ParsePath(dirs[k])
  {
    assert dirs[0] != "";
    if |dirs| > 1 {
      assert Join(dirs, ",") == dirs[0] + "," + Join(dirs[1..], ",");
    }
    assert Join(dirs, ",") != "";
    SplitJoin(dirs, ',');
    NonBlankStrippedOfClean(dirs);
  }

  /** The main text model's endpoint, model and key are the raw fields. */
  function MainModelUrl(s: Settings): string { s.llmMainBaseUrl }
  function MainModel(s: Settings): string { s.llmMainModel }
  function MainModelApiKey(s: Settings): string { s.llmMainModelApiKey }

  function VlmTextGenUrl(s: Settings): string { OrStr(s.vlmTextGenBaseUrl, s.llmMainBaseUrl) }
  function VlmTextGenResolvedModel(s: Settings): string { OrStr(s.vlmTextGenModel, s.llmMainModel) }
  function VlmTextGenResolvedApiKey(s: Settings): string { OrStr(s.vlmTextGenModelApiKey, s.llmMainModelApiKey) }

  function ImageGenUrl(s: Settings): string { OrStr(s.llmImageGenBaseUrl, s.llmMainBaseUrl) }
  function ImageGenModel(s: Settings): string { OrStr(s.llmImageGenModel, s.llmMainModel) }
  function ImageGenApiKey(s: Settings): string { OrStr(s.llmImageGenModelApiKey, s.llmMainModelApiKey) }

  predicate Given(v: Option<string>) {
    v.Some? && v.value != ""
  }

  /** Each vision and image-generation setting is its own field when that is set and
      non-empty, and the main model's field otherwise. */
  lemma ResolvedFallbacks(s: Settings)
    ensures VlmTextGenUrl(s) == if Given(s.vlmTextGenBaseUrl) then s.vlmTextGenBaseUrl.value else MainModelUrl(s)
    ensures VlmTextGenResolvedModel(s) == if Given(s.vlmTextGenModel) then s.vlmTextGenModel.value else MainModel(s)
    ensures VlmTextGenResolvedApiKey(s) == if Given(s.vlmTextGenModelApiKey) then s.vlmTextGenModelApiKey.value else MainModelApiKey(s)
    ensures ImageGenUrl(s) == if Given(s.llmImageGenBaseUrl) then s.llmImageGenBaseUrl.value else MainModelUrl(s)
    ensures ImageGenModel(s) == if Given(s.llmImageGenModel) then s.llmImageGenModel.value else MainModel(s)
    ensures ImageGenApiKey(s) == if Given(s.llmImageGenModelApiKey) then s.llmImageGenModelApiKey.value else MainModelApiKey(s)
  {
  }

  /** With nothing set, every resolved setting is the main model's. */
  lemma DefaultsResolveToMain()
    ensures VlmTextGenUrl(DEFAULTS) == ImageGenUrl(DEFAULTS) == "http://localhost:8000/v1"
    ensures VlmTextGenResolvedModel(DEFAULTS) == ImageGenModel(DEFAULTS) == "Qwen/Qwen2.5-7B"
    ensures VlmTextGenResolvedApiKey(DEFAULTS) == ImageGenApiKey(DEFAULTS) == "not-needed"
    ensures !ImageGenEnabled(DEFAULTS)
  {
  }

  /** `image_gen_enabled`: the image-generation base URL or model is a non-empty string. */
  function ImageGenEnabled(s: Settings): (enabled: bool)
    ensures enabled <==> Given(s.llmImageGenBaseUrl) || Given(s.llmImageGenModel)
  {
    OptTruthy(s.llmImageGenBaseUrl) || OptTruthy(s.llmImageGenModel)
  }

  /** `bool(v)` of an optional string. */
  predicate OptTruthy(v: Option<string>) {
    match v
    case None => false
    case Some(t) => |t| > 0
  }

  /** When image generation is disabled, its endpoint and model are the main model's. */
  lemma DisabledImageGenUsesMain(s: Settings)
    requires !ImageGenEnabled(s)
    ensures ImageGenUrl(s) == MainModelUrl(s) && ImageGenModel(s) == MainModel(s)
  {
  }

  /** `image_gen_size`: `default_size` of the `agent` section of the image-generation
      configuration, else `1024x1024`; the same default when that configuration module
      cannot be imported. */
  function ImageGenSize(importable: bool, imageGen: Doc): (r: Result<Value>)
    ensures !importable ==> r == Ok(VStr("1024x1024"))
    ensures importable && "agent" !in imageGen ==> r == Ok(VStr("1024x1024"))
    ensures importable && "agent" in imageGen && imageGen["agent"].VDict? ==>
      r == Ok(Get(imageGen["agent"].entries, "default_size", VStr("1024x1024")))
  {
    if !importable then Ok(VStr("1024x1024"))
    else
      var agent := DeployConfig.Section(imageGen, "agent");
      if agent.Err? then Err(agent.error)
      else Ok(Get(agent.value, "default_size", VStr("1024x1024")))
  }
}

=== FILE: skills_loader.dfy ===
/** Loading skills from Markdown files: the YAML frontmatter block at the top of a file,
    the defaults for missing metadata, and the loops that collect skills from files and
    directory trees and register them. */
module SkillsLoader {
  import opened Common
  import opened SkillsRegistry

  // ---------------------------------------------------------------------------
  // The frontmatter pattern `^---\s*\n(.*?)\n---\s*\n` (DOTALL), matched at the start

  /** The end of the run of whitespace that starts at `i`. */
  function SpaceEnd(s: string, i: nat): (j: nat)
    requires i <= |s|
    ensures i <= j <= |s|
    ensures forall k :: i <= k < j ==> IsSpace(s[k])
    ensures j < |s| ==> !IsSpace(s[j])
    decreases |s| - i
  {
    if i < |s| && IsSpace(s[i]) then SpaceEnd(s, i + 1) else i
  }

  /** The last newline in `s[i..j]`, if any. */
  function LastNewline(s: string, i: nat, j: nat): (r: Option<nat>)
    requires i <= j <= |s|
    ensures r.Some? ==> i <= r.value < j && s[r.value] == '\n'
    ensures r.Some? ==> forall k :: r.value < k < j ==> s[k] != '\n'
    ensures r.None? ==> forall k :: i <= k < j ==> s[k] != '\n'
    decreases j - i
  {
    if i == j then None
    else if s[j - 1] == '\n' then Some(j - 1)
    else LastNewline(s, i, j - 1)
  }

  /** A closing delimiter can start at `e`: `\n---` followed by whitespace that holds a
      newline. */
  predicate IsClose(s: string, e: nat) {
    e + 4 <= |s| && s[e] == '\n' && s[e + 1] == '-' && s[e + 2] == '-' && s[e + 3] == '-'
    && LastNewline(s, e + 4, SpaceEnd(s, e + 4)).Some?
  }

  /** Where a match closed at `e` ends: greedy `\s*` stops after the run's last newline. */
  function CloseEnd(s: string, e: nat): (n: nat)
    requires IsClose(s, e)
    ensures e + 4 < n <= |s| && s[n - 1] == '\n'
  {
    LastNewline(s, e + 4, SpaceEnd(s, e + 4)).value + 1
  }

  /** The lazy group: the first closing delimiter at or after `i`. */
  function FirstClose(s: string, i: nat): (r: Option<nat>)
    requires i <= |s|
    ensures r.Some? ==> i <= r.value && IsClose(s, r.value)
    ensures r.Some? ==> forall e :: i <= e < r.value ==> !IsClose(s, e)
    ensures r.None? ==> forall e :: i <= e ==> !IsClose(s, e)
    decreases |s| - i
  {
    if i == |s| then None
    else if IsClose(s, i) then Some(i)
    else FirstClose(s, i + 1)
  }

  /** A match: the group is `s[groupStart..groupEnd]`, the match ends at `end`. */
  datatype Match = Match(groupStart: nat, groupEnd: nat, end: nat)

  predicate WellFormed(s: string, m: Match) {
    3 < m.groupStart <= m.groupEnd && m.groupEnd + 4 < m.end <= |s|
    && s[m.groupStart - 1] == '\n' && IsClose(s, m.groupEnd) && m.end == CloseEnd(s, m.groupEnd)
  }

  /** The opening `\s*\n` tries its newlines from the last one in the whitespace run back
      to the first (greedy, then backtracking); the first that admits a closing delimiter
      wins. Openings are tried at the positions below `k`. */
  function TryOpen(s: string, k: nat): (r: Option<Match>)
    requires 3 <= k <= |s|
    ensures r.Some? ==> WellFormed(s, r.value) && r.value.groupStart <= k
    decreases k
  {
    if k == 3 then None
    else if s[k - 1] == '\n' then
      var close := FirstClose(s, k);
      if close.Some? then Some(Match(k, close.value, CloseEnd(s, close.value)))
      else TryOpen(s, k - 1)
    else TryOpen(s, k - 1)
  }

  /** `FRONTMATTER_PATTERN.match(content)`. */
  function FrontmatterMatch(s: string): (r: Option<Match>)
    ensures r.Some? ==> StartsWith(s, "---") && WellFormed(s, r.value)
    ensures r.Some? ==> forall k :: 3 <= k < r.value.groupStart ==> IsSpace(s[k])
  {
    if |s| >= 3 && s[0] == '-' && s[1] == '-' && s[2] == '-' then
      assert s[..3] == "---";
      TryOpen(s, SpaceEnd(s, 3))
    else None
  }

  /** The result of `_parse_frontmatter`. */
  datatype Frontmatter = Frontmatter(meta: Value, body: string)

  /** `yaml.safe_load` on the frontmatter block: the document, or the exception it raised. */
  type YamlLoader = string -> Result<Value>

  /** `_parse_frontmatter(content)`: without a match, empty metadata and the content
      unchanged; with one, the parsed block (`{}` when it is empty, false-like or fails to
      parse) and the stripped text after the closing delimiter. */
  function ParseFrontmatter(content: string, yaml: YamlLoader): (r: Frontmatter)
    ensures !StartsWith(content, "---") ==> r == Frontmatter(VDict(map[]), content)
    ensures FrontmatterMatch(content).None? ==> r == Frontmatter(VDict(map[]), content)
    ensures FrontmatterMatch(content).Some? ==>
      var m := FrontmatterMatch(content).value;
      var parsed := yaml(content[m.groupStart..m.groupEnd]);
      r.body == Strip(content[m.end..])
      && (parsed.Err? || !Truthy(parsed.value) ==> r.meta == VDict(map[]))
      && (parsed.Ok? && Truthy(parsed.value) ==> r.meta == parsed.value)
  {
    var m := FrontmatterMatch(content);
    if m.None? then Frontmatter(VDict(map[]), content)
    else
      var parsed := yaml(content[m.value.groupStart..m.value.groupEnd]);
      var meta := if parsed.Err? then VDict(map[]) else Or(parsed.value, VDict(map[]));
      Frontmatter(meta, Strip(content[m.value.end..]))
  }

  /** No `\n---` line start inside the metadata text. */
  predicate NoDelimiterIn(meta: string) {
    forall i :: 0 <= i && i + 4 <= |meta| && meta[i] == '\n' ==>
      !(meta[i + 1] == '-' && meta[i + 2] == '-' && meta[i + 3] == '-')
  }

  /** A file written as `---`, newline, the metadata, newline, `---`, newline, the body is
      split back into exactly that metadata and body. */
  lemma FrontmatterOfBlock(meta: string, body: string)
    requires meta != "" && !IsSpace(meta[0]) && NoDelimiterIn(meta)
    requires body == "" || !IsSpace(body[0])
    ensures var content := "---\n" + meta + "\n---\n" + body;
      FrontmatterMatch(content) == Some(Match(4, 4 + |meta|, 9 + |meta|))
      && content[4..4 + |meta|] == meta && content[9 + |meta|..] == body
  {
    var content := "---\n" + meta + "\n---\n" + body;
    var e := 4 + |meta|;
    BlockLayout(meta, body, content);
    assert SpaceEnd(content, 4) == 4;
    assert SpaceEnd(content, 3) == 4;
    CloseAfterBlock(content, e);
    forall i | 4 <= i < e ensures !IsClose(content, i) {
      NoCloseInMeta(meta, content, i);
    }
    FirstCloseAt(content, 4, e);
    assert TryOpen(content, 4) == Some(Match(4, e, e + 5));
  }

  /** Where the pieces of a frontmatter block sit. */
  lemma BlockLayout(meta: string, body: string, content: string)
    requires content == "---\n" + meta + "\n---\n" + body
    ensures |content| == 9 + |meta| + |body|
    ensures content[0] == '-' && content[1] == '-' && content[2] == '-' && content[3] == '\n'
    ensures forall k :: 4 <= k < 4 + |meta| ==> content[k] == meta[k - 4]
    ensures content[4..4 + |meta|] == meta
    ensures content[4 + |meta|] == '\n' && content[5 + |meta|] == '-' && content[6 + |meta|] == '-'
    ensures content[7 + |meta|] == '-' && content[8 + |meta|] == '\n'
    ensures content[9 + |meta|..] == body
  {
  }

  /** The delimiter line after the metadata closes the block, and the match ends right
      after its newline when the body does not start with whitespace. */
  lemma CloseAfterBlock(content: string, e: nat)
    requires e + 5 <= |content|
    requires content[e] == '\n' && content[e + 1] == '-' && content[e + 2] == '-' && content[e + 3] == '-'
    requires content[e + 4] == '\n'
    requires e + 5 < |content| ==> !IsSpace(content[e + 5])
    ensures IsClose(content, e) && CloseEnd(content, e) == e + 5
  {
    assert SpaceEnd(content, e + 5) == e + 5;
    assert SpaceEnd(content, e + 4) == e + 5;
  }

  /** No closing delimiter starts inside the metadata. */
  lemma NoCloseInMeta(meta: string, content: string, i: nat)
    requires NoDelimiterIn(meta)
    requires |content| >= 5 + |meta| && content[4 + |meta|] == '\n'
    requires forall k :: 4 <= k < 4 + |meta| ==> content[k] == meta[k - 4]
    requires 4 <= i < 4 + |meta|
    ensures !IsClose(content, i)
  {
  }

  lemma {:induction false} FirstCloseAt(s: string, i: nat, e: nat)
    requires i <= e <= |s| && IsClose(s, e)
    requires forall k :: i <= k < e ==> !IsClose(s, k)
    ensures FirstClose(s, i) == Some(e)
    decreases e - i
  {
    if i < e {
      FirstCloseAt(s, i + 1, e);
    }
  }

  // ---------------------------------------------------------------------------
  // Loading one file

  /** The last index of `c` in `s`, if any. */
  function LastIndexOf(s: string, c: char): (r: Option<nat>)
    ensures r.Some? ==> r.value < |s| && s[r.value] == c && c !in s[r.value + 1..]
    ensures r.None? ==> c !in s
  {
    if |s| == 0 then None
    else if s[|s| - 1] == c then Some(|s| - 1)
    else
      var r := LastIndexOf(s[..|s| - 1], c);
      assert s == s[..|s| - 1] + [s[|s| - 1]];
      r
  }

  /** `path.name`: the text after the last `/`. */
  function FileName(path: string): (n: string)
    ensures '/' !in n && EndsWith(path, n)
  {
    var slash := LastIndexOf(path, '/');
    if slash.None? then path else path[slash.value + 1..]
  }

  /** `path.stem`: the name without its suffix, a suffix being the text from the last dot
      when that dot is neither the first nor the last character of the name. */
  function Stem(path: string): (stem: string)
    ensures '/' !in stem
    ensures StartsWith(FileName(path), stem)
    ensures var name := FileName(path);
      |stem| < |name| ==> 0 < |stem| < |name| - 1 && name[|stem|] == '.' && '.' !in name[|stem| + 1..]
    ensures var name := FileName(path);
      |stem| == |name| ==> forall i :: 0 < i < |name| - 1 && name[i] == '.' ==> name[|name| - 1] == '.'
  {
    var name := FileName(path);
    var dot := LastIndexOf(name, '.');
    if dot.Some? && 0 < dot.value < |name| - 1 then name[..dot.value]
    else
      assert forall i :: 0 < i < |name| - 1 && name[i] == '.' ==> name[|name| - 1] == '.' by {
        if dot.Some? {
          NoCharAfter(name, '.', dot.value);
        }
      }
      name
  }

  /** Nothing after the last occurrence of `c` is a `c`. */
  lemma NoCharAfter(s: string, c: char, v: nat)
    requires v < |s| && c !in s[v + 1..]
    ensures forall i :: v < i < |s| ==> s[i] != c
  {
    assert forall i :: v < i < |s| ==> s[i] == s[v + 1..][i - v - 1];
  }

  /** A file name without a slash is the whole path. */
  lemma FileNameOfName(path: string)
    requires '/' !in path
    ensures FileName(path) == path
  {
  }

  /** A Markdown file loses its `.md`, and only the last suffix goes. */
  lemma StemDropsLastSuffix(a: string, d: string)
    requires a == "a.md" && d == "a.tar.gz"
    ensures Stem(a) == "a" && Stem(d) == "a.tar"
  {
    FileNameOfName(a);
    assert LastIndexOf(a, '.') == Some(1);
    FileNameOfName(d);
    assert LastIndexOf(d, '.') == Some(5);
  }

  /** A name whose only dot leads it or ends it keeps that dot. */
  lemma StemKeepsEdgeDot(b: string, c: string)
    requires b == ".hidden" && c == "a."
    ensures Stem(b) == b && Stem(c) == c
  {
    FileNameOfName(b);
    assert LastIndexOf(b, '.') == Some(0);
    FileNameOfName(c);
    assert LastIndexOf(c, '.') == Some(1);
  }

  /** The skill built from a file's metadata mapping: `id` defaults to the file stem,
      `name` to the id (both also when given but false-like), `stage` to `copy_write`,
      `description` to the empty string; the content is the body, or the whole text when
      the body is empty. */
  function SkillFromMeta(meta: Doc, stem: string, body: string, content: string): (r: Result<Skill>)
    ensures r.Ok? <==>
      (Get(meta, "stage", VStr("copy_write")).VStr? && StageNamed(Get(meta, "stage", VStr("copy_write")).s).Some?)
  {
    var id := Or(Get(meta, "id", VNone), VStr(stem));
    var name := Or(Get(meta, "name", VNone), id);
    var stage := Get(meta, "stage", VStr("copy_write"));
    var description := Get(meta, "description", VStr(""));
    MakeSkill(id, name, stage, description, if body != "" then body else content)
  }

  /** With empty metadata every default applies. */
  lemma MetaDefaults(stem: string, body: string, content: string)
    ensures SkillFromMeta(map[], stem, body, content)
      == Ok(Skill(VStr(stem), VStr(stem), CopyWrite, VStr(""), if body != "" then body else content))
  {
    assert StageNamed("copy_write") == Some(CopyWrite);
  }

  /** Given fields win over the defaults; a false-like id falls back to the stem. */
  lemma MetaGivenFields(meta: Doc, stem: string, body: string, content: string)
    requires "stage" in meta && meta["stage"].VStr? && StageNamed(meta["stage"].s).Some?
    ensures var r := SkillFromMeta(meta, stem, body, content);
      r.Ok? && VStr(StageName(r.value.stage)) == meta["stage"]
      && (Truthy(Get(meta, "id", VNone)) ==> r.value.id == meta["id"])
      && (!Truthy(Get(meta, "id", VNone)) ==> r.value.id == VStr(stem))
      && (Truthy(Get(meta, "name", VNone)) ==> r.value.name == meta["name"])
      && (!Truthy(Get(meta, "name", VNone)) ==> r.value.name == r.value.id)
      && r.value.description == Get(meta, "description", VStr(""))
  {
  }

  /** `load_skill_from_file(path)`: None for a missing path or one that is not a file;
      metadata that is not a mapping raises AttributeError at `meta.get`; an invalid
      stage raises ValueError. */
  function LoadSkillFromFile(fs: FileSystem, path: string, yaml: YamlLoader): (r: Result<Option<Skill>>)
    ensures path !in fs || !fs[path].File? ==> r == Ok(None)
    ensures r.Ok? && r.value.Some? ==> path in fs && fs[path].File?
  {
    if path !in fs || !fs[path].File? then Ok(None)
    else
      var content := fs[path].text;
      var fm := ParseFrontmatter(content, yaml);
      if !fm.meta.VDict? then Err("AttributeError")
      else
        var skill := SkillFromMeta(fm.meta.entries, Stem(path), fm.body, content);
        if skill.Err? then Err(skill.error) else Ok(Some(skill.value))
  }

  /** A file without frontmatter becomes a `copy_write` skill named after its stem whose
      content is the whole text. */
  lemma LoadPlainFile(fs: FileSystem, path: string, yaml: YamlLoader)
    requires path in fs && fs[path].File? && !StartsWith(fs[path].text, "---")
    ensures LoadSkillFromFile(fs, path, yaml)
      == Ok(Some(Skill(VStr(Stem(path)), VStr(Stem(path)), CopyWrite, VStr(""), fs[path].text)))
  {
    MetaDefaults(Stem(path), fs[path].text, fs[path].text);
  }

  // ---------------------------------------------------------------------------
  // Loading directories

  /** The `*.md` paths `rglob` yields under a directory, in the order it yields them. */
  type Listing = string -> seq<string>

  /** The skills of one `load_skill_from_file` result: none for None. */
  function Found(s: Option<Skill>): (r: seq<Skill>)
    ensures |r| <= 1
  {
    if s.Some? then [s.value] else []
  }

  /** `prefix + rest` when loading the rest succeeds. */
  function Concat(prefix: seq<Skill>, rest: Result<seq<Skill>>): (r: Result<seq<Skill>>)
    ensures r.Ok? <==> rest.Ok?
    ensures r.Ok? ==> r.value == prefix + rest.value
  {
    if rest.Err? then rest else Ok(prefix + rest.value)
  }

  lemma ConcatConcat(a: seq<Skill>, b: seq<Skill>, rest: Result<seq<Skill>>)
    ensures Concat(a, Concat(b, rest)) == Concat(a + b, rest)
  {
    if rest.Ok? {
      assert a + (b + rest.value) == a + b + rest.value;
    }
  }

  /** Loading one path, as the directory loaders call `load_skill_from_file`. */
  type FileLoader = string -> Result<Option<Skill>>

  function FileLoaderOf(fs: FileSystem, yaml: YamlLoader): FileLoader {
    path => LoadSkillFromFile(fs, path, yaml)
  }

  /** The skills `load` gives for `paths` in order, skipping the paths that give None; the
      first error stops the loading. */
  function LoadEach(paths: seq<string>, load: FileLoader): (r: Result<seq<Skill>>)
    ensures r.Ok? ==> |r.value| <= |paths|
  {
    if |paths| == 0 then Ok([])
    else
      var first := load(paths[0]);
      if first.Err? then Err(first.error)
      else Concat(Found(first.value), LoadEach(paths[1..], load))
  }

  /** The skills loaded from `paths` by `load_skill_from_file`. */
  function LoadAll(fs: FileSystem, paths: seq<string>, yaml: YamlLoader): (r: Result<seq<Skill>>)
    ensures r.Ok? ==> |r.value| <= |paths|
  {
    LoadEach(paths, FileLoaderOf(fs, yaml))
  }

  lemma {:induction false} LoadEachOk(paths: seq<string>, load: FileLoader)
    ensures LoadEach(paths, load).Ok? <==> forall p :: p in paths ==> load(p).Ok?
  {
    if |paths| > 0 {
      LoadEachOk(paths[1..], load);
      assert forall p :: p in paths <==> p == paths[0] || p in paths[1..];
    }
  }

  /** Loading succeeds exactly when every file loads. */
  lemma {:induction false} LoadAllOk(fs: FileSystem, paths: seq<string>, yaml: YamlLoader)
    ensures LoadAll(fs, paths, yaml).Ok? <==> forall p :: p in paths ==> LoadSkillFromFile(fs, p, yaml).Ok?
  {
    LoadEachOk(paths, FileLoaderOf(fs, yaml));
  }

  lemma {:induction false} LoadEachFrom(paths: seq<string>, load: FileLoader, k: nat) returns (p: string)
    requires LoadEach(paths, load).Ok? && k < |LoadEach(paths, load).value|
    ensures p in paths && load(p) == Ok(Some(LoadEach(paths, load).value[k]))
  {
    var loaded := LoadEach(paths, load);
    var first := load(paths[0]);
    var rest := LoadEach(paths[1..], load);
    var found := Found(first.value);
    assert loaded.value == found + rest.value;
    if k < |found| {
      p := paths[0];
    } else {
      p := LoadEachFrom(paths[1..], load, k - |found|);
      assert loaded.value[k] == rest.value[k - |found|];
      assert paths == [paths[0]] + paths[1..];
    }
  }

  /** Every loaded skill is what `load_skill_from_file` gives for one of the paths: the
      lemma names that path. */
  lemma {:induction false} LoadAllFrom(fs: FileSystem, paths: seq<string>, yaml: YamlLoader, k: nat) returns (p: string)
    requires LoadAll(fs, paths, yaml).Ok? && k < |LoadAll(fs, paths, yaml).value|
    ensures p in paths && LoadSkillFromFile(fs, p, yaml) == Ok(Some(LoadAll(fs, paths, yaml).value[k]))
  {
    p := LoadEachFrom(paths, FileLoaderOf(fs, yaml), k);
  }

  /** `load_skills_from_dir(dir)` on the paths `rglob` yields. */
  method LoadSkillsFromDir(fs: FileSystem, paths: seq<string>, yaml: YamlLoader) returns (r: Result<seq<Skill>>)
    ensures r == LoadAll(fs, paths, yaml)
  {
    var skills: seq<Skill> := [];
    var i := 0;
    assert paths[0..] == paths;
    assert Concat([], LoadAll(fs, paths, yaml)) == LoadAll(fs, paths, yaml) by {
      ConcatEmpty(LoadAll(fs, paths, yaml));
    }
    while i < |paths|
      invariant 0 <= i <= |paths|
      invariant LoadAll(fs, paths, yaml) == Concat(skills, LoadAll(fs, paths[i..], yaml))
    {
      var skill := LoadSkillFromFile(fs, paths[i], yaml);
      assert paths[i..][1..] == paths[i + 1..];
      if skill.Err? {
        return Err(skill.error);
      }
      ConcatConcat(skills, Found(skill.value), LoadAll(fs, paths[i + 1..], yaml));
      skills := skills + Found(skill.value);
      i := i + 1;
    }
    assert paths[i..] == [];
    ConcatEmpty(Ok(skills));
    r := Ok(skills);
  }

  lemma ConcatEmpty(rest: Result<seq<Skill>>)
    ensures Concat([], rest) == rest
    ensures rest.Ok? ==> Concat(rest.value, Ok([])) == rest
  {
    if rest.Ok? {
      assert [] + rest.value == rest.value;
      assert rest.value + [] == rest.value;
    }
  }

  /** What one entry of `dirs` contributes: nothing when it does not exist, the skill of a
      file, the skills under a directory. */
  function LoadEntry(fs: FileSystem, d: string, listing: Listing, yaml: YamlLoader): Result<seq<Skill>> {
    if d !in fs then Ok([])
    else if fs[d].File? then
      var s := LoadSkillFromFile(fs, d, yaml);
      if s.Err? then Err(s.error) else Ok(Found(s.value))
    else LoadAll(fs, listing(d), yaml)
  }

  /** The skills `load_skills_from_dirs(dirs)` collects, in order. */
  function LoadDirs(fs: FileSystem, dirs: seq<string>, listing: Listing, yaml: YamlLoader): Result<seq<Skill>> {
    if |dirs| == 0 then Ok([])
    else
      var first := LoadEntry(fs, dirs[0], listing, yaml);
      if first.Err? then first else Concat(first.value, LoadDirs(fs, dirs[1..], listing, yaml))
  }

  /** Entries that do not exist are skipped. */
  lemma {:induction false} MissingEntriesSkipped(fs: FileSystem, dirs: seq<string>, listing: Listing, yaml: YamlLoader)
    requires forall k :: 0 <= k < |dirs| ==> dirs[k] !in fs
    ensures LoadDirs(fs, dirs, listing, yaml) == Ok([])
  {
    if |dirs| > 0 {
      MissingEntriesSkipped(fs, dirs[1..], listing, yaml);
    }
  }

  /** Registering `skills` one after the other; the TypeError of the first list or mapping
      id ends the loop, so only the skills before it are registered. */
  function RegisterAll(ix: Index, skills: seq<Skill>): (r: Index)
    ensures ValidIndex(ix) ==> ValidIndex(r)
    decreases |skills|
  {
    if |skills| == 0 then ix
    else
      var next := Register(ix, skills[0]);
      if next.Err? then ix else RegisterAll(next.value, skills[1..])
  }

  /** Every skill has an id the registry can store. */
  predicate HashableIds(skills: seq<Skill>) {
    forall k :: 0 <= k < |skills| ==> Hashable(skills[k].id)
  }

  /** An unhashable id at `k` leaves the registry as registering the skills before it does,
      and the skills after it are never registered. */
  lemma {:induction false} RegisterAllStopsAt(ix: Index, skills: seq<Skill>, k: nat)
    requires k < |skills| && !Hashable(skills[k].id)
    requires forall j :: 0 <= j < k ==> Hashable(skills[j].id)
    ensures RegisterAll(ix, skills) == RegisterAll(ix, skills[..k])
    decreases k
  {
    if k > 0 {
      var next := Register(ix, skills[0]).value;
      assert skills[1..][..k - 1] == skills[..k][1..];
      forall j | 0 <= j < k - 1 ensures Hashable(skills[1..][j].id) {
        assert skills[1..][j] == skills[j + 1];
      }
      RegisterAllStopsAt(next, skills[1..], k - 1);
    }
  }

  /** Registration keeps every earlier stage-list entry and every registered id. */
  lemma {:induction false} RegisterAllKeeps(ix: Index, skills: seq<Skill>)
    requires ValidIndex(ix)
    ensures forall s :: s in ix.stages ==> s in RegisterAll(ix, skills).stages && ix.stages[s] <= RegisterAll(ix, skills).stages[s]
    ensures ix.byId.Keys <= RegisterAll(ix, skills).byId.Keys
    decreases |skills|
  {
    if |skills| > 0 && Register(ix, skills[0]).Ok? {
      RegisterAllKeeps(Register(ix, skills[0]).value, skills[1..]);
    }
  }

  /** After registering a list of skills, each of them is in its stage's list and its id
      is registered. */
  lemma {:induction false} RegisterAllRegisters(ix: Index, skills: seq<Skill>, k: nat)
    requires ValidIndex(ix) && k < |skills|
    requires forall j :: 0 <= j <= k ==> Hashable(skills[j].id)
    ensures skills[k] in RegisterAll(ix, skills).stages[skills[k].stage]
    ensures skills[k].id in RegisterAll(ix, skills).byId
    decreases |skills|
  {
    if k == 0 {
      RegisterAllFirst(ix, skills);
    } else {
      var next := Register(ix, skills[0]).value;
      assert RegisterAll(ix, skills) == RegisterAll(next, skills[1..]);
      assert skills[k] == skills[1..][k - 1];
      forall j | 0 <= j <= k - 1 ensures Hashable(skills[1..][j].id) {
        assert skills[1..][j] == skills[j + 1];
      }
      RegisterAllRegisters(next, skills[1..], k - 1);
    }
  }

  lemma RegisterAllFirst(ix: Index, skills: seq<Skill>)
    requires ValidIndex(ix) && 0 < |skills| && Hashable(skills[0].id)
    ensures skills[0] in RegisterAll(ix, skills).stages[skills[0].stage]
    ensures skills[0].id in RegisterAll(ix, skills).byId
  {
    var next := Register(ix, skills[0]).value;
    assert RegisterAll(ix, skills) == RegisterAll(next, skills[1..]);
    StageListExists(ix, skills[0]);
    assert skills[0] in next.stages[skills[0].stage];
    assert skills[0].id in next.byId;
    RegisterAllKeeps(next, skills[1..]);
  }

  /** A skill that no later one shares its id with is the one its id finds. */
  lemma {:induction false} RegisterAllLastWins(ix: Index, skills: seq<Skill>, k: nat)
    requires ValidIndex(ix) && k < |skills|
    requires forall j :: 0 <= j <= k ==> Hashable(skills[j].id)
    requires forall j :: k < j < |skills| ==> skills[j].id != skills[k].id
    ensures skills[k].id in RegisterAll(ix, skills).byId
    ensures RegisterAll(ix, skills).byId[skills[k].id] == skills[k]
    decreases |skills|
  {
    var next := Register(ix, skills[0]).value;
    if k == 0 {
      KeptById(next, skills[1..], skills[0]);
    } else {
      forall j | k - 1 < j < |skills[1..]| ensures skills[1..][j].id != skills[1..][k - 1].id {
        assert skills[1..][j] == skills[j + 1];
      }
      forall j | 0 <= j <= k - 1 ensures Hashable(skills[1..][j].id) {
        assert skills[1..][j] == skills[j + 1];
      }
      RegisterAllLastWins(next, skills[1..], k - 1);
    }
  }

  lemma {:induction false} KeptById(ix: Index, skills: seq<Skill>, skill: Skill)
    requires skill.id in ix.byId && ix.byId[skill.id] == skill
    requires forall j :: 0 <= j < |skills| ==> skills[j].id != skill.id
    ensures skill.id in RegisterAll(ix, skills).byId && RegisterAll(ix, skills).byId[skill.id] == skill
    decreases |skills|
  {
    if |skills| > 0 && Register(ix, skills[0]).Ok? {
      KeptById(Register(ix, skills[0]).value, skills[1..], skill);
    }
  }

  /** `load_skills_from_dirs(dirs)`: skills are collected from every existing entry in
      order, then registered one by one. An error while loading leaves the registry
      untouched; a list or mapping id raises TypeError once the skills before it are
      registered. */
  method LoadSkillsFromDirs(registry: SkillRegistry, fs: FileSystem, dirs: seq<string>, listing: Listing, yaml: YamlLoader)
    returns (r: Result<seq<Skill>>)
    requires registry.Valid()
    modifies registry
    ensures registry.Valid()
    ensures LoadDirs(fs, dirs, listing, yaml).Err? ==>
      r == LoadDirs(fs, dirs, listing, yaml) && registry.State() == old(registry.State())
    ensures LoadDirs(fs, dirs, listing, yaml).Ok? ==>
      var all := LoadDirs(fs, dirs, listing, yaml).value;
      registry.State() == RegisterAll(old(registry.State()), all)
      && r == (if HashableIds(all) then Ok(all) else Err("TypeError"))
  {
    var all: seq<Skill> := [];
    var i := 0;
    assert dirs[0..] == dirs;
    ConcatEmpty(LoadDirs(fs, dirs, listing, yaml));
    while i < |dirs|
      invariant 0 <= i <= |dirs|
      invariant unchanged(registry)
      invariant LoadDirs(fs, dirs, listing, yaml) == Concat(all, LoadDirs(fs, dirs[i..], listing, yaml))
    {
      var d := dirs[i];
      assert dirs[i..][1..] == dirs[i + 1..];
      var found: seq<Skill>;
      if d !in fs {
        found := [];
      } else if fs[d].File? {
        var s := LoadSkillFromFile(fs, d, yaml);
        if s.Err? {
          assert LoadDirs(fs, dirs[i..], listing, yaml) == Err(s.error);
          return Err(s.error);
        }
        found := Found(s.value);
      } else {
        var loaded := LoadSkillsFromDir(fs, listing(d), yaml);
        if loaded.Err? {
          assert LoadDirs(fs, dirs[i..], listing, yaml) == loaded;
          return loaded;
        }
        found := loaded.value;
      }
      assert LoadEntry(fs, d, listing, yaml) == Ok(found);
      assert LoadDirs(fs, dirs[i..], listing, yaml) == Concat(found, LoadDirs(fs, dirs[i + 1..], listing, yaml));
      ConcatConcat(all, found, LoadDirs(fs, dirs[i + 1..], listing, yaml));
      all := all + found;
      i := i + 1;
    }
    assert dirs[i..] == [];
    ConcatEmpty(Ok(all));
    var done := RegisterSkills(registry, all);
    r := if done.Ok? then Ok(all) else Err(done.error);
  }

  /** The loop `for s in all_skills: register_skill(s)`, which a list or mapping id ends
      with TypeError. */
  method RegisterSkills(registry: SkillRegistry, skills: seq<Skill>) returns (r: Result<()>)
    requires registry.Valid()
    modifies registry
    ensures registry.Valid()
    ensures registry.State() == RegisterAll(old(registry.State()), skills)
    ensures r.Ok? <==> HashableIds(skills)
    ensures r.Err? ==> r.error == "TypeError"
  {
    var j := 0;
    assert skills[0..] == skills;
    while j < |skills|
      invariant 0 <= j <= |skills|
      invariant registry.Valid()
      invariant forall i :: 0 <= i < j ==> Hashable(skills[i].id)
      invariant RegisterAll(registry.State(), skills[j..]) == RegisterAll(old(registry.State()), skills)
    {
      assert skills[j..][1..] == skills[j + 1..];
      var done := registry.RegisterSkill(skills[j]);
      if done.Err? {
        return done;
      }
      j := j + 1;
    }
    r := Ok(());
  }

  /** Every skill `load_skills_from_dirs` returns is registered: listed for its stage, with
      its id known to the registry. (It returns skills only when every id is hashable.) */
  lemma LoadedAreRegistered(ix: Index, all: seq<Skill>, k: nat)
    requires ValidIndex(ix) && k < |all| && HashableIds(all)
    ensures all[k] in SkillsForStage(RegisterAll(ix, all), StageName(all[k].stage))
    ensures SkillById(RegisterAll(ix, all), all[k].id).Ok?
    ensures SkillById(RegisterAll(ix, all), all[k].id).value.Some?
  {
    RegisterAllRegisters(ix, all, k);
    StageNamedOfName(StageName(all[k].stage));
  }
}

=== FILE: skills_registry.dfy ===
/** The skill registry: skills validated on construction, kept in a map by id and in a
    duplicate-free list per pipeline stage, both updated in place by registration and
    emptied by `clear_registry`. */
module SkillsRegistry {
  import opened Common

  /** The three pipeline stages a skill may serve (`STAGES`). */
  datatype Stage = ContextEnhance | CopyWrite | ImagePrompt

  /** The name of a stage as it appears in skill files. */
  function StageName(s: Stage): string {
    match s
    case ContextEnhance => "context_enhance"
    case CopyWrite => "copy_write"
    case ImagePrompt => "image_prompt"
  }

  /** The stage a name denotes, if it is one of `STAGES`. */
  function StageNamed(name: string): (r: Option<Stage>)
    ensures r.Some? ==> StageName(r.value) == name
  {
    if name == "context_enhance" then Some(ContextEnhance)
    else if name == "copy_write" then Some(CopyWrite)
    else if name == "image_prompt" then Some(ImagePrompt)
    else None
  }

  /** Stage names and stages correspond one to one. */
  lemma StageNamedOfName(name: string)
    ensures forall t: Stage :: StageNamed(StageName(t)) == Some(t)
    ensures StageNamed(name).None? <==> forall t: Stage :: StageName(t) != name
  {
    forall t: Stage ensures StageNamed(StageName(t)) == Some(t) {
      match t
      case ContextEnhance =>
      case CopyWrite =>
      case ImagePrompt =>
    }
  }

  /** A skill. Its identifier, name and description are whatever the skill file's
      metadata held (the source annotates them as strings but does not check); its stage
      is one of the three stages, which construction enforces. */
  datatype Skill = Skill(id: Value, name: Value, stage: Stage, description: Value, content: string)

  /** `Skill(...)` with its `__post_init__` check: a stage outside `STAGES` raises
      ValueError, whose message shows the `STAGES` tuple as Python prints it. */
  function MakeSkill(id: Value, name: Value, stage: Value, description: Value, content: string): (r: Result<Skill>)
    ensures r.Ok? <==> stage.VStr? && StageNamed(stage.s).Some?
    ensures r.Ok? ==>
      r.value.id == id && r.value.name == name && VStr(StageName(r.value.stage)) == stage
      && r.value.description == description && r.value.content == content
    ensures r.Err? ==> StartsWith(r.error, "ValueError")
  {
    var st := if stage.VStr? then StageNamed(stage.s) else None;
    if st.None? then
      var detail := ": stage must be one of ('context_enhance', 'copy_write', 'image_prompt'), got " + Str(stage);
      assert ("ValueError" + detail)[..10] == "ValueError";
      Err("ValueError" + detail)
    else Ok(Skill(id, name, st.value, description, content))
  }

  predicate NoDuplicates(list: seq<Skill>) {
    forall i, j :: 0 <= i < j < |list| ==> list[i] != list[j]
  }

  /** A stage list after `if skill not in lst: lst.append(skill)`: the skill is present,
      the earlier entries keep their places, and no duplicate appears. */
  function Appended(list: seq<Skill>, skill: Skill): (r: seq<Skill>)
    ensures skill in r
    ensures |list| <= |r| <= |list| + 1 && r[..|list|] == list
    ensures forall x :: x in r <==> x in list || x == skill
    ensures NoDuplicates(list) ==> NoDuplicates(r)
  {
    if skill in list then list else list + [skill]
  }

  /** The registry's state: `_registry` and `_stage_index`. */
  datatype Index = Index(byId: map<Value, Skill>, stages: map<Stage, seq<Skill>>)

  predicate HasEveryStage(stages: map<Stage, seq<Skill>>) {
    forall s: Stage :: s in stages
  }

  /** A map with a list for each of the three stages has one for every stage. */
  lemma EveryStage(stages: map<Stage, seq<Skill>>)
    requires ContextEnhance in stages && CopyWrite in stages && ImagePrompt in stages
    ensures HasEveryStage(stages)
  {
    forall s: Stage ensures s in stages {
      match s
      case ContextEnhance =>
      case CopyWrite =>
      case ImagePrompt =>
    }
  }

  /** What registration and clearing keep: every stage has a list, each list holds only
      skills of its stage and no two equal skills, and every skill found by id is in the
      list of its stage under that id, which is hashable. */
  predicate ValidIndex(ix: Index) {
    HasEveryStage(ix.stages)
    && (forall id :: id in ix.byId ==> Hashable(id))
    && (forall s :: s in ix.stages ==> NoDuplicates(ix.stages[s]))
    && (forall s, k :: s in ix.stages && 0 <= k < |ix.stages[s]| ==> ix.stages[s][k].stage == s)
    && (forall id :: id in ix.byId ==> ix.byId[id].id == id && ix.byId[id] in ix.stages[ix.byId[id].stage])
  }

  /** The state at import: no skills, an empty list for each stage. */
  const EMPTY: Index := Index(map[], map[ContextEnhance := [], CopyWrite := [], ImagePrompt := []])

  /** `register_skill(skill)`, including the branch that creates a missing stage list. The
      id is stored first, so a list or mapping id raises TypeError before anything changes. */
  function Register(ix: Index, skill: Skill): (r: Result<Index>)
    ensures r.Err? <==> !Hashable(skill.id)
    ensures r.Err? ==> r.error == "TypeError"
    ensures r.Ok? ==> r.value.byId == ix.byId[skill.id := skill]
    ensures r.Ok? ==> r.value.stages.Keys == ix.stages.Keys + {skill.stage}
    ensures r.Ok? ==> forall s :: s in ix.stages && s != skill.stage ==> r.value.stages[s] == ix.stages[s]
    ensures r.Ok? && skill.stage in ix.stages ==> r.value.stages[skill.stage] == Appended(ix.stages[skill.stage], skill)
    ensures r.Ok? && ValidIndex(ix) ==> ValidIndex(r.value) && r.value.stages.Keys == ix.stages.Keys
  {
    if !Hashable(skill.id) then Err("TypeError")
    else
      var list := if skill.stage in ix.stages then ix.stages[skill.stage] else [];
      var r := Index(ix.byId[skill.id := skill], ix.stages[skill.stage := Appended(list, skill)]);
      AppendKeepsValid(ix, skill, list, r);
      Ok(r)
  }

  lemma AppendKeepsValid(ix: Index, skill: Skill, list: seq<Skill>, r: Index)
    requires list == if skill.stage in ix.stages then ix.stages[skill.stage] else []
    requires Hashable(skill.id)
    requires r == Index(ix.byId[skill.id := skill], ix.stages[skill.stage := Appended(list, skill)])
    ensures ValidIndex(ix) ==> ValidIndex(r) && r.stages.Keys == ix.stages.Keys
  {
    if ValidIndex(ix) {
      assert skill.stage in ix.stages;
      assert r.stages.Keys == ix.stages.Keys;
      forall s | s in r.stages ensures NoDuplicates(r.stages[s]) {
      }
      forall s, k | s in r.stages && 0 <= k < |r.stages[s]| ensures r.stages[s][k].stage == s {
        if s == skill.stage && k >= |list| {
          assert r.stages[s][k] == skill;
        } else if s == skill.stage {
          assert r.stages[s][k] == list[k];
        }
      }
      forall id | id in r.byId ensures r.byId[id].id == id && r.byId[id] in r.stages[r.byId[id].stage] {
        if id != skill.id {
          var x := ix.byId[id];
          assert x in ix.stages[x.stage];
          assert x in r.stages[x.stage];
        }
      }
    }
  }

  /** `get_skills_for_stage(name)`: the stage's list, `[]` for a name that is no stage. */
  function SkillsForStage(ix: Index, name: string): (r: seq<Skill>)
    requires ValidIndex(ix)
    ensures StageNamed(name).None? ==> r == []
    ensures forall k :: 0 <= k < |r| ==> StageName(r[k].stage) == name
    ensures NoDuplicates(r)
  {
    var s := StageNamed(name);
    if s.Some? then ix.stages[s.value] else []
  }

  /** `get_skill_by_id(id)`: `dict.get`, which raises TypeError for a list or mapping id. */
  function SkillById(ix: Index, id: Value): (r: Result<Option<Skill>>)
    requires ValidIndex(ix)
    ensures r.Err? <==> !Hashable(id)
    ensures r.Err? ==> r.error == "TypeError"
    ensures r.Ok? ==> (r.value.Some? <==> id in ix.byId)
    ensures r.Ok? && r.value.Some? ==> r.value.value.id == id && r.value.value in ix.stages[r.value.value.stage]
  {
    if !Hashable(id) then Err("TypeError")
    else if id in ix.byId then Ok(Some(ix.byId[id]))
    else Ok(None)
  }

  /** `clear_registry()`: no skills, and every stage keeps an (empty) list. */
  function Cleared(ix: Index): (r: Index)
    ensures r.byId == map[]
    ensures r.stages.Keys == ix.stages.Keys
    ensures forall s :: s in r.stages ==> r.stages[s] == []
    ensures ValidIndex(ix) ==> ValidIndex(r)
  {
    Index(map[], map s | s in ix.stages :: [])
  }

  lemma EmptyIsValid()
    ensures ValidIndex(EMPTY)
    ensures forall s :: s in EMPTY.stages ==> EMPTY.stages[s] == []
  {
    EveryStage(EMPTY.stages);
  }

  /** A registered skill is found by its id and listed for its stage. */
  lemma RegisterThenLookup(ix: Index, skill: Skill)
    requires ValidIndex(ix) && Hashable(skill.id)
    ensures Register(ix, skill).Ok?
    ensures SkillById(Register(ix, skill).value, skill.id) == Ok(Some(skill))
    ensures skill in SkillsForStage(Register(ix, skill).value, StageName(skill.stage))
  {
    StageNamedOfName(StageName(skill.stage));
  }

  /** A later skill with the same id replaces the earlier one in the id map; the earlier
      one stays in its stage list. */
  lemma LastIdWins(ix: Index, a: Skill, b: Skill)
    requires ValidIndex(ix) && a.id == b.id && Hashable(a.id)
    ensures Register(ix, a).Ok? && Register(Register(ix, a).value, b).Ok?
    ensures SkillById(Register(Register(ix, a).value, b).value, a.id) == Ok(Some(b))
    ensures a in Register(Register(ix, a).value, b).value.stages[a.stage]
  {
  }

  /** Registering the same skill twice changes nothing the second time. */
  lemma RegisterIdempotent(ix: Index, skill: Skill)
    requires ValidIndex(ix) && Hashable(skill.id)
    ensures Register(ix, skill).Ok?
    ensures Register(Register(ix, skill).value, skill) == Register(ix, skill)
  {
    var once := Register(ix, skill).value;
    assert once.byId[skill.id := skill] == once.byId;
    assert once.stages[skill.stage := once.stages[skill.stage]] == once.stages;
  }

  /** On a valid registry the branch that creates a stage list never runs. */
  lemma StageListExists(ix: Index, skill: Skill)
    requires ValidIndex(ix)
    ensures skill.stage in ix.stages
  {
  }

  /** The module-level registry, updated in place. */
  class SkillRegistry {
    var byId: map<Value, Skill>
    var stageIndex: map<Stage, seq<Skill>>

    function State(): Index
      reads this
    {
      Index(byId, stageIndex)
    }

    ghost predicate Valid()
      reads this
    {
      ValidIndex(State())
    }

    /** The registry at import. */
    constructor ()
      ensures Valid() && State() == EMPTY
    {
      byId := map[];
      stageIndex := map[ContextEnhance := [], CopyWrite := [], ImagePrompt := []];
      EmptyIsValid();
    }

    /** `register_skill(skill)`; the TypeError of an unhashable id is returned, with the
        registry untouched. */
    method RegisterSkill(skill: Skill) returns (r: Result<()>)
      requires Valid()
      modifies this
      ensures Valid()
      ensures r.Err? <==> !Hashable(skill.id)
      ensures r.Err? ==> r.error == "TypeError" && State() == old(State())
      ensures r.Ok? ==> State() == Register(old(State()), skill).value
    {
      if !Hashable(skill.id) {
        return Err("TypeError");
      }
      byId := byId[skill.id := skill];
      if skill.stage !in stageIndex {
        assert false;
      }
      if skill !in stageIndex[skill.stage] {
        stageIndex := stageIndex[skill.stage := stageIndex[skill.stage] + [skill]];
      }
      r := Ok(());
    }

    /** `get_skills_for_stage(name)`: a copy of the stage's list (sequences are values, so
        the caller cannot change the registry through it). */
    method GetSkillsForStage(name: string) returns (r: seq<Skill>)
      requires Valid()
      ensures r == SkillsForStage(State(), name)
    {
      var s := StageNamed(name);
      if s.None? {
        return [];
      }
      r := stageIndex[s.value];
    }

    /** `get_skill_by_id(id)`. */
    method GetSkillById(id: Value) returns (r: Result<Option<Skill>>)
      requires Valid()
      ensures r == SkillById(State(), id)
    {
      if !Hashable(id) {
        return Err("TypeError");
      }
      if id in byId {
        return Ok(Some(byId[id]));
      }
      return Ok(None);
    }

    /** `clear_registry()`: the id map is emptied and each stage list cleared in turn. */
    method ClearRegistry()
      requires Valid()
      modifies this
      ensures Valid()
      ensures State() == Cleared(old(State()))
    {
      byId := map[];
      var stages := [ContextEnhance, CopyWrite, ImagePrompt];
      var i := 0;
      while i < |stages|
        invariant 0 <= i <= |stages|
        invariant byId == map[]
        invariant stageIndex.Keys == old(stageIndex).Keys
        invariant forall k :: 0 <= k < i ==> stageIndex[stages[k]] == []
        invariant Valid()
      {
        stageIndex := stageIndex[stages[i] := []];
        i := i + 1;
      }
      assert stageIndex == Cleared(old(State())).stages by {
        forall s | s in stageIndex ensures stageIndex[s] == [] {
          assert s == stages[0] || s == stages[1] || s == stages[2];
        }
      }
    }
  }
}
